=== FILE: README.md ===
# Link-Chat link layer in Dafny

This project models the link-layer protocol logic of Link-Chat, a chat and
file-sharing program that talks directly over Ethernet with its own
EtherType (0x88B5). The program exists in two code generations: an older
`LinkChat/src/...` tree and a newer `src/...` tree. The model covers:

- the 10-byte payload header with its additive 16-bit checksum
  (`Protocol`);
- the Ethernet II header codec (`EthernetFrame`) and the MAC text/byte
  conversions and message ids (`Helpers`);
- the raw-socket wrapper of the older tree (`RawSocket`) and the socket
  manager of the newer one (`SocketManager`). The model keeps only their
  flags, pre-filter, observer lists and callback registry;
- the text-messaging engine (`Messaging`), with size-checked sends,
  deduplication by message id, a bounded history and ACK bookkeeping;
- both device registries (`Discovery`, `LegacyDiscovery`);
- the file-transfer record (`Transfer`) and the newer transfer manager
  (`TransferManager`). This covers chunk ranges, the chunk envelope, the
  receive handlers, index-ordered reassembly, completion, the inactivity
  sweep and the send window of 10;
- the older stop-and-wait file service (`LegacyTransfer`).

State is held in immutable datatypes, and every operation is a pure
function from the old state to the new one. Some inputs become
parameters:

- the clock: `now` in ms, `micros` for message ids;
- JSON decoding: a decoded record, or None when decoding raised;
- the MD5 digest and the name deserializer: functions;
- file contents: an `Option<seq<byte>>`;
- the outcome of each socket send: a bool.

Observer and callback notifications are returned as data: event lists,
call lists, or the delivered message. The newer transfer manager's
`_notify_transfer_started`, `_notify_transfer_progress` and
`_notify_transfer_completed` calls are returned as a list of `Notice`
values, one per call, each carrying the transfer as it stands; the
registry of transfer callbacks they fan out to is not modelled. The
iteration order of a dictionary or set is a `seq` parameter.

Some behaviour of the code is easy to misread; the model follows the
code in each case:

- The checksum (LinkChat/src/core/protocol.py:99-117) adds the full,
  untruncated data length, while the header stores `len & 0xFFFF`.
- `to_bytes` writes the checksum it computes back into the packet object
  (LinkChat/src/core/protocol.py:40-41). `Protocol.ToBytes` returns only
  the bytes; the value written back is given separately by
  `Protocol.EmittedChecksum`, and nothing is mutated.
- A discovery request from the local address is still answered.
- The older receiver saves a file at `DOWNLOADS_PATH + name`
  (LinkChat/src/networking/file_transfer.py:35). The older tree's own
  constants module is not part of this model; `DOWNLOADS_PATH` is taken
  from the newer tree (src/utils/constants.py:57), `/home/Downloads` with
  no trailing '/', so the model's save path has no separator either.
- The newer receiver completes when its chunk counter reaches
  `total_chunks`. Its FILE_END handler does nothing.
- The wire layout is a 14-byte Ethernet header followed by the 10-byte
  payload header, handled by two separate codecs.

## Model

| member | source | states |
|---|---|---|
| Bytes.Be16 | LinkChat/src/core/protocol.py:44-50 | `struct.pack('!H')`: two bytes whose big-endian value is the input |
| Bytes.Be32 | LinkChat/src/core/protocol.py:44-50 | `struct.pack('!I')`: four bytes whose big-endian value is the input |
| Bytes.FromBeAppend | LinkChat/src/core/protocol.py:44-50 | the big-endian value of a concatenation is the prefix's value shifted by the suffix's width plus the suffix's value |
| Bytes.SumUpdate | LinkChat/src/core/protocol.py:114-115 | replacing one byte changes the byte sum by exactly the difference |
| Bytes.Read | src/networking/file_transfer.py:331-333 | `seek` then `read(count)`: the slice `[pos, pos+count)` when it fits, the rest of the file when the count is negative or too large, nothing at or after the end |
| Protocol.CalculateChecksum | LinkChat/src/core/protocol.py:99-117 | the checksum always lies in [0, 65536) |
| Protocol.ToBytes | LinkChat/src/core/protocol.py:32-53 | encoding succeeds iff type, id and emitted checksum fit their fields; the output is 10 + len(data) bytes of version, type, big-endian id, `len & 0xFFFF`, the checksum (computed only when the stored one is 0), then the data |
| Protocol.FromBytes | LinkChat/src/core/protocol.py:56-97 | None for input shorter than 10 bytes, a wrong version, or too few data bytes; every decoded packet passes the checksum check and carries the header fields and exactly the declared data bytes |
| Protocol.BadChecksumRejected | LinkChat/src/core/protocol.py:88-92 | a well-formed header whose stored checksum differs from the recomputed one is rejected |
| Protocol.ChecksumIgnoresStored | LinkChat/src/core/protocol.py:119-131 | the recomputed checksum does not depend on the stored checksum field |
| Protocol.OnlyComputedChecksumVerifies | LinkChat/src/core/protocol.py:119-131 | `_verify_checksum` accepts exactly one stored checksum: the one recomputed from the other fields |
| Protocol.RoundTrip | LinkChat/src/core/protocol.py:32-94 | a packet with checksum 0 (or its correct checksum) and fields that fit decodes from its encoding to itself, with the checksum filled in |
| Protocol.WrongChecksumNeverDecodes | LinkChat/src/core/protocol.py:40-41 | a nonzero wrong checksum supplied by the caller is emitted verbatim, and the encoding does not decode |
| Protocol.TrailingBytesIgnored | LinkChat/src/core/protocol.py:85 | bytes after the declared length never change the decoding |
| Protocol.SingleByteCorruptionDetected | LinkChat/src/core/protocol.py:114-117 | changing any one data byte of a decodable input makes it undecodable |
| Protocol.OversizedDataLost | LinkChat/src/core/protocol.py:44-53 | data of 65536 bytes or more never survives a round trip: decoding fails or returns less data |
| EthernetFrame.NewFrame | LinkChat/src/core/frame.py:16-28 | whatever the caller passes, a new frame carries ETHERTYPE_LINKCHAT |
| EthernetFrame.Fit6 | LinkChat/src/core/frame.py:42-47 | `struct.pack('6s')`: six bytes, truncated or zero-padded |
| EthernetFrame.ToBytes | LinkChat/src/core/frame.py:30-49 | fails iff a MAC does not parse; otherwise dest(6), src(6), big-endian EtherType, payload, for 14 + len(payload) bytes |
| EthernetFrame.FromBytes | LinkChat/src/core/frame.py:52-86 | None below 14 bytes or for a foreign EtherType; otherwise the formatted MACs and every byte after offset 14 as payload |
| EthernetFrame.AcceptsOwnEtherType | LinkChat/src/core/frame.py:62-83 | every input of at least 14 bytes with EtherType 0x88B5 decodes |
| EthernetFrame.RoundTrip | LinkChat/src/core/frame.py:30-86 | decoding an encoded frame gives the payload back and each MAC as `format(parse(mac))` |
| EthernetFrame.CanonicalMac | LinkChat/src/utils/helpers.py:69-91 | a 17-character well-formed MAC parses to six bytes and formats back to its lower-case form |
| EthernetFrame.RoundTripWellFormed | LinkChat/src/core/frame.py:30-86 | for well-formed addresses the round trip gives the MACs back lower-cased |
| Helpers.HexByte | LinkChat/src/utils/helpers.py:79 | `f'{b:02x}'` is two characters |
| Helpers.FormatMac | LinkChat/src/utils/helpers.py:69-79 | the text is 3n-1 characters for n > 0 bytes (two digits per byte, ':' between) |
| Helpers.RemoveColons | LinkChat/src/utils/helpers.py:91 | the result is never longer than the input |
| Helpers.NoColonsLeft | LinkChat/src/utils/helpers.py:91 | no ':' survives the replacement |
| Helpers.HexValue | LinkChat/src/utils/helpers.py:91 | a hex digit's value is below 16 |
| Helpers.FromHex | LinkChat/src/utils/helpers.py:91 | `bytes.fromhex` yields at most one byte per two characters |
| Helpers.ParseMac | LinkChat/src/utils/helpers.py:81-91 | at most one byte per two characters, and text without ':' is read by `bytes.fromhex` as is |
| Helpers.RemoveColonsKeepsColonFree | LinkChat/src/utils/helpers.py:91 | text without ':' passes the replacement unchanged |
| Helpers.CreateMessageId | LinkChat/src/utils/helpers.py:102-109 | the id lies in [0, 2^32) and is congruent to the microsecond reading modulo 2^32 |
| Helpers.Lower | LinkChat/src/utils/helpers.py:79 | lower-casing keeps the length |
| Helpers.LowerMapsEach | LinkChat/src/utils/helpers.py:79 | lower-casing maps each character on its own |
| Helpers.ColonsIgnored | LinkChat/src/utils/helpers.py:91 | inserting a ':' anywhere does not change what `parse_mac_address` returns |
| Helpers.RemoveColonsAppend | LinkChat/src/utils/helpers.py:91 | stripping colons distributes over concatenation |
| Helpers.HexByteDecodes | LinkChat/src/utils/helpers.py:69-91 | the two digits of a formatted byte read back as its high and low nibbles |
| Helpers.FromHexPair | LinkChat/src/utils/helpers.py:91 | `bytes.fromhex` reads a leading digit pair as one byte in front of the rest |
| Helpers.PairFormats | LinkChat/src/utils/helpers.py:69-91 | a hex pair decodes to a byte that formats back to the pair in lower case |
| Helpers.RemoveColonsSplit | LinkChat/src/utils/helpers.py:91 | removing colons from `a:b` gives the colon-free `a` followed by the colon-free `b` |
| Helpers.HexByteParses | LinkChat/src/utils/helpers.py:69-91 | a formatted byte holds no ':' and reads back as that byte in front of any parsable rest |
| Helpers.HexPair | LinkChat/src/utils/helpers.py:69-91 | a hex digit pair holds no ':' and its byte formats as the pair lower-cased |
| Helpers.FormatParsePair | LinkChat/src/utils/helpers.py:69-91 | a single hex pair parses and formats back to its lower-case form |
| Helpers.LowerAppend | LinkChat/src/utils/helpers.py:79 | lower-casing distributes over concatenation |
| Helpers.FormatParseTail | LinkChat/src/utils/helpers.py:69-91 | a well-formed MAC longer than one pair parses and formats back to its lower-case form, given that its tail does |
| Helpers.ParseFormat | LinkChat/src/utils/helpers.py:69-91 | `parse_mac_address(format_mac_address(b)) == b` for every byte string |
| Helpers.FormatParse | LinkChat/src/utils/helpers.py:69-91 | `format_mac_address(parse_mac_address(s))` is `s` lower-cased for every well-formed MAC text |
| Helpers.SixByteMacLength | LinkChat/src/utils/helpers.py:79 | six bytes format to 17 characters |
| RawSocket.ReceiveStep | LinkChat/src/core/raw_socket.py:107-116 | packets shorter than 14 bytes or with another EtherType are dropped; others go on unchanged |
| RawSocket.PreFilterMatchesCodec | LinkChat/src/core/raw_socket.py:107-116 | the pre-filter passes a packet iff the Ethernet codec would parse it |
| RawSocket.SendFrame | LinkChat/src/core/raw_socket.py:53-78 | False and nothing on the link when the socket is None or `send` raises OSError; otherwise True, and exactly the frame reaches the link |
| RawSocket.CloseSocket | LinkChat/src/core/raw_socket.py:131-138 | afterwards the socket is None |
| RawSocket.CloseIdempotent | LinkChat/src/core/raw_socket.py:131-138 | closing twice is closing once |
| RawSocket.SendAfterCloseFails | LinkChat/src/core/raw_socket.py:63-65 | after `close_socket`, a send puts nothing on the link and returns False |
| RawSocket.RegisterCallback | LinkChat/src/core/raw_socket.py:160-161 | the name is bound to the callback, overwriting; other names keep theirs |
| RawSocket.UnregisterCallback | LinkChat/src/core/raw_socket.py:165-166 | the name is gone, others keep theirs; an absent name changes nothing |
| SocketManager.Attach | src/core/raw_socket_manager.py:108-117 | appends only when absent, keeps attach order, and never creates duplicates |
| SocketManager.RemoveFirst | src/core/raw_socket_manager.py:142 | `list.remove` drops one occurrence and, in a duplicate-free list, that observer entirely |
| SocketManager.Detach | src/core/raw_socket_manager.py:133-144 | removes the observer; an absent observer is a no-op |
| SocketManager.NotifyPass | src/core/raw_socket_manager.py:128-131 | every observer of the snapshot is called, in order, whatever the callbacks detach |
| SocketManager.DetachAll | src/core/raw_socket_manager.py:133-144 | after detaching a list of observers none of them remains |
| SocketManager.Notify | src/core/raw_socket_manager.py:119-131 | the observers called are exactly the list at notification time, in list order |
| SocketManager.StartReceiving | src/core/raw_socket_manager.py:88-93 | a thread is started iff none was receiving; afterwards the manager is receiving |
| SocketManager.StartTwiceStartsOnce | src/core/raw_socket_manager.py:90-93 | a second start is a no-op |
| SocketManager.StopReceiving | src/core/raw_socket_manager.py:95-102 | a no-op when not receiving; otherwise clears the flag, closes the socket and drops the thread |
| SocketManager.CloseSocket | src/core/raw_socket_manager.py:82-86 | afterwards the socket is None and the other flags are untouched |
| SocketManager.CloseIdempotent | src/core/raw_socket_manager.py:82-86 | closing twice is closing once |
| SocketManager.ReceiveStep | src/core/raw_socket_manager.py:72-77 | observers are notified iff receiving and the packet is non-empty, with whatever `from_bytes` returned, None included |
| Messaging.Utf8Length | src/networking/messaging.py:90 | the UTF-8 length is between one and four bytes per character |
| Messaging.Utf8CharLength | src/networking/messaging.py:90 | one character encodes to one to four UTF-8 bytes |
| Messaging.Send | src/networking/messaging.py:77-136 | oversized content returns False with no frame and no change; otherwise the result is True iff the send succeeded, and a success records the message under its new id, unacknowledged, leaving the other entries alone |
| Messaging.SendMessage | src/networking/messaging.py:77-136 | a unicast to the target, recorded with `is_broadcast` False |
| Messaging.SendBroadcastMessage | src/networking/messaging.py:138-196 | a MSG_TYPE_BROADCAST frame to ff:ff:ff:ff:ff:ff, recorded with `is_broadcast` True |
| Messaging.Init | src/networking/messaging.py:33-47 | a new manager has sent nothing, received nothing and an empty history, which satisfies the history invariant |
| Messaging.AppendKeepsValid | src/networking/messaging.py:325-326 | appending a new message below the bound keeps the history invariant |
| Messaging.EvictKeepsValid | src/networking/messaging.py:329-332 | appending at the bound and evicting the oldest entry keeps the history invariant |
| Messaging.Insert | src/networking/messaging.py:324-332 | the history invariant is kept: at most 1000 entries, the oldest evicted first and also dropped from `received_messages`, whose keys are exactly the queued ids |
| Messaging.HandleTextMessage | src/networking/messaging.py:303-343 | an unparsable payload or a known id changes nothing and sends nothing; a new message is inserted into the history exactly as `Insert` does (appended, the oldest evicted at 1000); its content is the string, or the JSON value of another type; when `content[:50]` can slice it the message is delivered once and acknowledged with one ACK carrying its id, otherwise it stays stored with no ACK and no delivery |
| Messaging.HandleBroadcastMessage | src/networking/messaging.py:345-384 | the same deduplication and history insertion, flagged broadcast, never an ACK, and delivered iff the content can be sliced |
| Messaging.DuplicateDeliveredOnce | src/networking/messaging.py:319-321 | the same text message handled twice in a row is stored, delivered and acknowledged only once |
| Messaging.HandleMessageAck | src/networking/messaging.py:386-403 | only a present, nonzero `original_msg_id` naming a sent message sets its flag; nothing else changes |
| Messaging.SendThenAck | src/networking/messaging.py:386-403 | after a successful send records id k (nonzero), the ACK echoing k marks exactly that message acknowledged, and every other sent message, the received table and the history stay as before the send |
| Messaging.PySuffix | src/networking/messaging.py:251 | Python's `q[start:]` with negative starts counted from the end and clamped |
| Messaging.GetReceivedMessages | src/networking/messaging.py:241-251 | the last min(limit, n) messages for limit ≥ 1, the whole queue for limit 0 (`[-0:]`), and a prefix dropped for a negative limit |
| Discovery.DiscoveryRequest | src/networking/discovery.py:70-109 | a MSG_TYPE_DISCOVERY broadcast |
| Discovery.DiscoveryReply | src/networking/discovery.py:111-150 | a MSG_TYPE_DISCOVERY_REPLY to the target alone |
| Discovery.Heartbeat | src/networking/discovery.py:152-182 | a MSG_TYPE_HEARTBEAT broadcast |
| Discovery.AddDevice | src/networking/discovery.py:304-328 | the local address changes nothing and reports nothing; any other address is overwritten and reported once, as discovered iff it was unknown and as updated iff it was known |
| Discovery.HandleDiscoveryRequest | src/networking/discovery.py:240-262 | the registry and events are exactly `_add_device` of the sender as an active `discovery_request` at `now`: a foreign sender is added or overwritten and reported once (discovered iff new), every other device is unchanged, and the local address changes nothing; exactly one reply goes to the sender |
| Discovery.HandleDiscoveryReply | src/networking/discovery.py:264-283 | the registry and events are exactly `_add_device` of the sender as an active `discovery_reply`; other devices are unchanged, the local address changes nothing, and nothing is sent |
| Discovery.HandleHeartbeat | src/networking/discovery.py:285-302 | an unknown sender is ignored; a known one gets `last_seen = now` and `active`, silently, and no other entry changes |
| Discovery.HandleFrame | src/networking/discovery.py:221-238 | other message types are ignored; events only ever concern the sender and are never disconnects |
| Discovery.HandleFrameExcludesLocal | src/networking/discovery.py:312-313 | handling frames never registers the local address |
| Discovery.DisconnectEvents | src/networking/discovery.py:206-213 | exactly the devices that were active and timed out are reported, each once and with `active` False |
| Discovery.Sweep | src/networking/discovery.py:195-204 | every device is kept, flagged active iff seen within 60000 ms |
| Discovery.GetDiscoveredDevices | src/networking/discovery.py:184-215 | every device is returned, active iff fresh, with `last_seen` unchanged; a disconnect is reported once for exactly the devices this sweep flipped from active to inactive |
| Discovery.LaterSweepReportsOnlyFresh | src/networking/discovery.py:195-213 | with no frame in between, a later sweep reports only devices still fresh at the earlier one, and a repeated sweep at the same time reports nothing |
| Discovery.NoTimedOutActiveNoEvents | src/networking/discovery.py:206-213 | a sweep where no device is both active and timed out reports nothing |
| Discovery.Attach | src/networking/discovery.py:358-359 | `set.add`: the observer is present and no other is added |
| Discovery.Detach | src/networking/discovery.py:361-362 | `set.discard`: the observer is absent afterwards; an absent observer is a no-op |
| Discovery.Notify | src/networking/discovery.py:364-366 | every call goes to an attached observer with the event, every attached observer is called, none twice, and there are as many calls as observers |
| Discovery.OrderCoversSet | src/networking/discovery.py:364-366 | an iteration order that lists each member of a set once has the set's size |
| Discovery.NotifyAttachedOnce | src/networking/discovery.py:358-366 | after `attach(o)`, a notification calls `o` exactly once |
| Discovery.NotifyDetachedNever | src/networking/discovery.py:361-366 | after `detach(o)`, a notification never calls `o` |
| LegacyDiscovery.AddDevice | LinkChat/src/networking/discovery.py:308-330 | the local address is ignored; any other is overwritten and every registered callback is called with (mac, info), new device or not |
| LegacyDiscovery.AddDeviceAgreesWithNew | LinkChat/src/networking/discovery.py:308-330 | the older registry stores exactly what the newer one does |
| LegacyDiscovery.HandleDiscoveryRequest | LinkChat/src/networking/discovery.py:240-264 | an unparsable body registers, calls and answers nothing; otherwise registry and calls are exactly `_add_device` of the sender: a foreign sender is stored, every callback is called once with it in key order, other devices are unchanged; and one reply goes to the sender |
| LegacyDiscovery.HandleDiscoveryReply | LinkChat/src/networking/discovery.py:266-287 | an unparsable body or the local address changes nothing; otherwise registry and calls are exactly `_add_device` of the sender, with every callback called once in key order and other devices unchanged; nothing is sent |
| LegacyDiscovery.HandleHeartbeat | LinkChat/src/networking/discovery.py:289-306 | only known devices are refreshed, with no callbacks |
| LegacyDiscovery.GetDiscoveredDevices | LinkChat/src/networking/discovery.py:177-197 | every device is returned, active iff fresh, with no callbacks |
| LegacyDiscovery.SweepAgreesWithNew | LinkChat/src/networking/discovery.py:177-197 | both registries flag the same devices active |
| LegacyDiscovery.RegisterCallback | LinkChat/src/networking/discovery.py:199-207 | overwrites by name |
| LegacyDiscovery.UnregisterCallback | LinkChat/src/networking/discovery.py:209-217 | removes the name; an absent name is a no-op |
| LegacyDiscovery.RegisterUnregister | LinkChat/src/networking/discovery.py:199-217 | registering then unregistering a fresh name restores the registry |
| Transfer.BasenameIsLastComponent | src/core/file_transfer.py:20 | `filename` is the last component of the path: a '/'-free suffix preceded by '/' unless it is the whole path |
| Transfer.Basename | src/core/file_transfer.py:20 | the basename holds no '/' and is no longer than the path |
| Transfer.ChunkCountIsCeiling | src/core/file_transfer.py:41-43 | the chunk count is 0 for an empty file and otherwise (n-1)·1400 < size ≤ n·1400 |
| Transfer.ChunkCount | src/core/file_transfer.py:41-43 | a file has no chunks iff it is empty |
| Transfer.EightThousandBytesSixChunks | src/core/file_transfer.py:43 | 8000 bytes give 6 chunks |
| Transfer.NewTransfer | src/core/file_transfer.py:11-45 | a new transfer is pending with zero counters and empty chunk tables; only a sender whose file exists gets size, chunk count and hash |
| Transfer.FreshReceiverComplete | src/core/file_transfer.py:60-65 | a fresh receiver record counts as complete |
| Transfer.FreshSenderComplete | src/core/file_transfer.py:60-65 | a fresh sender counts as complete iff its file is missing or empty |
| Transfer.Indices | src/core/file_transfer.py:60-65 | the set of chunk indices `0..n-1` |
| Transfer.IndicesSize | src/core/file_transfer.py:60-65 | there are n chunk indices below n |
| Transfer.SubsetSameSize | src/core/file_transfer.py:60-65 | an ACK set inside the index set with as many members is the index set |
| Transfer.SubsetSize | src/core/file_transfer.py:60-65 | a subset is no larger than its superset |
| Transfer.SenderCompleteIffAllAcked | src/core/file_transfer.py:60-65 | a sender whose ACK set holds only indices below its chunk count is complete iff every index was acknowledged |
| TransferManager.NatText | src/networking/file_transfer.py:186 | the decimal text of a number is never empty |
| TransferManager.NatTextInjective | src/networking/file_transfer.py:186 | distinct numbers have distinct decimal texts |
| TransferManager.DigitInjective | src/networking/file_transfer.py:186 | distinct digits are distinct characters |
| TransferManager.TransferId | src/networking/file_transfer.py:186 | the id starts with `local_mac`, `_`, `target_mac`, `_` |
| TransferManager.TransferIdsDiffer | src/networking/file_transfer.py:186 | two transfers to one target started at different milliseconds get different ids |
| TransferManager.NatTextNoSign | src/networking/file_transfer.py:186 | the decimal text of a natural number never starts with '-' |
| TransferManager.Finish | src/networking/file_transfer.py:237-250 | the transfer leaves the active table and enters the completed table with the given status; all other entries are unchanged |
| TransferManager.SenderTransfer | src/networking/file_transfer.py:175-196 | the registered sender record is active and holds the file's size, hash and ceil(size/1400) chunks |
| TransferManager.SenderTransferIsNew | src/networking/file_transfer.py:175-196 | that record is the `FileTransfer` constructor's, with status set to active |
| TransferManager.StartFrame | src/networking/file_transfer.py:272-312 | the FILE_START frame goes to the target and announces id, name, size, hash and chunk count |
| TransferManager.SendFile | src/networking/file_transfer.py:154-207 | a missing, non-file, invalid-name or empty path returns False with no change and no notice; otherwise the frame sent is the FILE_START frame of the sender record registered under `<local mac>_<now>`, True iff it was sent; on success the record is active and exactly one Started notice carries it, on failure it is removed again and nothing is notified |
| TransferManager.CancelTransfer | src/networking/file_transfer.py:227-250 | True iff the id is active; then it moves to completed as cancelled, exactly one Ended notice carries the cancelled record, and every other active and completed entry is unchanged; otherwise nothing changes and nothing is notified |
| TransferManager.CancelTwice | src/networking/file_transfer.py:227-250 | a second cancel of the same id returns False and changes nothing |
| TransferManager.CancelAgreesWithTimeout | src/networking/file_transfer.py:227-655 | cancelling a stale transfer and timing it out leave the same tables and each emits one Ended notice for its record, except that the record reads cancelled rather than failed |
| TransferManager.ChunkRangesTile | src/networking/file_transfer.py:327-329 | chunk ranges are non-empty, at most 1400 bytes, adjacent, and cover [0, size) |
| TransferManager.StartBelowSize | src/networking/file_transfer.py:327 | every chunk below the count starts inside the file |
| TransferManager.ChunkData | src/networking/file_transfer.py:327-333 | a chunk holds at most 1400 bytes, and an index at or past the chunk count reads nothing |
| TransferManager.ChunkStep | src/networking/file_transfer.py:327-329 | a chunk ends where the next starts or at the end of the file |
| TransferManager.EncodeEnvelope | src/networking/file_transfer.py:350-352 | the envelope exists iff the info fits a 4-byte length, and it starts with that length |
| TransferManager.DecodeEnvelope | src/networking/file_transfer.py:495-497 | the info and data slices together are the payload after its length field |
| TransferManager.EnvelopeRoundTrip | src/networking/file_transfer.py:350-497 | the receive-side slicing recovers exactly the info and the data |
| TransferManager.SendFileChunk | src/networking/file_transfer.py:314-378 | a successful send counts one chunk and its bytes, notes the activity and emits one Progressed notice with the updated record; a failure changes nothing and notifies nothing; the frame is a FILE_CHUNK envelope to the target |
| TransferManager.SentChunkIsRange | src/networking/file_transfer.py:327-333 | chunk n carries exactly bytes [n·1400, min((n+1)·1400, size)) |
| TransferManager.ReassembleRestoresFile | src/networking/file_transfer.py:582-590 | concatenating the sender's chunks in index order gives back the file |
| TransferManager.ReassemblePrefix | src/networking/file_transfer.py:582-590 | the first k chunks concatenate to the file's first k·1400 bytes |
| TransferManager.ReassembleIgnoresOutOfRange | src/networking/file_transfer.py:585-587 | a chunk stored under an index outside `0..total_chunks-1` is never written |
| TransferManager.CompleteTransfer | src/networking/file_transfer.py:574-622 | the transfer always leaves the active table for the completed table, and no other entry changes; a sender always completes; a receiver completes iff no I/O error occurred and either no hash was announced or the reassembled bytes match it, and otherwise fails; exactly one Ended notice carries the final record, whichever way it ends |
| TransferManager.ReceiverTransfer | src/networking/file_transfer.py:468-474 | the receiver record is active, holds the announced name, size, hash and count, and starts with empty chunk tables |
| TransferManager.HandleFileStart | src/networking/file_transfer.py:443-482 | an unparsable body changes nothing and notifies nothing; otherwise the receiver record is registered under the announced id, one Started notice carries it, and nothing else changes |
| TransferManager.ChunkAck | src/networking/file_transfer.py:380-418 | no ACK as written; otherwise a FILE_CHUNK_ACK to the sender naming the transfer and chunk |
| TransferManager.ReceiveChunk | src/networking/file_transfer.py:499-529 | for a decoded header: an unknown id changes nothing and notifies nothing; otherwise the data is stored under its index and counted, the ACK is the chunk ACK, and the transfer is completed as `_complete_file_transfer` does (its Ended notice followed by a Progressed one) or stays active with one Progressed notice; no other entry changes |
| TransferManager.HandleFileChunk | src/networking/file_transfer.py:484-529 | the header and data are the receive-side slicing of the envelope; an unparsable header or unknown id changes nothing and notifies nothing; otherwise the data is stored under its index and counted, and then either the transfer is completed exactly as `_complete_file_transfer` does (status decided by the sender flag, I/O and hash check; its Ended notice followed by a Progressed one) or it stays active holding the updated record with one Progressed notice; no other active or completed entry changes |
| TransferManager.HandleFileAck | src/networking/file_transfer.py:531-561 | an unknown id changes nothing and notifies nothing; otherwise the index joins the ACK set, and the transfer is then completed exactly as `_complete_file_transfer` does (status decided by sender flag, I/O and hash; its Ended notice followed by a Progressed one) or stays active with the updated record and one Progressed notice; no other entry changes |
| TransferManager.AckIdempotent | src/networking/file_transfer.py:545-550 | a repeated ACK changes the state no further |
| TransferManager.HandleFrame | src/networking/file_transfer.py:420-441 | FILE_START and FILE_CHUNK reach their handlers and pass on their notices; as corrected, FILE_CHUNK_ACK reaches the ACK handler; other types change nothing and notify nothing |
| TransferManager.AcksNeverProcessed | src/networking/file_transfer.py:380-441 | as written, every frame other than FILE_START and FILE_CHUNK leaves the state unchanged, and a stored chunk is never acknowledged |
| TransferManager.AckFrameRecorded | src/networking/file_transfer.py:420-561 | as corrected, an ACK for a known transfer is recorded in its ACK set, or completes the transfer |
| TransferManager.DuplicateChunkCompletesEarly | src/networking/file_transfer.py:512-515 | as written, a two-chunk receiver that gets chunk 0 twice completes with chunk 1 missing |
| TransferManager.CorrectedCompletionRestoresFile | src/networking/file_transfer.py:582-590 | as corrected, a receiver that completes reassembles the whole file |
| TransferManager.ChunkDelivered | src/networking/file_transfer.py:314-529 | a sender's chunk frame, handled by the receiver, stores exactly that chunk's bytes under its index |
| TransferManager.FirstUnacked | src/networking/file_transfer.py:665-668 | the lowest unacknowledged index, or none when all are acknowledged |
| TransferManager.ProcessSenderTransfer | src/networking/file_transfer.py:657-672 | at most one chunk per call: the lowest unacknowledged one, and only while fewer than 10 chunks are outstanding |
| TransferManager.SweepStep | src/networking/file_transfer.py:630-655 | a transfer idle for more than 30000 ms moves to completed as failed with one Ended notice for it; others stay active, no longer count as stale, and emit at most one Progressed notice for their own record |
| TransferManager.Sweep | src/networking/file_transfer.py:630-655 | a pass over the active table never adds a transfer and emits at most one notice per visited id |
| TransferManager.SweepLeavesNoStale | src/networking/file_transfer.py:637-643 | after a pass no active transfer is stale, and every removed one is in the completed table |
| TransferManager.SweepKeepsCompleted | src/networking/file_transfer.py:637-643 | a pass never drops a completed entry |
| TransferManager.SweepKeepsUnvisited | src/networking/file_transfer.py:630-645 | a completed entry the pass does not visit keeps its record |
| TransferManager.SweepReportsEveryEnd | src/networking/file_transfer.py:637-643 | every transfer a pass removes from the active table is in the completed table and an Ended notice carrying its final record was emitted |
| LegacyTransfer.Init | LinkChat/src/networking/file_transfer.py:19-23 | a new service has no observers, no confirmation, no chunks and no name |
| LegacyTransfer.Attach | LinkChat/src/networking/file_transfer.py:25-26 | `set.add` |
| LegacyTransfer.Detach | LinkChat/src/networking/file_transfer.py:28-29 | `set.remove`: succeeds iff the observer is attached, and then removes it |
| LegacyTransfer.AttachIdempotent | LinkChat/src/networking/file_transfer.py:25-26 | attaching twice is attaching once |
| LegacyTransfer.AttachDetach | LinkChat/src/networking/file_transfer.py:25-29 | detaching a newly attached observer restores the service, and a second detach raises |
| LegacyTransfer.FlattenAppend | LinkChat/src/networking/file_transfer.py:36-38 | appending a chunk appends its bytes to the written file |
| LegacyTransfer.ChunksShape | LinkChat/src/networking/file_transfer.py:56-70 | unless the size is 0, the pieces are non-empty and concatenate to the file; all but the last are `size` long |
| LegacyTransfer.ChunksAreRanges | LinkChat/src/networking/file_transfer.py:56-70 | with a positive size there are ceil(len/size) pieces, piece i being bytes [i·size, min((i+1)·size, len)) |
| LegacyTransfer.ChunkCountIsCeiling | LinkChat/src/networking/file_transfer.py:56-70 | the number of pieces is ceil(len/size) |
| LegacyTransfer.ChunkIsRange | LinkChat/src/networking/file_transfer.py:56-70 | piece i is bytes [i·size, min((i+1)·size, len)) |
| LegacyTransfer.SplitChunks | LinkChat/src/networking/file_transfer.py:56-70 | the read loop returns the reference pieces: non-empty, concatenating to the file, all but the last `chunk_size` long |
| LegacyTransfer.ChunksAgreeWithNew | LinkChat/src/networking/file_transfer.py:56-70 | with the default size the pieces are exactly the newer sender's chunks |
| LegacyTransfer.AckFor | LinkChat/src/networking/file_transfer.py:54 | the reply goes back to the source, from the destination, as MESSAGE_ACK with the same id and no payload |
| LegacyTransfer.Update | LinkChat/src/networking/file_transfer.py:40-54 | an ACK sets the flag and sends nothing; a start clears the chunks and takes the deserialized name; a chunk is appended; an end writes the chunks to DOWNLOADS_PATH + name and notifies, raising (no ACK, no file) when no `str` name is known or the write fails; every other frame gets one ACK |
| LegacyTransfer.DuplicateChunkKept | LinkChat/src/networking/file_transfer.py:48-49 | a repeated chunk frame is stored twice |
| LegacyTransfer.Handle | LinkChat/src/networking/file_transfer.py:40-54 | unpaired it is `update`; paired, a chunk whose id is not the next expected is acknowledged but not stored, and the next expected one is appended |
| LegacyTransfer.Receive | LinkChat/src/networking/file_transfer.py:40-54 | handling frames in order writes at most one file per frame, each at a path that starts with `/home/Downloads`; the name follows with no separator |
| LegacyTransfer.Stage | LinkChat/src/networking/file_transfer.py:77-79 | one stop-and-wait stage sending once: its frame goes out unless the flag is already set |
| LegacyTransfer.ChunkFrames | LinkChat/src/networking/file_transfer.py:84-90 | chunk k travels as a FILE_CHUNK frame with id k+1 |
| LegacyTransfer.SendFile | LinkChat/src/networking/file_transfer.py:71-94 | from the flag on entry: one frame per chunk plus the end frame, plus the start frame exactly when the flag was clear, all to the target from this host; the flag is left set as written and clear as corrected |
| LegacyTransfer.SendFileFrames | LinkChat/src/networking/file_transfer.py:71-94 | from a clear flag the frames are start (id 0), chunks (ids 1..n), end (id n+1), all to the target |
| LegacyTransfer.SecondSendSkipsStart | LinkChat/src/networking/file_transfer.py:77-94 | as written, the send after a completed one sends no FILE_START frame |
| LegacyTransfer.EverySendStarts | LinkChat/src/networking/file_transfer.py:77-94 | as corrected, each send opens with its FILE_START frame |
| LegacyTransfer.ReceiveChunks | LinkChat/src/networking/file_transfer.py:48-49 | chunk frames append their payloads in arrival order |
| LegacyTransfer.NumberedChunks | LinkChat/src/networking/file_transfer.py:84-90 | chunk frames numbered from a given id |
| LegacyTransfer.ReceiveNumbered | LinkChat/src/networking/file_transfer.py:48-49 | handling chunk frames appends their payloads and writes nothing |
| LegacyTransfer.ReceiveConcat | LinkChat/src/networking/file_transfer.py:40-54 | handling two frame lists in turn is handling their concatenation |
| LegacyTransfer.TransferDeliversFile | LinkChat/src/networking/file_transfer.py:34-94 | when each frame goes out exactly once and is acknowledged once, the receiver writes exactly the sent file under the announced name if that name deserializes to a `str`, and writes nothing otherwise |
| LegacyTransfer.LateAckEndsNextStage | LinkChat/src/networking/file_transfer.py:41-42 | any MESSAGE_ACK sets the flag, so the ACK of frame k ends the stage awaiting frame k+1; paired, it does not |
| LegacyTransfer.Copies | LinkChat/src/networking/file_transfer.py:77-94 | k copies of the frame, as the resend loop sends it |
| LegacyTransfer.WireFrames | LinkChat/src/networking/file_transfer.py:71-94 | the wire holds at least as many frames as the start and end stages sent |
| LegacyTransfer.WireOnceIsSendFile | LinkChat/src/networking/file_transfer.py:71-94 | with every stage sending once, the wire is exactly `send_file`'s frame list |
| LegacyTransfer.ResentOnceIsNumbered | LinkChat/src/networking/file_transfer.py:84-90 | chunks each sent once are the numbered chunk frames |
| LegacyTransfer.ReceiveStartCopies | LinkChat/src/networking/file_transfer.py:44-46 | any number of copies of a start frame clear the chunks and take the name |
| LegacyTransfer.ReceiveEndCopies | LinkChat/src/networking/file_transfer.py:50-52 | each copy of an end frame writes the same file again |
| LegacyTransfer.ReceiveChunkCopies | LinkChat/src/networking/file_transfer.py:48-49 | unpaired, every copy of a chunk frame is appended; paired, exactly one |
| LegacyTransfer.IgnoredCopies | LinkChat/src/networking/file_transfer.py:48-49 | paired, copies of an already stored chunk change nothing |
| LegacyTransfer.ReceiveResent | LinkChat/src/networking/file_transfer.py:48-49 | unpaired, resent chunk frames leave each chunk repeated as often as it was sent; paired, each chunk once |
| LegacyTransfer.ReceiveResentUnpaired | LinkChat/src/networking/file_transfer.py:48-49 | as written, resent chunk frames leave each chunk repeated as often as it was sent |
| LegacyTransfer.ReceiveResentPaired | LinkChat/src/networking/file_transfer.py:48-49 | paired, every chunk sent at least once is held exactly once, in order |
| LegacyTransfer.ReceiveWire | LinkChat/src/networking/file_transfer.py:34-94 | with the start frame sent, one file is written per end-frame copy when the announced name deserializes to a `str` (none otherwise), each holding the chunks kept under that name |
| LegacyTransfer.ResentChunkDoubled | LinkChat/src/networking/file_transfer.py:48-89 | as written, a one-chunk file whose chunk frame is sent twice is written doubled (under a `str` name) |
| LegacyTransfer.LateAckDropsChunk | LinkChat/src/networking/file_transfer.py:41-90 | as written, a stray MESSAGE_ACK that ends the first chunk's stage before it sends makes a two-chunk file be written as its second chunk alone (under a `str` name) |
| LegacyTransfer.PairedTransferDeliversFile | LinkChat/src/networking/file_transfer.py:34-94 | paired, however often each frame is resent, every file written is exactly the sent file under the announced name, and at least one is written when that name deserializes to a `str` |
| LegacyTransfer.Folder | LinkChat/src/networking/file_transfer.py:35 | the directory part of a path, the text before its last '/', is a prefix of the path |
| LegacyTransfer.FolderIgnoresName | LinkChat/src/networking/file_transfer.py:35 | appending a name without '/' does not change the directory part |
| LegacyTransfer.SavedBesideDownloads | LinkChat/src/networking/file_transfer.py:35 | as written, `DOWNLOADS_PATH + name` for a plain name lies in /home, not in /home/Downloads |
| LegacyTransfer.JoinedPath | LinkChat/src/networking/file_transfer.py:35 | the corrected path is `/home/Downloads/` followed by the name |
| LegacyTransfer.JoinedPathInDownloads | LinkChat/src/networking/file_transfer.py:35 | joined with '/', a plain name lies in /home/Downloads and is the path's last component |
| LegacyTransfer.BasenameOfJoin | LinkChat/src/networking/file_transfer.py:35 | the basename of a directory ending in '/' followed by a plain name is that name |

## Left out

- Sockets, threads, `sleep`, `join`, locks and the receive, discovery, heartbeat, ACK-timeout and management loops are left out. Only the flags and the per-step transitions are modelled; `TransferManager.Sweep` is one pass of the management loop.
- The clock is a parameter: `now` in ms, `micros` for `create_message_id`.
- JSON encoding and decoding, MD5, the older tree's name serializer and its `FileInfo` are foreign code. They appear as function parameters or decoded records. A missing JSON key in a chunk header is not modelled; its fields are taken as present.
- File system access is left out. A file is its contents (`Option<seq<byte>>`); `isfile`, `validate_filename` and write or rename failures are boolean inputs; the safe path of a received file is the `finalPath` parameter.
- The float progress and speed getters are left out (floating point).
- The transfer callbacks registered with `register_transfer_callback` and the fan-out of each notice to every one of them (src/networking/file_transfer.py:674-711) are not modelled; a `Notice` stands for one `_notify_transfer_*` call.
- `Transfer.NewTransfer`: a sender whose file cannot be read while hashing gets the hash "" (src/core/file_transfer.py:56-58). File contents are an `Option`, and a file present for size and chunk count is taken to be readable, so that empty hash is not represented.
- `LegacyTransfer.Update`: the name is whatever `BinarySerializer.deserialize` yields for the start frame's data; the sender serializes a `FileInfo` there (LinkChat/src/networking/file_transfer.py:75-76). The deserializer is a parameter returning the name when it yields a `str` and None otherwise; which one the real serializer yields is not modelled, since `binary_serializer` and `file_info` are not part of this model.
- Notification order over dictionaries and sets is a `seq` parameter. The callbacks themselves are returned as data and never run.
- The newer `_handle_file_end` only logs, so it is not modelled. `MSG_TYPE_FILE_START_ACK` (0x0B) and `MSG_TYPE_FILE__END_ACK` (0x08) are defined in src/utils/constants.py but never sent or handled, so there is nothing to model for them.
- `send_message_ack`, `get_sent_messages` and the messaging callback registry are not modelled; the ACK a handler sends is its `ack` result.
- `Messaging.HandleTextMessage`: a content value that is not a string is represented by its JSON text and by whether `content[:50]` can slice it, not as the Python object itself. `Messaging.HandleBroadcastMessage` represents it the same way.
- `Messaging.Utf8Length`: counts UTF-8 bytes per Dafny `char` as a code point. A `str` holding a lone surrogate, on which `encode('utf-8')` raises, cannot be represented, so that error path is not modelled.
- `TransferManager.SweepStep`: a sender's chunk read is given the file contents through `files`; a read error on open is `None`.
- `LegacyTransfer.Stage`: the resend loop is folded into one send per stage and assumes an ACK eventually arrives. `LegacyTransfer.WireFrames` models the resends separately, as a copy count per stage.
- `LegacyTransfer.TransferDeliversFile`: holds only when every frame is sent and acknowledged exactly once. With resends or stray ACKs the file written differs from the sent one (`LegacyTransfer.ResentChunkDoubled`, `LegacyTransfer.LateAckDropsChunk`).
- `LegacyTransfer.ReceiveWire`: considers only wires whose start frame went out at least once. With no start frame the receiver keeps the chunks and name left over from before.
- The older sender and receiver call `raw_socket_wrapper.send_frame` and `get_self_mac` on the class instead of an instance. The model treats each such call as sending the frame from the local address.
- `core/unified_frame`, the `LinkChatFrame` class of the older tree, `binary_serializer` and `file_info` are not part of this model.

## Findings

| source | as written | input that shows it | evidently intended | confidence | as-written member | corrected member |
|---|---|---|---|---|---|---|
| src/networking/file_transfer.py:380-441 | `MSG_TYPE_FILE_ACK` is not defined in src/utils/constants.py, so building a chunk ACK and dispatching any type past FILE_CHUNK raise `NameError`, which is caught and logged | any FILE_CHUNK stored by a receiver (no ACK leaves); any frame of type 0x0C (ignored) | chunk ACKs sent and dispatched as MSG_TYPE_FILE_CHUNK_ACK (0x0C) | medium (the star import could be shadowed elsewhere); not executed | TransferManager.AcksNeverProcessed | TransferManager.AckFrameRecorded |
| src/networking/file_transfer.py:512-515 | a receiver counts every chunk frame, duplicates included, and `is_complete` (lines 90-95) completes it when the count reaches `total_chunks` | a two-chunk transfer whose chunk 0 arrives twice completes with chunk 1 missing, and its reassembled file is chunk 0 alone | complete once every index below `total_chunks` is stored | high; not executed | TransferManager.DuplicateChunkCompletesEarly | TransferManager.CorrectedCompletionRestoresFile |
| LinkChat/src/networking/file_transfer.py:41-94 | each stage resends its frame until the flag is set, any MESSAGE_ACK sets the flag, and `update` appends every chunk copy | a one-chunk file whose chunk frame goes out twice is written doubled; a stray MESSAGE_ACK (a text message's ACK, say) ends the first chunk's stage before it sends, so a two-chunk file is written as its second chunk alone | pair each ACK with its frame: end a stage only on the ACK carrying its id, and append a chunk only when its id is the next expected | high; not executed | LegacyTransfer.ResentChunkDoubled | LegacyTransfer.PairedTransferDeliversFile |
| LinkChat/src/networking/file_transfer.py:35 | the received file is opened at `DOWNLOADS_PATH + name`; line 10 imports `DOWNLOADS_PATH` from the older tree's own `utils.constants`, which is not part of this model, and the newer tree's value (src/utils/constants.py:57) is `/home/Downloads`, with no trailing '/' | a file announced as `a.txt` is written to `/home/Downloadsa.txt`, in /home beside the downloads directory | join the directory and the name with '/' | medium (the older tree's constant is taken from src/utils/constants.py:57); not executed | LegacyTransfer.SavedBesideDownloads | LegacyTransfer.JoinedPathInDownloads |
| LinkChat/src/networking/file_transfer.py:93-94 | after the end frame's ACK the `confirmed_frame` flag is left set | two `send_file` calls in a row: the second sends no FILE_START frame | clear the flag after the end stage, as after the start and chunk stages | high; not executed | LegacyTransfer.SecondSendSkipsStart | LegacyTransfer.EverySendStarts |

=== FILE: bytes.dfy ===
/** Byte sequences and the big-endian integer encodings used by `struct`
    (`!H`, `!I`) and by `int.to_bytes` / `int.from_bytes` with 'big'. */
module Bytes {

  type byte = x: int | 0 <= x < 256

  /** 256 to the power n: one more than the largest n-byte unsigned value. */
  function Pow256(n: nat): (r: nat)
    ensures r >= 1
  {
    if n == 0 then 1 else 256 * Pow256(n - 1)
  }

  /** The unsigned big-endian value of a byte string of any length
      (`int.from_bytes(s, 'big')`; the empty string is 0). */
  function FromBe(s: seq<byte>): (v: nat)
    ensures v < Pow256(|s|)
  {
    if s == [] then 0 else FromBe(s[..|s| - 1]) * 256 + s[|s| - 1]
  }

  /** `struct.pack('!H', v)`. */
  function Be16(v: int): (r: seq<byte>)
    requires 0 <= v < 0x1_0000
    ensures |r| == 2 && FromBe(r) == v
  {
    var r := [v / 0x100, v % 0x100];
    assert r[..1] == [v / 0x100];
    r
  }

  /** `struct.pack('!I', v)`, also `v.to_bytes(4, 'big')`. */
  function Be32(v: int): (r: seq<byte>)
    requires 0 <= v < 0x1_0000_0000
    ensures |r| == 4 && FromBe(r) == v
  {
    var hi := Be16(v / 0x1_0000);
    var lo := Be16(v % 0x1_0000);
    FromBeAppend(hi, lo);
    hi + lo
  }

  /** Big-endian value of a concatenation: the prefix is shifted left by
      the suffix's width. */
  lemma {:induction false} FromBeAppend(a: seq<byte>, b: seq<byte>)
    ensures FromBe(a + b) == FromBe(a) * Pow256(|b|) + FromBe(b)
    decreases |b|
  {
    if b == [] {
      assert a + b == a;
    } else {
      var b' := b[..|b| - 1];
      assert (a + b)[..|a + b| - 1] == a + b';
      FromBeAppend(a, b');
      var x, p, y, c := FromBe(a), Pow256(|b'|), FromBe(b'), b[|b| - 1];
      assert FromBe(a + b) == (x * p + y) * 256 + c;
      ShiftDistributes(x, p, y, c);
      assert Pow256(|b|) == p * 256;
    }
  }

  lemma ShiftDistributes(x: int, p: int, y: int, c: int)
    ensures (x * p + y) * 256 + c == x * (p * 256) + (y * 256 + c)
  {
  }

  /** Additive sum of all bytes. */
  function Sum(s: seq<byte>): (r: nat)
    ensures r <= 255 * |s|
  {
    if s == [] then 0 else s[0] + Sum(s[1..])
  }

  /** Replacing one byte changes the sum by exactly the difference. */
  lemma {:induction false} SumUpdate(s: seq<byte>, i: nat, v: byte)
    requires i < |s|
    ensures Sum(s[i := v]) == Sum(s) - s[i] + v
  {
    if i > 0 {
      assert s[i := v][1..] == s[1..][i - 1 := v];
      SumUpdate(s[1..], i - 1, v);
    }
  }

  function Min(a: int, b: int): int {
    if a <= b then a else b
  }

  /** `f.seek(pos); f.read(count)` on a file holding `file`: at most
      `count` bytes from `pos` on, fewer at the end of the file, and a
      negative count reads to the end. */
  function Read(file: seq<byte>, pos: nat, count: int): (r: seq<byte>)
    ensures count >= 0 ==> |r| <= count
    ensures pos <= |file| && 0 <= count <= |file| - pos ==> r == file[pos..pos + count]
    ensures pos <= |file| && (count < 0 || count >= |file| - pos) ==> r == file[pos..]
    ensures pos >= |file| || count == 0 ==> r == []
  {
    var from := Min(pos, |file|);
    if count < 0 then file[from..] else file[from..Min(from + count, |file|)]
  }
}

=== FILE: constants.dfy ===
/** Named constants of the protocol (src/utils/constants.py). */
module Constants {

  const EtherTypeLinkChat: int := 0x88B5
  const ProtocolVersion: int := 1

  const MsgTypeDiscovery: int := 0x01
  const MsgTypeDiscoveryReply: int := 0x02
  const MsgTypeMessage: int := 0x03
  const MsgTypeMessageAck: int := 0x04
  const MsgTypeFileStart: int := 0x05
  const MsgTypeFileChunk: int := 0x06
  const MsgTypeFileEnd: int := 0x07
  const MsgTypeFileEndAck: int := 0x08
  const MsgTypeHeartbeat: int := 0x09
  const MsgTypeBroadcast: int := 0x0A
  const MsgTypeFileStartAck: int := 0x0B
  const MsgTypeFileChunkAck: int := 0x0C

  /** Largest file fragment, in bytes (chosen with the Ethernet MTU in mind). */
  const MaxChunkSize: nat := 1400
  /** Inactivity timeout of a file transfer, in seconds. */
  const FileTimeout: nat := 30
  /** Silence after which a device counts as disconnected, in seconds. */
  const DeviceTimeout: nat := 60

  const BroadcastMac: string := "ff:ff:ff:ff:ff:ff"

  /** Largest accepted text message, in UTF-8 bytes. */
  const MaxMessageSize: nat := 4096

  /** The text the older receiver puts before a file name. It has no
      trailing '/', and the name is appended with no separator. */
  const DownloadsPath: string := "/home/Downloads"
}

=== FILE: discovery.dfy ===
/** The device registry of the newer code generation
    (src/networking/discovery.py): devices keyed by MAC text, refreshed by
    discovery requests, replies and heartbeats, and swept for timeouts.
    Observer callbacks are returned as a list of events. */
module Discovery {
  import opened Wrappers
  import C = Constants
  import Helpers

  type Mac = string

  /** The info dictionary kept per device: the `type` of the frame that
      registered it, `last_seen` (ms) and `active`. */
  datatype DeviceInfo = DeviceInfo(kind: string, lastSeen: int, active: bool)

  datatype Action = Discovered | Updated | Disconnected

  /** The `device_info` dictionary passed to `notify`. */
  datatype Event = Event(mac: Mac, info: DeviceInfo, action: Action)

  /** A discovery frame handed to the socket manager; the JSON body holds
      the kind and the timestamp. */
  datatype Announce = Announce(destMac: Mac, srcMac: Mac, msgType: int, msgId: int, kind: string, timestamp: int)

  datatype Registry = Registry(localMac: Mac, devices: map<Mac, DeviceInfo>)

  /** The timeout of `get_discovered_devices`, in ms. */
  const DeviceTimeoutMs: int := C.DeviceTimeout * 1000

  /** `send_discovery_request`: a broadcast. */
  function DiscoveryRequest(localMac: Mac, micros: int, now: int): (a: Announce)
    ensures a.destMac == C.BroadcastMac && a.msgType == C.MsgTypeDiscovery
    ensures a.srcMac == localMac && 0 <= a.msgId < 0x1_0000_0000
  {
    Announce(C.BroadcastMac, localMac, C.MsgTypeDiscovery, Helpers.CreateMessageId(micros), "discovery_request", now)
  }

  /** `send_discovery_reply`: addressed to one device. */
  function DiscoveryReply(localMac: Mac, target: Mac, micros: int, now: int): (a: Announce)
    ensures a.destMac == target && a.msgType == C.MsgTypeDiscoveryReply
    ensures a.srcMac == localMac && 0 <= a.msgId < 0x1_0000_0000
  {
    Announce(target, localMac, C.MsgTypeDiscoveryReply, Helpers.CreateMessageId(micros), "discovery_reply", now)
  }

  /** `send_heartbeat`: a broadcast. */
  function Heartbeat(localMac: Mac, micros: int, now: int): (a: Announce)
    ensures a.destMac == C.BroadcastMac && a.msgType == C.MsgTypeHeartbeat
    ensures a.srcMac == localMac && 0 <= a.msgId < 0x1_0000_0000
  {
    Announce(C.BroadcastMac, localMac, C.MsgTypeHeartbeat, Helpers.CreateMessageId(micros), "heartbeat", now)
  }

  /** `_add_device`: the local address is never registered; any other one
      is overwritten and reported once, as discovered iff it was unknown. */
  function AddDevice(reg: Registry, mac: Mac, info: DeviceInfo): (r: (Registry, seq<Event>))
    ensures mac == reg.localMac ==> r == (reg, [])
    ensures mac != reg.localMac ==>
              && r.0.localMac == reg.localMac
              && r.0.devices.Keys == reg.devices.Keys + {mac}
              && r.0.devices[mac] == info
              && (forall m :: m in reg.devices && m != mac ==> r.0.devices[m] == reg.devices[m])
              && |r.1| == 1 && r.1[0].mac == mac && r.1[0].info == info
              && (r.1[0].action == Discovered <==> mac !in reg.devices)
              && (r.1[0].action == Updated <==> mac in reg.devices)
  {
    if mac == reg.localMac then (reg, [])
    else
      var isNew := mac !in reg.devices;
      (reg.(devices := reg.devices[mac := info]), [Event(mac, info, if isNew then Discovered else Updated)])
  }

  /** What handling one frame produced: the registry, the events notified,
      and the frames sent back. */
  datatype Handled = Handled(reg: Registry, events: seq<Event>, sent: seq<Announce>)

  /** `_handle_discovery_request`: register the sender as active, then
      reply to it (the reply goes out even when the sender is this host). */
  function HandleDiscoveryRequest(reg: Registry, srcMac: Mac, now: int, micros: int): (r: Handled)
    ensures (r.reg, r.events) == AddDevice(reg, srcMac, DeviceInfo("discovery_request", now, true))
    ensures srcMac != reg.localMac ==>
              && srcMac in r.reg.devices && r.reg.devices[srcMac] == DeviceInfo("discovery_request", now, true)
              && r.reg.devices.Keys == reg.devices.Keys + {srcMac}
              && r.events == [Event(srcMac, DeviceInfo("discovery_request", now, true),
                                    if srcMac in reg.devices then Updated else Discovered)]
    ensures srcMac == reg.localMac ==> r.reg == reg && r.events == []
    ensures forall m :: m in reg.devices && m != srcMac ==> m in r.reg.devices && r.reg.devices[m] == reg.devices[m]
    ensures r.sent == [DiscoveryReply(reg.localMac, srcMac, micros, now)]
    ensures |r.sent| == 1 && r.sent[0].destMac == srcMac && r.sent[0].msgType == C.MsgTypeDiscoveryReply
    ensures r.reg.localMac == reg.localMac && (reg.localMac !in reg.devices ==> reg.localMac !in r.reg.devices)
  {
    var added := AddDevice(reg, srcMac, DeviceInfo("discovery_request", now, true));
    Handled(added.0, added.1, [DiscoveryReply(reg.localMac, srcMac, micros, now)])
  }

  /** `_handle_discovery_reply`: register or refresh the sender; nothing is
      sent back. */
  function HandleDiscoveryReply(reg: Registry, srcMac: Mac, now: int): (r: Handled)
    ensures (r.reg, r.events) == AddDevice(reg, srcMac, DeviceInfo("discovery_reply", now, true))
    ensures srcMac != reg.localMac ==>
              && srcMac in r.reg.devices && r.reg.devices[srcMac] == DeviceInfo("discovery_reply", now, true)
              && r.reg.devices.Keys == reg.devices.Keys + {srcMac}
              && r.events == [Event(srcMac, DeviceInfo("discovery_reply", now, true),
                                    if srcMac in reg.devices then Updated else Discovered)]
    ensures forall m :: m in reg.devices && m != srcMac ==> m in r.reg.devices && r.reg.devices[m] == reg.devices[m]
    ensures srcMac == reg.localMac ==> r == Handled(reg, [], [])
    ensures r.sent == []
  {
    var added := AddDevice(reg, srcMac, DeviceInfo("discovery_reply", now, true));
    Handled(added.0, added.1, [])
  }

  /** `_handle_heartbeat`: refresh a known device silently; ignore an
      unknown one. */
  function HandleHeartbeat(reg: Registry, srcMac: Mac, now: int): (r: Handled)
    ensures srcMac !in reg.devices ==> r == Handled(reg, [], [])
    ensures r.events == [] && r.sent == []
    ensures r.reg.devices.Keys == reg.devices.Keys
    ensures srcMac in reg.devices ==> r.reg.devices[srcMac] == reg.devices[srcMac].(lastSeen := now, active := true)
    ensures forall m :: m in reg.devices && m != srcMac ==> r.reg.devices[m] == reg.devices[m]
  {
    if srcMac in reg.devices then
      var info := reg.devices[srcMac];
      Handled(reg.(devices := reg.devices[srcMac := info.(lastSeen := now, active := true)]), [], [])
    else Handled(reg, [], [])
  }

  /** `_handle_frame`: dispatch on the message type; other types are
      ignored. */
  function HandleFrame(reg: Registry, msgType: int, srcMac: Mac, now: int, micros: int): (r: Handled)
    ensures msgType !in {C.MsgTypeDiscovery, C.MsgTypeDiscoveryReply, C.MsgTypeHeartbeat} ==> r == Handled(reg, [], [])
    ensures forall e :: e in r.events ==> e.mac == srcMac && e.action != Disconnected
    ensures r.reg.localMac == reg.localMac
  {
    if msgType == C.MsgTypeDiscovery then HandleDiscoveryRequest(reg, srcMac, now, micros)
    else if msgType == C.MsgTypeDiscoveryReply then HandleDiscoveryReply(reg, srcMac, now)
    else if msgType == C.MsgTypeHeartbeat then HandleHeartbeat(reg, srcMac, now)
    else Handled(reg, [], [])
  }

  /** Registered devices never include the local address. */
  ghost predicate ExcludesLocal(reg: Registry) {
    reg.localMac !in reg.devices
  }

  lemma {:induction false} HandleFrameExcludesLocal(reg: Registry, msgType: int, srcMac: Mac, now: int, micros: int)
    requires ExcludesLocal(reg)
    ensures ExcludesLocal(HandleFrame(reg, msgType, srcMac, now, micros).reg)
  {
  }

  predicate Fresh(info: DeviceInfo, now: int) {
    now - info.lastSeen < DeviceTimeoutMs
  }

  /** The devices of `macs` (a key order of `devices`) that this sweep
      reports as disconnected: timed out and still flagged active. */
  function DisconnectEvents(devices: map<Mac, DeviceInfo>, macs: seq<Mac>, now: int): (es: seq<Event>)
    requires forall i :: 0 <= i < |macs| ==> macs[i] in devices
    requires DistinctMacs(macs)
    ensures forall e :: e in es ==> && e.mac in macs && e.action == Disconnected
                                    && devices[e.mac].active && !Fresh(devices[e.mac], now)
                                    && e.info == devices[e.mac].(active := false)
    ensures forall i :: 0 <= i < |macs| && devices[macs[i]].active && !Fresh(devices[macs[i]], now)
                        ==> exists e :: e in es && e.mac == macs[i]
    ensures forall i, j :: 0 <= i < j < |es| ==> es[i].mac != es[j].mac
  {
    if macs == [] then []
    else
      var m := macs[0];
      var info := devices[m];
      var rest := DisconnectEvents(devices, macs[1..], now);
      assert forall e :: e in rest ==> e.mac != m by {
        forall e | e in rest ensures e.mac != m {
          var k :| 0 <= k < |macs[1..]| && macs[1..][k] == e.mac;
          assert macs[k + 1] == e.mac;
        }
      }
      if !Fresh(info, now) && info.active then [Event(m, info.(active := false), Disconnected)] + rest
      else rest
  }

  /** The keys of a dictionary, listed in iteration order, never repeat. */
  predicate DistinctMacs(macs: seq<Mac>) {
    forall i, j :: 0 <= i < j < |macs| ==> macs[i] != macs[j]
  }

  /** The `active` flags after a sweep at `now`. */
  function Sweep(devices: map<Mac, DeviceInfo>, now: int): (r: map<Mac, DeviceInfo>)
    ensures r.Keys == devices.Keys
    ensures forall m :: m in devices ==> r[m] == devices[m].(active := Fresh(devices[m], now))
  {
    map m | m in devices :: devices[m].(active := Fresh(devices[m], now))
  }

  /** `get_discovered_devices` with the dictionary's iteration order
      `order` as a parameter: every device is returned, flagged active iff
      seen within DEVICE_TIMEOUT, and a disconnect is reported for each
      device that this sweep flipped from active to inactive. */
  function GetDiscoveredDevices(reg: Registry, order: seq<Mac>, now: int): (r: (Registry, seq<Event>))
    requires forall i :: 0 <= i < |order| ==> order[i] in reg.devices
    requires forall m :: m in reg.devices ==> m in order
    requires DistinctMacs(order)
    ensures r.0.localMac == reg.localMac && r.0.devices.Keys == reg.devices.Keys
    ensures forall m :: m in reg.devices ==> (r.0.devices[m].active <==> Fresh(reg.devices[m], now))
    ensures forall m :: m in reg.devices ==> r.0.devices[m].lastSeen == reg.devices[m].lastSeen
    ensures forall e :: e in r.1 ==>
              e.action == Disconnected && e.mac in reg.devices && reg.devices[e.mac].active && !r.0.devices[e.mac].active
    ensures forall m :: m in reg.devices && reg.devices[m].active && !r.0.devices[m].active
                        ==> exists e :: e in r.1 && e.mac == m
    ensures forall i, j :: 0 <= i < j < |r.1| ==> r.1[i].mac != r.1[j].mac
  {
    (reg.(devices := Sweep(reg.devices, now)), DisconnectEvents(reg.devices, order, now))
  }

  /** Only a device still fresh at one sweep can be reported by a later
      sweep with no frame in between, so a timed-out device is reported
      once; a repeated sweep at the same instant reports nothing. */
  lemma {:induction false} LaterSweepReportsOnlyFresh(reg: Registry, order: seq<Mac>, now: int, later: int)
    requires forall i :: 0 <= i < |order| ==> order[i] in reg.devices
    requires forall m :: m in reg.devices ==> m in order
    requires DistinctMacs(order)
    ensures var first := GetDiscoveredDevices(reg, order, now).0;
            forall e :: e in GetDiscoveredDevices(first, order, later).1 ==>
              e.mac in reg.devices && Fresh(reg.devices[e.mac], now)
    ensures GetDiscoveredDevices(GetDiscoveredDevices(reg, order, now).0, order, now).1 == []
  {
    NoTimedOutActiveNoEvents(GetDiscoveredDevices(reg, order, now).0.devices, order, now);
  }

  /** A sweep over devices none of which is both active and timed out
      reports nothing. */
  lemma {:induction false} NoTimedOutActiveNoEvents(devices: map<Mac, DeviceInfo>, macs: seq<Mac>, now: int)
    requires forall i :: 0 <= i < |macs| ==> macs[i] in devices
    requires DistinctMacs(macs)
    requires forall i :: 0 <= i < |macs| ==> !devices[macs[i]].active || Fresh(devices[macs[i]], now)
    ensures DisconnectEvents(devices, macs, now) == []
  {
    if macs != [] {
      NoTimedOutActiveNoEvents(devices, macs[1..], now);
    }
  }

  /** `attach`: `observers.add`. */
  function Attach<O>(observers: set<O>, o: O): (r: set<O>)
    ensures o in r && observers <= r && r - {o} <= observers
  {
    observers + {o}
  }

  /** `detach`: `observers.discard`, a no-op when absent. */
  function Detach<O>(observers: set<O>, o: O): (r: set<O>)
    ensures o !in r && r <= observers && observers - {o} <= r
    ensures o !in observers ==> r == observers
  {
    observers - {o}
  }

  /** `notify`: every attached observer receives the event once. The
      set's iteration order is the parameter `order`, which lists each
      member of the set exactly once. */
  function Notify<O>(observers: set<O>, order: seq<O>, e: Event): (calls: seq<(O, Event)>)
    requires forall i :: 0 <= i < |order| ==> order[i] in observers
    requires forall o :: o in observers ==> o in order
    requires forall i, j :: 0 <= i < j < |order| ==> order[i] != order[j]
    ensures forall i :: 0 <= i < |calls| ==> calls[i].0 in observers && calls[i].1 == e
    ensures forall o :: o in observers ==> exists i :: 0 <= i < |calls| && calls[i].0 == o
    ensures forall i, j :: 0 <= i < j < |calls| ==> calls[i].0 != calls[j].0
    ensures |calls| == |observers|
  {
    OrderCoversSet(observers, order);
    var calls := seq(|order|, i requires 0 <= i < |order| => (order[i], e));
    assert forall o :: o in observers ==> exists i :: 0 <= i < |calls| && calls[i].0 == o by {
      forall o | o in observers ensures exists i :: 0 <= i < |calls| && calls[i].0 == o {
        var k :| 0 <= k < |order| && order[k] == o;
        assert calls[k].0 == o;
      }
    }
    calls
  }

  /** A repetition-free listing of a set has the set's size. */
  lemma {:induction false} OrderCoversSet<O>(s: set<O>, order: seq<O>)
    requires forall i :: 0 <= i < |order| ==> order[i] in s
    requires forall o :: o in s ==> o in order
    requires forall i, j :: 0 <= i < j < |order| ==> order[i] != order[j]
    ensures |order| == |s|
  {
    if order != [] {
      var rest := order[1..];
      assert forall o :: o in s - {order[0]} ==> o in rest by {
        forall o | o in s - {order[0]} ensures o in rest {
          var k :| 0 <= k < |order| && order[k] == o;
          assert k != 0;
          assert rest[k - 1] == o;
        }
      }
      OrderCoversSet(s - {order[0]}, rest);
    } else {
      assert forall o :: o !in s;
      assert s == {};
    }
  }

  /** After `attach(o)` a notification reaches `o` exactly once; after
      `detach(o)` it never does. */
  lemma {:induction false} NotifyAttachedOnce<O>(observers: set<O>, o: O, order: seq<O>, e: Event)
    requires forall i :: 0 <= i < |order| ==> order[i] in Attach(observers, o)
    requires forall x :: x in Attach(observers, o) ==> x in order
    requires forall i, j :: 0 <= i < j < |order| ==> order[i] != order[j]
    ensures var calls := Notify(Attach(observers, o), order, e);
            |set i | 0 <= i < |calls| && calls[i].0 == o| == 1
  {
    var calls := Notify(Attach(observers, o), order, e);
    var k :| 0 <= k < |calls| && calls[k].0 == o;
    var hits := set i | 0 <= i < |calls| && calls[i].0 == o;
    assert hits == {k};
  }

  lemma NotifyDetachedNever<O>(observers: set<O>, o: O, order: seq<O>, e: Event)
    requires forall i :: 0 <= i < |order| ==> order[i] in Detach(observers, o)
    requires forall x :: x in Detach(observers, o) ==> x in order
    requires forall i, j :: 0 <= i < j < |order| ==> order[i] != order[j]
    ensures forall c :: c in Notify(Detach(observers, o), order, e) ==> c.0 != o
  {
  }
}

=== FILE: frame.dfy ===
/** The Ethernet II header codec (LinkChat/src/core/frame.py):
    `dest(6) | src(6) | EtherType(2) | payload`, the MAC frame layout of
    clause 3.1.1 of IEEE 802.3, with the EtherType fixed to Link-Chat's
    0x88B5 (a value of the IEEE 802 local-experimental range). */
module EthernetFrame {
  import opened Wrappers
  import opened Bytes
  import opened Helpers
  import C = Constants

  const EthernetHeaderSize: nat := 14

  /** MAC addresses are held as text (`xx:xx:xx:xx:xx:xx`). */
  datatype Frame = Frame(destMac: string, srcMac: string, etherType: int, payload: seq<byte>)

  /** `Frame.__init__`: whatever the caller passes, the frame is tagged
      with ETHERTYPE_LINKCHAT. */
  function NewFrame(dest: string, src: string, payload: seq<byte>): (f: Frame)
    ensures f.etherType == C.EtherTypeLinkChat
    ensures f.destMac == dest && f.srcMac == src && f.payload == payload
  {
    Frame(dest, src, C.EtherTypeLinkChat, payload)
  }

  /** `struct.pack('6s', b)`: zero-padded or truncated to six bytes. */
  function Fit6(b: seq<byte>): (r: seq<byte>)
    ensures |r| == 6
    ensures |b| >= 6 ==> r == b[..6]
    ensures |b| < 6 ==> r[..|b|] == b && forall i :: |b| <= i < 6 ==> r[i] == 0
  {
    if |b| >= 6 then b[..6] else b + seq(6 - |b|, _ => 0)
  }

  /** `to_bytes`; None stands for the `ValueError` of an unparsable MAC
      string (or the `struct.error` of an EtherType wider than 16 bits). */
  function ToBytes(f: Frame): (r: Option<seq<byte>>)
    ensures r.Some? <==> ParseMac(f.destMac).Some? && ParseMac(f.srcMac).Some?
                         && 0 <= f.etherType < 0x1_0000
    ensures r.Some? ==> && |r.value| == EthernetHeaderSize + |f.payload|
                        && r.value[..6] == Fit6(ParseMac(f.destMac).value)
                        && r.value[6..12] == Fit6(ParseMac(f.srcMac).value)
                        && FromBe(r.value[12..14]) == f.etherType
                        && r.value[EthernetHeaderSize..] == f.payload
  {
    match (ParseMac(f.destMac), ParseMac(f.srcMac))
    case (Some(d), Some(s)) =>
      if 0 <= f.etherType < 0x1_0000 then
        var header := Fit6(d) + Fit6(s) + Be16(f.etherType);
        var out := header + f.payload;
        assert out[..6] == Fit6(d) && out[6..12] == Fit6(s) && out[12..14] == Be16(f.etherType);
        Some(out)
      else None
    case _ => None
  }

  /** `from_bytes`: no length field, so every byte after the header is
      payload. */
  function FromBytes(data: seq<byte>): (r: Option<Frame>)
    ensures |data| < EthernetHeaderSize ==> r.None?
    ensures |data| >= EthernetHeaderSize && FromBe(data[12..14]) != C.EtherTypeLinkChat ==> r.None?
    ensures r.Some? ==> && r.value.etherType == C.EtherTypeLinkChat
                        && r.value.destMac == FormatMac(data[..6])
                        && r.value.srcMac == FormatMac(data[6..12])
                        && r.value.payload == data[EthernetHeaderSize..]
  {
    if |data| < EthernetHeaderSize then None
    else if FromBe(data[12..14]) != C.EtherTypeLinkChat then None
    else Some(NewFrame(FormatMac(data[..6]), FormatMac(data[6..12]), data[EthernetHeaderSize..]))
  }

  /** A header with the right EtherType is always accepted. */
  lemma AcceptsOwnEtherType(data: seq<byte>)
    requires |data| >= EthernetHeaderSize && FromBe(data[12..14]) == C.EtherTypeLinkChat
    ensures FromBytes(data).Some?
  {
  }

  /** Round trip: the payload comes back unchanged and each MAC comes back
      as the canonical text of its (six-byte) parsed form. */
  lemma RoundTrip(dest: string, src: string, payload: seq<byte>)
    requires ParseMac(dest).Some? && ParseMac(src).Some?
    ensures ToBytes(NewFrame(dest, src, payload)).Some?
    ensures FromBytes(ToBytes(NewFrame(dest, src, payload)).value)
            == Some(NewFrame(FormatMac(Fit6(ParseMac(dest).value)),
                             FormatMac(Fit6(ParseMac(src).value)),
                             payload))
  {
    var bs := ToBytes(NewFrame(dest, src, payload)).value;
    assert FromBe(bs[12..14]) == C.EtherTypeLinkChat;
  }

  /** A well-formed six-byte MAC text parses to six bytes and formats back
      to its lower-case form. */
  lemma CanonicalMac(s: string)
    requires WellFormedMac(s) && |s| == 17
    ensures ParseMac(s).Some? && |ParseMac(s).value| == 6
    ensures FormatMac(Fit6(ParseMac(s).value)) == Lower(s)
  {
    FormatParse(s);
    var b := ParseMac(s).value;
    assert |FormatMac(b)| == 17;
    assert Fit6(b) == b;
  }

  /** Round trip for well-formed addresses: the MACs come back lower-cased
      and otherwise unchanged. */
  lemma RoundTripWellFormed(dest: string, src: string, payload: seq<byte>)
    requires WellFormedMac(dest) && |dest| == 17
    requires WellFormedMac(src) && |src| == 17
    ensures ToBytes(NewFrame(dest, src, payload)).Some?
    ensures FromBytes(ToBytes(NewFrame(dest, src, payload)).value)
            == Some(NewFrame(Lower(dest), Lower(src), payload))
  {
    CanonicalMac(dest);
    CanonicalMac(src);
    RoundTrip(dest, src, payload);
  }
}

=== FILE: helpers.dfy ===
/** MAC address text/byte conversion and message ids
    (LinkChat/src/utils/helpers.py). */
module Helpers {
  import opened Wrappers
  import opened Bytes

  /** The lower-case hexadecimal digit for a value below 16. */
  function HexDigit(n: nat): char
    requires n < 16
  {
    if n < 10 then ('0' as int + n) as char else ('a' as int + n - 10) as char
  }

  /** `f'{b:02x}'`: two lower-case hexadecimal digits. */
  function HexByte(b: byte): (s: string)
    ensures |s| == 2
  {
    [HexDigit(b / 16), HexDigit(b % 16)]
  }

  /** `format_mac_address`: every byte as two lower-case hex digits,
      joined by ':'. */
  function FormatMac(bs: seq<byte>): (s: string)
    ensures |bs| == 0 ==> s == ""
    ensures |bs| > 0 ==> |s| == 3 * |bs| - 1
  {
    if |bs| == 0 then ""
    else if |bs| == 1 then HexByte(bs[0])
    else HexByte(bs[0]) + ":" + FormatMac(bs[1..])
  }

  /** `mac_str.replace(':', '')`. */
  function RemoveColons(s: string): (r: string)
    ensures |r| <= |s|
  {
    if s == [] then []
    else (if s[0] == ':' then [] else [s[0]]) + RemoveColons(s[1..])
  }

  /** No ':' survives `replace(':', '')`. */
  lemma {:induction false} NoColonsLeft(s: string)
    ensures ':' !in RemoveColons(s)
  {
    if s != [] {
      NoColonsLeft(s[1..]);
    }
  }

  /** The ASCII whitespace `bytes.fromhex` skips between digit pairs. */
  predicate IsAsciiSpace(c: char) {
    c == ' ' || c == '\t' || c == '\n' || c == '\r' || c as int == 0x0B || c as int == 0x0C
  }

  /** The value of one hexadecimal digit of either case. */
  function HexValue(c: char): (r: Option<nat>)
    ensures r.Some? ==> r.value < 16
  {
    if '0' <= c <= '9' then Some(c as nat - '0' as nat)
    else if 'a' <= c <= 'f' then Some(c as nat - 'a' as nat + 10)
    else if 'A' <= c <= 'F' then Some(c as nat - 'A' as nat + 10)
    else None
  }

  /** The byte a pair of hex digits stands for. */
  function PairByte(c0: char, c1: char): byte
    requires HexValue(c0).Some? && HexValue(c1).Some?
  {
    HexValue(c0).value * 16 + HexValue(c1).value
  }

  /** `bytes.fromhex`: pairs of hex digits, ASCII whitespace allowed before
      each pair; anything else (an odd digit, a foreign character) is the
      `ValueError` it raises, here None. */
  function FromHex(s: string): (r: Option<seq<byte>>)
    ensures r.Some? ==> 2 * |r.value| <= |s|
    decreases |s|
  {
    if s == [] then Some([])
    else if IsAsciiSpace(s[0]) then FromHex(s[1..])
    else if |s| < 2 then None
    else
      match (HexValue(s[0]), HexValue(s[1]), FromHex(s[2..]))
      case (Some(hi), Some(lo), Some(rest)) => Some([hi * 16 + lo] + rest)
      case _ => None
  }

  /** `parse_mac_address`: ':' separators are dropped and the rest read
      as hex digit pairs. */
  function ParseMac(s: string): (r: Option<seq<byte>>)
    ensures r.Some? ==> 2 * |r.value| <= |s|
    ensures ':' !in s ==> r == FromHex(s)
  {
    RemoveColonsKeepsColonFree(s);
    FromHex(RemoveColons(s))
  }

  /** Text without ':' passes `replace(':', '')` unchanged. */
  lemma {:induction false} RemoveColonsKeepsColonFree(s: string)
    ensures ':' !in s ==> RemoveColons(s) == s
  {
    if s != [] && ':' !in s {
      RemoveColonsKeepsColonFree(s[1..]);
      assert [s[0]] + s[1..] == s;
    }
  }

  /** `create_message_id`, with the clock reading (microseconds) as a
      parameter. */
  function CreateMessageId(micros: int): (id: int)
    ensures 0 <= id < 0x1_0000_0000
    ensures (micros - id) % 0x1_0000_0000 == 0
  {
    micros % 0x1_0000_0000
  }

  /** Lower-casing of hex letters (`str.lower` on the characters a MAC
      string can hold). */
  function LowerChar(c: char): char {
    if 'A' <= c <= 'F' then (c as int - 'A' as int + 'a' as int) as char else c
  }

  function Lower(s: string): (r: string)
    ensures |r| == |s|
  {
    if s == [] then [] else [LowerChar(s[0])] + Lower(s[1..])
  }

  /** Lower-casing maps each character on its own. */
  lemma {:induction false} LowerMapsEach(s: string)
    ensures forall i :: 0 <= i < |s| ==> Lower(s)[i] == LowerChar(s[i])
  {
    if s != [] {
      LowerMapsEach(s[1..]);
    }
  }

  predicate IsHexChar(c: char) {
    HexValue(c).Some?
  }

  /** A well-formed MAC string: one or more `hh` pairs separated by ':'. */
  predicate WellFormedMac(s: string)
    decreases |s|
  {
    && |s| >= 2 && IsHexChar(s[0]) && IsHexChar(s[1])
    && (|s| == 2 || (|s| > 3 && s[2] == ':' && WellFormedMac(s[3..])))
  }

  lemma {:induction false} RemoveColonsAppend(a: string, b: string)
    ensures RemoveColons(a + b) == RemoveColons(a) + RemoveColons(b)
  {
    if a == [] {
      assert a + b == b;
    } else {
      assert (a + b)[1..] == a[1..] + b;
      RemoveColonsAppend(a[1..], b);
    }
  }

  /** Colon placement does not matter to `parse_mac_address`. */
  lemma ColonsIgnored(a: string, b: string)
    ensures ParseMac(a + ":" + b) == ParseMac(a + b)
  {
    RemoveColonsSplit(a, b);
    RemoveColonsAppend(a, b);
  }

  lemma NoColonsInColon()
    ensures RemoveColons(":") == []
  {
    assert ":"[1..] == [];
  }

  lemma HexByteDecodes(b: byte)
    ensures HexValue(HexByte(b)[0]) == Some(b / 16)
    ensures HexValue(HexByte(b)[1]) == Some(b % 16)
  {
  }

  lemma {:induction false} FromHexPair(pair: string, rest: string)
    requires |pair| == 2 && IsHexChar(pair[0]) && IsHexChar(pair[1])
    requires FromHex(rest).Some?
    ensures FromHex(pair + rest) == Some([PairByte(pair[0], pair[1])] + FromHex(rest).value)
  {
    var s := pair + rest;
    assert s[0] == pair[0] && s[1] == pair[1] && s[2..] == rest;
  }

  /** `parse_mac_address(format_mac_address(b)) == b` for every byte string. */
  lemma {:induction false} ParseFormat(bs: seq<byte>)
    ensures ParseMac(FormatMac(bs)) == Some(bs)
    decreases |bs|
  {
    if |bs| == 1 {
      var h := HexByte(bs[0]);
      HexByteParses(bs[0], []);
      assert h + [] == h;
      assert [bs[0]] + [] == bs;
    } else if |bs| > 1 {
      var h, tail := HexByte(bs[0]), FormatMac(bs[1..]);
      ParseFormat(bs[1..]);
      RemoveColonsSplit(h, tail);
      HexByteParses(bs[0], RemoveColons(tail));
      assert [bs[0]] + bs[1..] == bs;
    }
  }

  /** A formatted byte holds no ':' and `bytes.fromhex` reads it back as
      that byte. */
  lemma HexByteParses(b: byte, rest: string)
    requires FromHex(rest).Some?
    ensures RemoveColons(HexByte(b)) == HexByte(b)
    ensures FromHex(HexByte(b) + rest) == Some([b] + FromHex(rest).value)
  {
    var h := HexByte(b);
    HexByteDecodes(b);
    assert h[1..][1..] == [];
    FromHexPair(h, rest);
    assert b / 16 * 16 + b % 16 == b;
  }

  /** Removing colons around a separating ':'. */
  lemma RemoveColonsSplit(a: string, b: string)
    ensures RemoveColons(a + ":" + b) == RemoveColons(a) + RemoveColons(b)
  {
    RemoveColonsAppend(a + ":", b);
    RemoveColonsAppend(a, ":");
    NoColonsInColon();
    assert RemoveColons(a) + [] == RemoveColons(a);
  }

  lemma HexDigitLower(c: char)
    requires IsHexChar(c)
    ensures HexDigit(HexValue(c).value) == LowerChar(c)
  {
  }

  /** A hex digit pair decodes to a byte whose formatting is the pair in
      lower case. */
  lemma PairFormats(c0: char, c1: char)
    requires IsHexChar(c0) && IsHexChar(c1)
    ensures HexByte(PairByte(c0, c1)) == [LowerChar(c0), LowerChar(c1)]
  {
    var v0, v1 := HexValue(c0).value, HexValue(c1).value;
    HexByteOfDigits(v0, v1);
    HexDigitLower(c0);
    HexDigitLower(c1);
  }

  lemma HexByteOfDigits(hi: nat, lo: nat)
    requires hi < 16 && lo < 16
    ensures HexByte(hi * 16 + lo) == [HexDigit(hi), HexDigit(lo)]
  {
    DigitsOfByte(hi, lo);
  }

  /** The two hex digits of `16 * hi + lo` are `hi` and `lo`. */
  lemma DigitsOfByte(hi: nat, lo: nat)
    requires hi < 16 && lo < 16
    ensures (hi * 16 + lo) / 16 == hi && (hi * 16 + lo) % 16 == lo
  {
  }

  lemma LowerPair(c0: char, c1: char)
    ensures Lower([c0, c1]) == [LowerChar(c0), LowerChar(c1)]
  {
    assert [c0, c1][1..] == [c1];
    assert [c1][1..] == [];
  }

  /** A hex digit pair holds no ':' and its byte formats as the pair in
      lower case. */
  lemma HexPair(c0: char, c1: char)
    requires IsHexChar(c0) && IsHexChar(c1)
    ensures RemoveColons([c0, c1]) == [c0, c1]
    ensures HexByte(PairByte(c0, c1)) == Lower([c0, c1])
  {
    assert [c0, c1][1..] == [c1];
    assert [c1][1..] == [];
    PairFormats(c0, c1);
    LowerPair(c0, c1);
  }

  /** `format_mac_address(parse_mac_address(s))` is `s` in lower case, for
      every well-formed MAC string. */
  lemma {:induction false} FormatParse(s: string)
    requires WellFormedMac(s)
    ensures ParseMac(s).Some?
    ensures FormatMac(ParseMac(s).value) == Lower(s)
    decreases |s|
  {
    if |s| == 2 {
      FormatParsePair(s);
    } else {
      FormatParseTail(s);
    }
  }

  lemma FormatParsePair(s: string)
    requires |s| == 2 && IsHexChar(s[0]) && IsHexChar(s[1])
    ensures ParseMac(s).Some?
    ensures FormatMac(ParseMac(s).value) == Lower(s)
  {
    var c0, c1 := s[0], s[1];
    assert s == [c0, c1];
    HexPair(c0, c1);
    FromHexPair(s, []);
    assert s + [] == s;
    assert [PairByte(c0, c1)] + [] == [PairByte(c0, c1)];
  }

  lemma {:induction false} FormatParseTail(s: string)
    requires WellFormedMac(s) && |s| > 2
    ensures ParseMac(s).Some?
    ensures FormatMac(ParseMac(s).value) == Lower(s)
    decreases |s|, 0
  {
    var c0, c1, tail := s[0], s[1], s[3..];
    var pair := [c0, c1];
    FormatParse(tail);
    HexPair(c0, c1);
    assert s == pair + ":" + tail;
    RemoveColonsSplit(pair, tail);
    FromHexPair(pair, RemoveColons(tail));
    var rest := ParseMac(tail).value;
    assert ParseMac(s).value == [PairByte(c0, c1)] + rest;
    assert |rest| > 0;
    LowerAppend(pair + ":", tail);
    LowerAppend(pair, ":");
  }

  lemma {:induction false} LowerAppend(a: string, b: string)
    ensures Lower(a + b) == Lower(a) + Lower(b)
  {
    if a == [] {
      assert a + b == b;
    } else {
      assert (a + b)[1..] == a[1..] + b;
      LowerAppend(a[1..], b);
    }
  }

  /** A six-byte address formats to the familiar 17-character text. */
  lemma SixByteMacLength(bs: seq<byte>)
    requires |bs| == 6
    ensures |FormatMac(bs)| == 17
  {
  }
}

=== FILE: legacy_discovery.dfy ===
/** The device registry of the older code generation
    (LinkChat/src/networking/discovery.py): the same device table as the
    newer one, but notification goes to a name-keyed callback dictionary,
    every registration is reported (new or not), requests and replies must
    carry a parsable JSON body, and the timeout sweep reports nothing. */
module LegacyDiscovery {
  import C = Constants
  import D = Discovery
  import RawSocket

  type Mac = string

  /** One callback invocation `callback(mac, info)`, tagged with the name
      the callback was registered under. */
  datatype Call = Call(name: string, mac: Mac, info: D.DeviceInfo)

  /** `callbacks` is the instance's dictionary; `order` is its iteration
      order (its keys, each once). */
  predicate IsKeyOrder<Cb>(callbacks: map<string, Cb>, order: seq<string>) {
    && (forall i :: 0 <= i < |order| ==> order[i] in callbacks)
    && (forall n :: n in callbacks ==> n in order)
    && (forall i, j :: 0 <= i < j < |order| ==> order[i] != order[j])
  }

  /** `_add_device`: the local address is ignored; any other is
      overwritten and every callback is called with it, whether the device
      is new or already known. */
  function AddDevice<Cb>(reg: D.Registry, callbacks: map<string, Cb>, order: seq<string>,
                         mac: Mac, info: D.DeviceInfo): (r: (D.Registry, seq<Call>))
    requires IsKeyOrder(callbacks, order)
    ensures mac == reg.localMac ==> r == (reg, [])
    ensures mac != reg.localMac ==>
              && r.0.localMac == reg.localMac
              && r.0.devices.Keys == reg.devices.Keys + {mac}
              && r.0.devices[mac] == info
              && (forall m :: m in reg.devices && m != mac ==> r.0.devices[m] == reg.devices[m])
              && |r.1| == |order|
              && (forall i :: 0 <= i < |r.1| ==> r.1[i] == Call(order[i], mac, info))
    ensures mac != reg.localMac ==> forall n :: n in callbacks ==> exists i :: 0 <= i < |r.1| && r.1[i].name == n
  {
    if mac == reg.localMac then (reg, [])
    else
      var calls := seq(|order|, i requires 0 <= i < |order| => Call(order[i], mac, info));
      assert forall n :: n in callbacks ==> exists i :: 0 <= i < |calls| && calls[i].name == n by {
        forall n | n in callbacks
          ensures exists i :: 0 <= i < |calls| && calls[i].name == n
        {
          var i :| 0 <= i < |order| && order[i] == n;
          assert calls[i].name == n;
        }
      }
      (reg.(devices := reg.devices[mac := info]), calls)
  }

  /** The older `_add_device` registers exactly what the newer one does;
      only the notification differs. */
  lemma AddDeviceAgreesWithNew<Cb>(reg: D.Registry, callbacks: map<string, Cb>, order: seq<string>,
                                   mac: Mac, info: D.DeviceInfo)
    requires IsKeyOrder(callbacks, order)
    ensures AddDevice(reg, callbacks, order, mac, info).0 == D.AddDevice(reg, mac, info).0
  {
  }

  /** What handling one frame produced: the registry, the callback
      invocations, and the frames sent back. */
  datatype Handled = Handled(reg: D.Registry, calls: seq<Call>, sent: seq<D.Announce>)

  /** `_handle_discovery_request`. `bodyParses` is whether `json.loads`
      accepted the data; when it does not, the exception is caught before
      the sender is registered or answered. */
  function HandleDiscoveryRequest<Cb>(reg: D.Registry, callbacks: map<string, Cb>, order: seq<string>,
                                      srcMac: Mac, bodyParses: bool, now: int, micros: int): (r: Handled)
    requires IsKeyOrder(callbacks, order)
    ensures !bodyParses ==> r == Handled(reg, [], [])
    ensures bodyParses ==>
              (r.reg, r.calls) == AddDevice(reg, callbacks, order, srcMac, D.DeviceInfo("discovery_request", now, true))
    ensures bodyParses && srcMac != reg.localMac ==>
              && srcMac in r.reg.devices && r.reg.devices[srcMac] == D.DeviceInfo("discovery_request", now, true)
              && r.reg.devices.Keys == reg.devices.Keys + {srcMac}
              && |r.calls| == |order|
              && (forall i :: 0 <= i < |order| ==>
                    r.calls[i] == Call(order[i], srcMac, D.DeviceInfo("discovery_request", now, true)))
    ensures bodyParses && srcMac == reg.localMac ==> r.reg == reg && r.calls == []
    ensures forall m :: m in reg.devices && m != srcMac ==> m in r.reg.devices && r.reg.devices[m] == reg.devices[m]
    ensures bodyParses ==> r.sent == [D.DiscoveryReply(reg.localMac, srcMac, micros, now)]
    ensures bodyParses ==> |r.sent| == 1 && r.sent[0].destMac == srcMac && r.sent[0].msgType == C.MsgTypeDiscoveryReply
  {
    if !bodyParses then Handled(reg, [], [])
    else
      var added := AddDevice(reg, callbacks, order, srcMac, D.DeviceInfo("discovery_request", now, true));
      Handled(added.0, added.1, [D.DiscoveryReply(reg.localMac, srcMac, micros, now)])
  }

  /** `_handle_discovery_reply`: as a request, but nothing is sent back. */
  function HandleDiscoveryReply<Cb>(reg: D.Registry, callbacks: map<string, Cb>, order: seq<string>,
                                    srcMac: Mac, bodyParses: bool, now: int): (r: Handled)
    requires IsKeyOrder(callbacks, order)
    ensures !bodyParses || srcMac == reg.localMac ==> r == Handled(reg, [], [])
    ensures bodyParses ==>
              (r.reg, r.calls) == AddDevice(reg, callbacks, order, srcMac, D.DeviceInfo("discovery_reply", now, true))
    ensures bodyParses && srcMac != reg.localMac ==>
              && srcMac in r.reg.devices && r.reg.devices[srcMac] == D.DeviceInfo("discovery_reply", now, true)
              && r.reg.devices.Keys == reg.devices.Keys + {srcMac}
              && |r.calls| == |order|
              && (forall i :: 0 <= i < |order| ==>
                    r.calls[i] == Call(order[i], srcMac, D.DeviceInfo("discovery_reply", now, true)))
    ensures forall m :: m in reg.devices && m != srcMac ==> m in r.reg.devices && r.reg.devices[m] == reg.devices[m]
    ensures r.sent == []
  {
    if !bodyParses then Handled(reg, [], [])
    else
      var added := AddDevice(reg, callbacks, order, srcMac, D.DeviceInfo("discovery_reply", now, true));
      Handled(added.0, added.1, [])
  }

  /** `_handle_heartbeat`: the body is not parsed; a known device is
      refreshed, an unknown one ignored, and no callback runs. */
  function HandleHeartbeat(reg: D.Registry, srcMac: Mac, now: int): (r: Handled)
    ensures srcMac !in reg.devices ==> r == Handled(reg, [], [])
    ensures r.calls == [] && r.sent == []
    ensures r.reg.devices.Keys == reg.devices.Keys
    ensures srcMac in reg.devices ==> r.reg.devices[srcMac] == reg.devices[srcMac].(lastSeen := now, active := true)
    ensures forall m :: m in reg.devices && m != srcMac ==> r.reg.devices[m] == reg.devices[m]
  {
    var h := D.HandleHeartbeat(reg, srcMac, now);
    Handled(h.reg, [], [])
  }

  /** `get_discovered_devices`: every device is returned, flagged active
      iff seen within DEVICE_TIMEOUT; no callback runs. */
  function GetDiscoveredDevices(reg: D.Registry, now: int): (r: D.Registry)
    ensures r.localMac == reg.localMac && r.devices.Keys == reg.devices.Keys
    ensures forall m :: m in reg.devices ==> (r.devices[m].active <==> D.Fresh(reg.devices[m], now))
    ensures forall m :: m in reg.devices ==>
              r.devices[m].lastSeen == reg.devices[m].lastSeen && r.devices[m].kind == reg.devices[m].kind
  {
    reg.(devices := D.Sweep(reg.devices, now))
  }

  /** Both generations flag the same devices active. */
  lemma SweepAgreesWithNew(reg: D.Registry, order: seq<Mac>, now: int)
    requires forall i :: 0 <= i < |order| ==> order[i] in reg.devices
    requires forall m :: m in reg.devices ==> m in order
    requires D.DistinctMacs(order)
    ensures GetDiscoveredDevices(reg, now) == D.GetDiscoveredDevices(reg, order, now).0
  {
  }

  /** `register_callback`: overwrite by name. */
  function RegisterCallback<Cb>(callbacks: map<string, Cb>, name: string, cb: Cb): (r: map<string, Cb>)
    ensures r.Keys == callbacks.Keys + {name} && r[name] == cb
    ensures forall n :: n in callbacks && n != name ==> r[n] == callbacks[n]
  {
    RawSocket.RegisterCallback(callbacks, name, cb)
  }

  /** `unregister_callback`: delete if present, a no-op otherwise. */
  function UnregisterCallback<Cb>(callbacks: map<string, Cb>, name: string): (r: map<string, Cb>)
    ensures r.Keys == callbacks.Keys - {name}
    ensures name !in callbacks ==> r == callbacks
    ensures forall n :: n in r ==> r[n] == callbacks[n]
  {
    if name in callbacks then RawSocket.UnregisterCallback(callbacks, name) else callbacks
  }

  /** Registering then unregistering a fresh name restores the dictionary. */
  lemma RegisterUnregister<Cb>(callbacks: map<string, Cb>, name: string, cb: Cb)
    requires name !in callbacks
    ensures UnregisterCallback(RegisterCallback(callbacks, name, cb), name) == callbacks
  {
  }
}

=== FILE: legacy_transfer.dfy ===
/** The file service of the older code generation
    (LinkChat/src/networking/file_transfer.py): a stop-and-wait sender
    that numbers its frames 0 (start), 1..n (chunks) and n+1 (end), and a
    receiver that appends chunk payloads in arrival order, writes them out
    on the end frame and acknowledges every frame it handles.

    The frame object, the name serializer and the file system are not part
    of this model: frames are plain records, the serialized file name is a
    byte string with a decoding function, and a file is its contents. */
module LegacyTransfer {
  import opened Wrappers
  import opened Bytes
  import C = Constants
  import Transfer
  import TM = TransferManager

  /** `LinkChatFrame(dest_mac, src_mac, msg_type, msg_id, data)`. */
  datatype LinkFrame = LinkFrame(destMac: string, srcMac: string, msgType: int, msgId: int, data: seq<byte>)

  /** `AsWritten`: `confirmed_frame` is left set after the end frame's
      ACK. `Corrected`: it is cleared, as after every other stage. */
  datatype Variant = AsWritten | Corrected

  /** The instance fields: observers, the ACK flag, the chunks received so
      far and the announced file name (None until a start frame). */
  datatype Service<O> = Service(observers: set<O>, confirmed: bool, chunks: seq<seq<byte>>, fileName: Option<string>)

  function Init<O>(): (s: Service<O>)
    ensures s.observers == {} && !s.confirmed && s.chunks == [] && s.fileName.None?
  {
    Service({}, false, [], None)
  }

  /** `attach`: add to the observer set. */
  function Attach<O>(s: Service<O>, o: O): (r: Service<O>)
    ensures r.observers == s.observers + {o}
    ensures r.confirmed == s.confirmed && r.chunks == s.chunks && r.fileName == s.fileName
  {
    s.(observers := s.observers + {o})
  }

  /** `detach`: `set.remove`, which raises (None) for an observer that is
      not attached. */
  function Detach<O>(s: Service<O>, o: O): (r: Option<Service<O>>)
    ensures r.Some? <==> o in s.observers
    ensures r.Some? ==> r.value.observers == s.observers - {o}
                        && r.value.confirmed == s.confirmed && r.value.chunks == s.chunks
                        && r.value.fileName == s.fileName
  {
    if o in s.observers then Some(s.(observers := s.observers - {o})) else None
  }

  /** Attaching twice is attaching once. */
  lemma AttachIdempotent<O>(s: Service<O>, o: O)
    ensures Attach(Attach(s, o), o) == Attach(s, o)
  {
    assert s.observers + {o} + {o} == s.observers + {o};
  }

  /** Detaching a newly attached observer restores the service; detaching
      it again fails. */
  lemma AttachDetach<O>(s: Service<O>, o: O)
    requires o !in s.observers
    ensures Detach(Attach(s, o), o) == Some(s)
    ensures Detach(Detach(Attach(s, o), o).value, o).None?
  {
    assert s.observers + {o} - {o} == s.observers;
  }

  /** The concatenation of the chunks, in order. */
  function Flatten(chunks: seq<seq<byte>>): seq<byte> {
    if chunks == [] then [] else chunks[0] + Flatten(chunks[1..])
  }

  lemma {:induction false} FlattenAppend(chunks: seq<seq<byte>>, c: seq<byte>)
    ensures Flatten(chunks + [c]) == Flatten(chunks) + c
    decreases |chunks|
  {
    if chunks != [] {
      assert (chunks + [c])[1..] == chunks[1..] + [c];
      FlattenAppend(chunks[1..], c);
    } else {
      assert [c][1..] == [];
    }
  }

  /** What `split_chunks` returns, stated independently of the read loop:
      successive pieces of `size` bytes, the last one shorter; `read(0)`
      ends the loop at once and a negative size reads the whole file. */
  function Chunks(file: seq<byte>, size: int): seq<seq<byte>>
    decreases |file|
  {
    if file == [] || size == 0 then []
    else if size < 0 || |file| <= size then [file]
    else [file[..size]] + Chunks(file[size..], size)
  }

  /** Unless the chunk size is 0 the pieces are non-empty and make up the
      file; every piece but the last is exactly `size` long, and a
      negative size gives at most one piece. */
  lemma {:induction false} ChunksShape(file: seq<byte>, size: int)
    ensures size != 0 ==> Flatten(Chunks(file, size)) == file
    ensures size == 0 ==> Chunks(file, size) == []
    ensures forall i :: 0 <= i < |Chunks(file, size)| ==> |Chunks(file, size)[i]| > 0
    ensures size > 0 ==> forall i :: 0 <= i < |Chunks(file, size)| - 1 ==> |Chunks(file, size)[i]| == size
    ensures size > 0 ==> forall i :: 0 <= i < |Chunks(file, size)| ==> |Chunks(file, size)[i]| <= size
    ensures size < 0 ==> |Chunks(file, size)| <= 1
    decreases |file|
  {
    if file != [] && size > 0 && |file| > size {
      ChunksShape(file[size..], size);
      var rest := Chunks(file[size..], size);
      assert Chunks(file, size) == [file[..size]] + rest;
      assert ([file[..size]] + rest)[1..] == rest;
      assert file[..size] + file[size..] == file;
    }
  }

  /** With a positive size there are ceil(|file| / size) pieces, piece `i`
      being the bytes from `i * size` up to the next multiple or the end. */
  lemma ChunksAreRanges(file: seq<byte>, size: int)
    requires size > 0
    ensures |Chunks(file, size)| == (|file| + size - 1) / size
    ensures forall i :: 0 <= i < |Chunks(file, size)| ==>
              i * size < |file| && Chunks(file, size)[i] == file[i * size..Min((i + 1) * size, |file|)]
  {
    ChunkCountIsCeiling(file, size);
    forall i | 0 <= i < |Chunks(file, size)|
      ensures i * size < |file| && Chunks(file, size)[i] == file[i * size..Min((i + 1) * size, |file|)]
    {
      ChunkIsRange(file, size, i);
    }
  }

  lemma {:induction false} ChunkCountIsCeiling(file: seq<byte>, size: int)
    requires size > 0
    ensures |Chunks(file, size)| == (|file| + size - 1) / size
    decreases |file|
  {
    if file != [] && |file| > size {
      var tail := file[size..];
      ChunkCountIsCeiling(tail, size);
      var n := |tail| + size - 1;
      assert |file| + size - 1 == n + size;
      DivUnique(n + size, size, n / size + 1, n % size);
    } else if file != [] {
      DivUnique(|file| + size - 1, size, 1, |file| - 1);
    } else {
      DivUnique(size - 1, size, 0, size - 1);
    }
  }

  /** The quotient is the one `q` with `n == q * d + r` and `0 <= r < d`. */
  lemma DivUnique(n: int, d: int, q: int, r: int)
    requires d > 0 && 0 <= r < d && n == q * d + r
    ensures n / d == q
  {
    var q' := n / d;
    var r' := n % d;
    assert n == q' * d + r';
    if q != q' {
      var k := if q > q' then q - q' else q' - q;
      MulAtLeast(k, d);
      Distributes(q, q', d);
      Distributes(q', q, d);
    }
  }

  lemma Distributes(a: int, b: int, d: int)
    ensures (a - b) * d == a * d - b * d
  {
  }

  lemma {:induction false} MulAtLeast(k: int, d: int)
    requires k >= 1 && d > 0
    ensures k * d >= d
    decreases k
  {
    if k > 1 {
      MulAtLeast(k - 1, d);
      assert k * d == (k - 1) * d + d;
    }
  }

  lemma {:induction false} ChunkIsRange(file: seq<byte>, size: int, i: nat)
    requires size > 0 && i < |Chunks(file, size)|
    ensures i * size < |file| && Chunks(file, size)[i] == file[i * size..Min((i + 1) * size, |file|)]
    decreases i
  {
    if i > 0 {
      var tail := file[size..];
      assert Chunks(file, size) == [file[..size]] + Chunks(tail, size);
      ChunkIsRange(tail, size, i - 1);
      var lo, hi := (i - 1) * size, Min(i * size, |tail|);
      assert lo + size == i * size;
      assert i * size + size == (i + 1) * size;
      assert hi + size == Min((i + 1) * size, |file|);
      assert Chunks(file, size)[i] == tail[lo..hi];
      DropSlice(file, size, lo, hi);
    }
  }

  lemma DropSlice(s: seq<byte>, d: nat, lo: nat, hi: nat)
    requires d <= |s| && lo <= hi <= |s| - d
    ensures s[d..][lo..hi] == s[d + lo..d + hi]
  {
  }

  /** `split_chunks`: read `size` bytes at a time until a read comes back
      empty. */
  method SplitChunks(file: seq<byte>, size: int) returns (chunks: seq<seq<byte>>)
    ensures chunks == Chunks(file, size)
    ensures size != 0 ==> Flatten(chunks) == file
    ensures forall i :: 0 <= i < |chunks| ==> 0 < |chunks[i]|
    ensures size > 0 ==> forall i :: 0 <= i < |chunks| - 1 ==> |chunks[i]| == size
  {
    chunks := [];
    var pos := 0;
    while true
      invariant 0 <= pos <= |file|
      invariant chunks + Chunks(file[pos..], size) == Chunks(file, size)
      decreases |file| - pos
    {
      var data := Read(file, pos, size);
      if data == [] {
        assert pos == |file| || size == 0;
        break;
      }
      var rest := file[pos..];
      if size < 0 || |rest| <= size {
        assert data == rest && Chunks(rest, size) == [data];
        assert file[|file|..] == [];
        chunks := chunks + [data];
        pos := |file|;
      } else {
        assert data == rest[..size] && rest[size..] == file[pos + size..];
        assert Chunks(rest, size) == [data] + Chunks(file[pos + size..], size);
        chunks := chunks + [data];
        pos := pos + size;
      }
    }
    assert Chunks(file[pos..], size) == [];
    ChunksShape(file, size);
  }

  /** With the default size the older sender's pieces are the newer
      sender's chunks: as many as `ChunkCount`, piece `i` being chunk `i`. */
  lemma ChunksAgreeWithNew(file: seq<byte>)
    ensures |Chunks(file, C.MaxChunkSize)| == Transfer.ChunkCount(|file|)
    ensures forall i :: 0 <= i < |Chunks(file, C.MaxChunkSize)| ==> Chunks(file, C.MaxChunkSize)[i] == TM.ChunkData(file, i)
  {
    ChunksAreRanges(file, C.MaxChunkSize);
    forall i | 0 <= i < |Chunks(file, C.MaxChunkSize)|
      ensures Chunks(file, C.MaxChunkSize)[i] == TM.ChunkData(file, i)
    {
      TM.StartBelowSize(|file|, i);
      assert (i + 1) * C.MaxChunkSize == TM.ChunkStart(i) + C.MaxChunkSize;
    }
  }

  /** What `update` did: the service after the frame, the ACK reply sent,
      the file written (its path and contents), and the name the observers
      were notified of. */
  datatype Saved = Saved(path: string, contents: seq<byte>)
  datatype Outcome<O> = Outcome(service: Service<O>, reply: Option<LinkFrame>, saved: Option<Saved>, notice: Option<string>)

  /** The ACK of frame `f`: back to its source, from its destination, with
      its id and no payload. */
  function AckFor(f: LinkFrame): (a: LinkFrame)
    ensures a.destMac == f.srcMac && a.srcMac == f.destMac
    ensures a.msgType == C.MsgTypeMessageAck && a.msgId == f.msgId && a.data == []
  {
    LinkFrame(f.srcMac, f.destMac, C.MsgTypeMessageAck, f.msgId, [])
  }

  /** `update`. `decodeName` is the name deserializer: the name when it
      yields a `str`, None when it yields anything else (the `FileInfo` the
      sender serializes, say). `writeOk` is whether writing the file
      succeeded. An end frame with no `str` name, because no start frame
      came or its name did not decode to one, makes `DOWNLOADS_PATH + name`
      raise; so does a failed write. Either way nothing is saved, notified
      or acknowledged. */
  function Update<O>(s: Service<O>, f: LinkFrame, decodeName: seq<byte> -> Option<string>, writeOk: bool): (r: Outcome<O>)
    ensures f.msgType == C.MsgTypeMessageAck ==> r == Outcome(s.(confirmed := true), None, None, None)
    ensures f.msgType == C.MsgTypeFileStart ==>
              r == Outcome(s.(chunks := [], fileName := decodeName(f.data)), Some(AckFor(f)), None, None)
    ensures f.msgType == C.MsgTypeFileChunk ==>
              r == Outcome(s.(chunks := s.chunks + [f.data]), Some(AckFor(f)), None, None)
    ensures f.msgType == C.MsgTypeFileEnd ==>
              r.service == s
              && (r.saved.Some? <==> s.fileName.Some? && writeOk)
              && (r.saved.Some? ==> r.saved.value == Saved(C.DownloadsPath + s.fileName.value, Flatten(s.chunks))
                                    && r.notice == Some(s.fileName.value) && r.reply == Some(AckFor(f)))
              && (r.saved.None? ==> r.notice.None? && r.reply.None?)
    ensures f.msgType !in {C.MsgTypeMessageAck, C.MsgTypeFileStart, C.MsgTypeFileChunk, C.MsgTypeFileEnd} ==>
              r == Outcome(s, Some(AckFor(f)), None, None)
  {
    if f.msgType == C.MsgTypeMessageAck then Outcome(s.(confirmed := true), None, None, None)
    else if f.msgType == C.MsgTypeFileStart then
      Outcome(s.(chunks := [], fileName := decodeName(f.data)), Some(AckFor(f)), None, None)
    else if f.msgType == C.MsgTypeFileChunk then Outcome(s.(chunks := s.chunks + [f.data]), Some(AckFor(f)), None, None)
    else if f.msgType == C.MsgTypeFileEnd then
      match s.fileName
      case None => Outcome(s, None, None, None)
      case Some(name) =>
        if writeOk then Outcome(s, Some(AckFor(f)), Some(Saved(C.DownloadsPath + name, Flatten(s.chunks))), Some(name))
        else Outcome(s, None, None, None)
    else Outcome(s, Some(AckFor(f)), None, None)
  }

  /** A chunk payload is kept even if it repeats one already held: two
      copies of a chunk frame store the payload twice. */
  lemma DuplicateChunkKept<O>(s: Service<O>, f: LinkFrame, decodeName: seq<byte> -> Option<string>, writeOk: bool)
    requires f.msgType == C.MsgTypeFileChunk
    ensures Update(Update(s, f, decodeName, writeOk).service, f, decodeName, writeOk).service.chunks == s.chunks + [f.data, f.data]
  {
  }

  /** How frames are paired with their ACKs. `Unpaired`, as written: any
      MESSAGE_ACK ends the stage the sender is in, and every chunk copy is
      appended. `Paired`, the correction: a stage ends only on the ACK
      carrying its frame's id, and the receiver appends a chunk only when
      its id is the next one expected (one more than the chunks held), so
      a resent copy is acknowledged again but not stored twice. */
  datatype Pairing = Unpaired | Paired

  /** The receiver's handling of one frame under a pairing. */
  function Handle<O>(p: Pairing, s: Service<O>, f: LinkFrame, decodeName: seq<byte> -> Option<string>, writeOk: bool): (r: Outcome<O>)
    ensures p == Unpaired ==> r == Update(s, f, decodeName, writeOk)
    ensures p == Paired && f.msgType == C.MsgTypeFileChunk && f.msgId != |s.chunks| + 1 ==>
              r == Outcome(s, Some(AckFor(f)), None, None)
    ensures p == Paired && f.msgType == C.MsgTypeFileChunk && f.msgId == |s.chunks| + 1 ==>
              r.service.chunks == s.chunks + [f.data] && r.reply == Some(AckFor(f))
  {
    if p == Paired && f.msgType == C.MsgTypeFileChunk && f.msgId != |s.chunks| + 1 then
      Outcome(s, Some(AckFor(f)), None, None)
    else Update(s, f, decodeName, writeOk)
  }

  /** Frames as handled in order; the files written, in order. */
  function Receive<O>(p: Pairing, s: Service<O>, frames: seq<LinkFrame>, decodeName: seq<byte> -> Option<string>): (r: (Service<O>, seq<Saved>))
    ensures |r.1| <= |frames|
    ensures forall x :: x in r.1 ==> C.DownloadsPath <= x.path
    decreases |frames|
  {
    if frames == [] then (s, [])
    else
      var o := Handle(p, s, frames[0], decodeName, true);
      var rest := Receive(p, o.service, frames[1..], decodeName);
      (rest.0, (if o.saved.Some? then [o.saved.value] else []) + rest.1)
  }

  /** `while not self.confirmed_frame: send(f)` for one stage: the frame is
      sent (listed once, however often it is resent) unless the flag is
      already set, and the loop ends with the flag set by an ACK; `clear`
      is whether the flag is cleared after the stage. */
  datatype Sent = Sent(frames: seq<LinkFrame>, confirmed: bool)

  function Stage(confirmed: bool, f: LinkFrame, clear: bool): (r: Sent)
    ensures r.frames == (if confirmed then [] else [f])
    ensures r.confirmed == !clear
  {
    Sent(if confirmed then [] else [f], !clear)
  }

  /** The chunk frames: chunk `k` travels with id `k + 1`. */
  function ChunkFrames(target: string, self: string, chunks: seq<seq<byte>>): (r: seq<LinkFrame>)
    ensures |r| == |chunks|
    ensures forall k :: 0 <= k < |r| ==> r[k] == LinkFrame(target, self, C.MsgTypeFileChunk, k + 1, chunks[k])
  {
    seq(|chunks|, k requires 0 <= k < |chunks| => LinkFrame(target, self, C.MsgTypeFileChunk, k + 1, chunks[k]))
  }

  /** `send_file` of `file` named by the serialized `info`, starting with
      the ACK flag at `confirmed`. Every chunk stage starts with a cleared
      flag, so every chunk and the end frame are sent; the start frame only
      if the flag was clear on entry. */
  function SendFile(v: Variant, confirmed: bool, target: string, self: string, info: seq<byte>, file: seq<byte>): (r: Sent)
    ensures |r.frames| == |Chunks(file, C.MaxChunkSize)| + (if confirmed then 1 else 2)
    ensures forall i :: 0 <= i < |r.frames| ==> r.frames[i].destMac == target && r.frames[i].srcMac == self
    ensures !confirmed <==> r.frames[0].msgType == C.MsgTypeFileStart
    ensures r.frames[|r.frames| - 1].msgType == C.MsgTypeFileEnd
    ensures r.confirmed <==> v == AsWritten
  {
    var start := Stage(confirmed, LinkFrame(target, self, C.MsgTypeFileStart, 0, info), true);
    var chunks := Chunks(file, C.MaxChunkSize);
    var end := Stage(false, LinkFrame(target, self, C.MsgTypeFileEnd, |chunks| + 1, [' ' as byte]), v == Corrected);
    Sent(start.frames + ChunkFrames(target, self, chunks) + end.frames, end.confirmed)
  }

  /** From a clear flag, the frames are the start frame with id 0, chunk
      `k` of the file with id `k + 1`, and the end frame with id n + 1,
      all to the target; the corrected sender leaves the flag clear. */
  lemma SendFileFrames(v: Variant, target: string, self: string, info: seq<byte>, file: seq<byte>)
    ensures var r := SendFile(v, false, target, self, info, file);
            var n := |Chunks(file, C.MaxChunkSize)|;
            && |r.frames| == n + 2
            && (forall i :: 0 <= i < |r.frames| ==> r.frames[i].msgId == i && r.frames[i].destMac == target)
            && r.frames[0] == LinkFrame(target, self, C.MsgTypeFileStart, 0, info)
            && (forall k :: 0 <= k < n ==> r.frames[k + 1].msgType == C.MsgTypeFileChunk
                                            && r.frames[k + 1].data == Chunks(file, C.MaxChunkSize)[k])
            && r.frames[n + 1].msgType == C.MsgTypeFileEnd
            && (r.confirmed <==> v == AsWritten)
  {
    var chunks := Chunks(file, C.MaxChunkSize);
    var n := |chunks|;
    var start := LinkFrame(target, self, C.MsgTypeFileStart, 0, info);
    var end := LinkFrame(target, self, C.MsgTypeFileEnd, n + 1, [' ' as byte]);
    var middle := ChunkFrames(target, self, chunks);
    var frames := SendFile(v, false, target, self, info, file).frames;
    assert frames == [start] + middle + [end];
    forall i | 0 <= i < |frames|
      ensures frames[i].msgId == i && frames[i].destMac == target
    {
      if 0 < i <= n {
        assert frames[i] == middle[i - 1];
      }
    }
    forall k | 0 <= k < n
      ensures frames[k + 1] == middle[k]
    {
    }
  }

  /** The stale-flag defect: as written the flag stays set after a
      transfer, so the next `send_file` sends no start frame at all. */
  lemma SecondSendSkipsStart(target: string, self: string, info: seq<byte>, file: seq<byte>,
                             info2: seq<byte>, file2: seq<byte>)
    ensures var first := SendFile(AsWritten, false, target, self, info, file);
            var second := SendFile(AsWritten, first.confirmed, target, self, info2, file2);
            forall i :: 0 <= i < |second.frames| ==> second.frames[i].msgType != C.MsgTypeFileStart
  {
  }

  /** Corrected, every transfer in a row opens with its start frame. */
  lemma EverySendStarts(target: string, self: string, info: seq<byte>, file: seq<byte>,
                        info2: seq<byte>, file2: seq<byte>)
    ensures var first := SendFile(Corrected, false, target, self, info, file);
            var second := SendFile(Corrected, first.confirmed, target, self, info2, file2);
            second.frames[0] == LinkFrame(target, self, C.MsgTypeFileStart, 0, info2)
  {
  }

  /** Receiving chunk frames appends their payloads in order. */
  lemma ReceiveChunks<O>(s: Service<O>, target: string, self: string, chunks: seq<seq<byte>>,
                         decodeName: seq<byte> -> Option<string>)
    ensures Receive(Unpaired, s, ChunkFrames(target, self, chunks), decodeName) == (s.(chunks := s.chunks + chunks), [])
  {
    assert ChunkFrames(target, self, chunks) == NumberedChunks(target, self, chunks, 1);
    ReceiveNumbered(s, target, self, chunks, 1, decodeName);
  }

  /** Chunk frames numbered from `first`. */
  function NumberedChunks(target: string, self: string, chunks: seq<seq<byte>>, first: int): (r: seq<LinkFrame>)
    ensures |r| == |chunks|
    ensures forall k :: 0 <= k < |r| ==> r[k] == LinkFrame(target, self, C.MsgTypeFileChunk, k + first, chunks[k])
  {
    seq(|chunks|, k requires 0 <= k < |chunks| => LinkFrame(target, self, C.MsgTypeFileChunk, k + first, chunks[k]))
  }

  lemma {:induction false} ReceiveNumbered<O>(s: Service<O>, target: string, self: string, chunks: seq<seq<byte>>,
                                              first: int, decodeName: seq<byte> -> Option<string>)
    ensures Receive(Unpaired, s, NumberedChunks(target, self, chunks, first), decodeName) == (s.(chunks := s.chunks + chunks), [])
    decreases |chunks|
  {
    var frames := NumberedChunks(target, self, chunks, first);
    if chunks == [] {
      assert s.chunks + chunks == s.chunks;
      assert s.(chunks := s.chunks) == s;
    } else {
      var o := Handle(Unpaired, s, frames[0], decodeName, true);
      var s1 := s.(chunks := s.chunks + [chunks[0]]);
      assert o.service == s1 && o.saved.None?;
      var tail := chunks[1..];
      assert frames[1..] == NumberedChunks(target, self, tail, first + 1);
      ReceiveNumbered(s1, target, self, tail, first + 1, decodeName);
      var rest := Receive(Unpaired, s1, frames[1..], decodeName);
      assert [] + rest.1 == rest.1;
      assert Receive(Unpaired, s, frames, decodeName) == rest;
      assert s.chunks + [chunks[0]] + tail == s.chunks + chunks;
    }
  }

  /** A receiver that handles every frame of a transfer writes exactly the
      sent file, at `DOWNLOADS_PATH` followed directly by the announced
      name, when that name decodes to a `str`, and nothing otherwise. */
  lemma TransferDeliversFile<O>(s: Service<O>, v: Variant, target: string, self: string, info: seq<byte>,
                                file: seq<byte>, decodeName: seq<byte> -> Option<string>)
    ensures Receive(Unpaired, s, SendFile(v, false, target, self, info, file).frames, decodeName).1
            == if decodeName(info).Some? then [Saved(C.DownloadsPath + decodeName(info).value, file)] else []
  {
    var chunks := Chunks(file, C.MaxChunkSize);
    var startF := LinkFrame(target, self, C.MsgTypeFileStart, 0, info);
    var endF := LinkFrame(target, self, C.MsgTypeFileEnd, |chunks| + 1, [' ' as byte]);
    var a := Copies(startF, 1);
    var b := ChunkFrames(target, self, chunks);
    var c := Copies(endF, 1);
    assert a == [startF] && c == [endF];
    assert SendFile(v, false, target, self, info, file).frames == a + b + c;
    var s1 := s.(chunks := [], fileName := decodeName(info));
    var s2 := s1.(chunks := chunks);
    ReceiveStartCopies(Unpaired, s, startF, 1, decodeName);
    ReceiveChunks(s1, target, self, chunks, decodeName);
    assert [] + chunks == chunks;
    ReceiveEndCopies(Unpaired, s2, endF, 1, decodeName);
    ReceiveConcat(Unpaired, s, a, b, decodeName);
    ReceiveConcat(Unpaired, s, a + b, c, decodeName);
    ChunksShape(file, C.MaxChunkSize);
    var saved := Receive(Unpaired, s2, c, decodeName).1;
    assert [] + [] + saved == saved;
    if decodeName(info).Some? {
      assert saved[0] in saved;
    }
  }

  /** Handling two frame lists in turn is handling their concatenation. */
  lemma {:induction false} ReceiveConcat<O>(p: Pairing, s: Service<O>, a: seq<LinkFrame>, b: seq<LinkFrame>,
                                            decodeName: seq<byte> -> Option<string>)
    ensures var ra := Receive(p, s, a, decodeName);
            var rb := Receive(p, ra.0, b, decodeName);
            Receive(p, s, a + b, decodeName) == (rb.0, ra.1 + rb.1)
    decreases |a|
  {
    if a == [] {
      assert a + b == b;
      var rb := Receive(p, s, b, decodeName);
      assert [] + rb.1 == rb.1;
    } else {
      assert (a + b)[0] == a[0] && (a + b)[1..] == a[1..] + b;
      var o := Handle(p, s, a[0], decodeName, true);
      var head: seq<Saved> := if o.saved.Some? then [o.saved.value] else [];
      ReceiveConcat(p, o.service, a[1..], b, decodeName);
      var ra' := Receive(p, o.service, a[1..], decodeName);
      var rb := Receive(p, ra'.0, b, decodeName);
      assert Receive(p, s, a, decodeName) == (ra'.0, head + ra'.1);
      assert Receive(p, s, a + b, decodeName) == (rb.0, head + (ra'.1 + rb.1));
      assert head + (ra'.1 + rb.1) == (head + ra'.1) + rb.1;
    }
  }

  /** Whether an ACK ends the stage awaiting the frame with id `awaited`:
      unpaired, as written, any MESSAGE_ACK does (`update` sets the flag
      for every one); paired, only the one carrying the awaited id. */
  predicate Confirms(p: Pairing, ack: LinkFrame, awaited: int) {
    ack.msgType == C.MsgTypeMessageAck && (p == Unpaired || ack.msgId == awaited)
  }

  /** The written `update` sets the flag exactly on the ACKs `Confirms`
      accepts unpaired, so the ACK of a resent copy of frame `k` that
      arrives after the flag was cleared ends the stage of frame `k + 1`
      before it sends anything; paired, it does not. */
  lemma LateAckEndsNextStage<O>(s: Service<O>, f: LinkFrame, decodeName: seq<byte> -> Option<string>, writeOk: bool)
    ensures Update(s, AckFor(f), decodeName, writeOk).service.confirmed
    ensures Confirms(Unpaired, AckFor(f), f.msgId + 1)
    ensures !Confirms(Paired, AckFor(f), f.msgId + 1)
  {
  }

  /** `k` copies of a frame, as a resend loop puts them on the wire. */
  function Copies(f: LinkFrame, k: nat): (r: seq<LinkFrame>)
    ensures |r| == k
    ensures forall i :: 0 <= i < k ==> r[i] == f
  {
    seq(k, _ => f)
  }

  /** Chunk `i`, numbered from `first`, sent `copies[i]` times. */
  function ResentChunks(target: string, self: string, chunks: seq<seq<byte>>, copies: seq<nat>, first: int): seq<LinkFrame>
    requires |copies| == |chunks|
    decreases |chunks|
  {
    if chunks == [] then []
    else Copies(LinkFrame(target, self, C.MsgTypeFileChunk, first, chunks[0]), copies[0])
         + ResentChunks(target, self, chunks[1..], copies[1..], first + 1)
  }

  /** Each chunk repeated as often as it was sent. */
  function Expand(chunks: seq<seq<byte>>, copies: seq<nat>): seq<seq<byte>>
    requires |copies| == |chunks|
    decreases |chunks|
  {
    if chunks == [] then [] else seq(copies[0], _ => chunks[0]) + Expand(chunks[1..], copies[1..])
  }

  /** What `send_file` puts on the wire from a clear flag when stage `i`
      (0 the start frame, 1..n the chunks, n+1 the end frame) sends its
      frame `copies[i]` times. Each stage resends until the flag is set;
      unpaired, a stage can send many copies, or none when a late ACK for
      an earlier copy set the flag after it was cleared. */
  function WireFrames(target: string, self: string, info: seq<byte>, file: seq<byte>, copies: seq<nat>): (r: seq<LinkFrame>)
    requires |copies| == |Chunks(file, C.MaxChunkSize)| + 2
    ensures |r| >= copies[0] + copies[|copies| - 1]
  {
    var chunks := Chunks(file, C.MaxChunkSize);
    var n := |chunks|;
    Copies(LinkFrame(target, self, C.MsgTypeFileStart, 0, info), copies[0])
    + ResentChunks(target, self, chunks, copies[1..n + 1], 1)
    + Copies(LinkFrame(target, self, C.MsgTypeFileEnd, n + 1, [' ' as byte]), copies[n + 1])
  }

  /** With every frame sent once the wire is `send_file`'s frame list. */
  lemma WireOnceIsSendFile(target: string, self: string, info: seq<byte>, file: seq<byte>, copies: seq<nat>)
    requires |copies| == |Chunks(file, C.MaxChunkSize)| + 2
    requires forall i :: 0 <= i < |copies| ==> copies[i] == 1
    ensures WireFrames(target, self, info, file, copies) == SendFile(AsWritten, false, target, self, info, file).frames
  {
    var chunks := Chunks(file, C.MaxChunkSize);
    var n := |chunks|;
    ResentOnceIsNumbered(target, self, chunks, copies[1..n + 1], 1);
    assert NumberedChunks(target, self, chunks, 1) == ChunkFrames(target, self, chunks);
    assert Copies(LinkFrame(target, self, C.MsgTypeFileStart, 0, info), copies[0])
           == [LinkFrame(target, self, C.MsgTypeFileStart, 0, info)];
    assert Copies(LinkFrame(target, self, C.MsgTypeFileEnd, n + 1, [' ' as byte]), copies[n + 1])
           == [LinkFrame(target, self, C.MsgTypeFileEnd, n + 1, [' ' as byte])];
  }

  /** Chunks each sent once are the numbered chunk frames. */
  lemma {:induction false} ResentOnceIsNumbered(target: string, self: string, chunks: seq<seq<byte>>,
                                                copies: seq<nat>, first: int)
    requires |copies| == |chunks|
    requires forall i :: 0 <= i < |copies| ==> copies[i] == 1
    ensures ResentChunks(target, self, chunks, copies, first) == NumberedChunks(target, self, chunks, first)
    decreases |chunks|
  {
    if chunks != [] {
      ResentOnceIsNumbered(target, self, chunks[1..], copies[1..], first + 1);
      var head := LinkFrame(target, self, C.MsgTypeFileChunk, first, chunks[0]);
      assert Copies(head, copies[0]) == [head];
      var numbered := NumberedChunks(target, self, chunks, first);
      assert numbered == [head] + NumberedChunks(target, self, chunks[1..], first + 1);
    }
  }

  /** Copies of a start frame reset the chunks and take the name. */
  lemma {:induction false} ReceiveStartCopies<O>(p: Pairing, s: Service<O>, f: LinkFrame, k: nat,
                                                 decodeName: seq<byte> -> Option<string>)
    requires f.msgType == C.MsgTypeFileStart && k >= 1
    ensures Receive(p, s, Copies(f, k), decodeName) == (s.(chunks := [], fileName := decodeName(f.data)), [])
    decreases k
  {
    var s1 := s.(chunks := [], fileName := decodeName(f.data));
    assert Copies(f, k) == [f] + Copies(f, k - 1);
    assert Handle(p, s, f, decodeName, true).service == s1;
    if k > 1 {
      ReceiveStartCopies(p, s1, f, k - 1, decodeName);
      assert s1.(chunks := [], fileName := decodeName(f.data)) == s1;
    }
  }

  /** Copies of an end frame each write the same file. */
  lemma {:induction false} ReceiveEndCopies<O>(p: Pairing, s: Service<O>, f: LinkFrame, k: nat,
                                               decodeName: seq<byte> -> Option<string>)
    requires f.msgType == C.MsgTypeFileEnd
    ensures var r := Receive(p, s, Copies(f, k), decodeName);
            && r.0 == s && |r.1| == (if s.fileName.Some? then k else 0)
            && forall x :: x in r.1 ==> s.fileName.Some? && x == Saved(C.DownloadsPath + s.fileName.value, Flatten(s.chunks))
    decreases k
  {
    if k > 0 {
      assert Copies(f, k) == [f] + Copies(f, k - 1);
      ReceiveEndCopies(p, s, f, k - 1, decodeName);
    }
  }

  /** Copies of a chunk frame: unpaired, every copy is appended; paired,
      the first is, when its id is the next expected, and the rest are
      not. */
  lemma {:induction false} ReceiveChunkCopies<O>(p: Pairing, s: Service<O>, f: LinkFrame, k: nat,
                                                 decodeName: seq<byte> -> Option<string>)
    requires f.msgType == C.MsgTypeFileChunk
    requires p == Paired ==> k >= 1 && f.msgId == |s.chunks| + 1
    ensures Receive(p, s, Copies(f, k), decodeName)
            == (s.(chunks := s.chunks + (if p == Paired then [f.data] else seq(k, _ => f.data))), [])
    decreases k
  {
    if k == 0 {
      assert s.chunks + seq(0, _ => f.data) == s.chunks;
      assert s.(chunks := s.chunks) == s;
    } else {
      var s1 := s.(chunks := s.chunks + [f.data]);
      assert Copies(f, k) == [f] + Copies(f, k - 1);
      assert Handle(p, s, f, decodeName, true) == Outcome(s1, Some(AckFor(f)), None, None);
      if p == Paired {
        IgnoredCopies(s1, f, k - 1, decodeName);
      } else {
        ReceiveChunkCopies(p, s1, f, k - 1, decodeName);
        assert s1.chunks + seq(k - 1, _ => f.data) == s.chunks + seq(k, _ => f.data);
      }
    }
  }

  /** Paired, chunk copies whose id is not the next expected change
      nothing. */
  lemma {:induction false} IgnoredCopies<O>(s: Service<O>, f: LinkFrame, k: nat, decodeName: seq<byte> -> Option<string>)
    requires f.msgType == C.MsgTypeFileChunk && f.msgId != |s.chunks| + 1
    ensures Receive(Paired, s, Copies(f, k), decodeName) == (s, [])
    decreases k
  {
    if k > 0 {
      assert Copies(f, k) == [f] + Copies(f, k - 1);
      IgnoredCopies(s, f, k - 1, decodeName);
    }
  }

  /** Resent chunk frames: unpaired, the receiver holds every copy;
      paired, each chunk once, provided every chunk went out at least
      once and the numbering continues the chunks held. */
  lemma ReceiveResent<O>(p: Pairing, s: Service<O>, target: string, self: string,
                         chunks: seq<seq<byte>>, copies: seq<nat>, first: int,
                         decodeName: seq<byte> -> Option<string>)
    requires |copies| == |chunks|
    requires p == Paired ==> first == |s.chunks| + 1 && forall i :: 0 <= i < |copies| ==> copies[i] >= 1
    ensures Receive(p, s, ResentChunks(target, self, chunks, copies, first), decodeName)
            == (s.(chunks := s.chunks + (if p == Paired then chunks else Expand(chunks, copies))), [])
  {
    if p == Paired {
      ReceiveResentPaired(s, target, self, chunks, copies, first, decodeName);
    } else {
      ReceiveResentUnpaired(s, target, self, chunks, copies, first, decodeName);
    }
  }

  /** Unpaired, every copy of every chunk is appended. */
  lemma {:induction false} ReceiveResentUnpaired<O>(s: Service<O>, target: string, self: string,
                                                    chunks: seq<seq<byte>>, copies: seq<nat>, first: int,
                                                    decodeName: seq<byte> -> Option<string>)
    requires |copies| == |chunks|
    ensures Receive(Unpaired, s, ResentChunks(target, self, chunks, copies, first), decodeName)
            == (s.(chunks := s.chunks + Expand(chunks, copies)), [])
    decreases |chunks|
  {
    if chunks == [] {
      assert s.(chunks := s.chunks + []) == s;
    } else {
      var f := LinkFrame(target, self, C.MsgTypeFileChunk, first, chunks[0]);
      var head := Copies(f, copies[0]);
      var tail := ResentChunks(target, self, chunks[1..], copies[1..], first + 1);
      assert ResentChunks(target, self, chunks, copies, first) == head + tail;
      var added := seq(copies[0], _ => chunks[0]);
      var s1 := s.(chunks := s.chunks + added);
      ReceiveChunkCopies(Unpaired, s, f, copies[0], decodeName);
      ReceiveResentUnpaired(s1, target, self, chunks[1..], copies[1..], first + 1, decodeName);
      ReceiveConcat(Unpaired, s, head, tail, decodeName);
      assert Expand(chunks, copies) == added + Expand(chunks[1..], copies[1..]);
      assert s1.chunks + Expand(chunks[1..], copies[1..]) == s.chunks + Expand(chunks, copies);
    }
  }

  /** Paired, each chunk is appended once, however often it was resent. */
  lemma {:induction false} ReceiveResentPaired<O>(s: Service<O>, target: string, self: string,
                                                  chunks: seq<seq<byte>>, copies: seq<nat>, first: int,
                                                  decodeName: seq<byte> -> Option<string>)
    requires |copies| == |chunks|
    requires first == |s.chunks| + 1 && forall i :: 0 <= i < |copies| ==> copies[i] >= 1
    ensures Receive(Paired, s, ResentChunks(target, self, chunks, copies, first), decodeName)
            == (s.(chunks := s.chunks + chunks), [])
    decreases |chunks|
  {
    if chunks == [] {
      assert s.(chunks := s.chunks + []) == s;
    } else {
      var f := LinkFrame(target, self, C.MsgTypeFileChunk, first, chunks[0]);
      var head := Copies(f, copies[0]);
      var tail := ResentChunks(target, self, chunks[1..], copies[1..], first + 1);
      assert ResentChunks(target, self, chunks, copies, first) == head + tail;
      var s1 := s.(chunks := s.chunks + [chunks[0]]);
      ReceiveChunkCopies(Paired, s, f, copies[0], decodeName);
      ReceiveResentPaired(s1, target, self, chunks[1..], copies[1..], first + 1, decodeName);
      ReceiveConcat(Paired, s, head, tail, decodeName);
      assert [chunks[0]] + chunks[1..] == chunks;
      assert s1.chunks + chunks[1..] == s.chunks + chunks;
    }
  }

  /** The whole wire: every file the receiver writes holds the chunks it
      kept, one file per end-frame copy, provided the start frame went out
      (and, paired, every frame did). */
  lemma {:induction false} ReceiveWire<O>(p: Pairing, s: Service<O>, target: string, self: string, info: seq<byte>,
                                          file: seq<byte>, copies: seq<nat>, decodeName: seq<byte> -> Option<string>)
    requires |copies| == |Chunks(file, C.MaxChunkSize)| + 2
    requires copies[0] >= 1
    requires p == Paired ==> forall i :: 0 <= i < |copies| ==> copies[i] >= 1
    ensures var chunks := Chunks(file, C.MaxChunkSize);
            var n := |chunks|;
            var saved := Receive(p, s, WireFrames(target, self, info, file, copies), decodeName).1;
            && |saved| == (if decodeName(info).Some? then copies[n + 1] else 0)
            && forall x :: x in saved ==>
                 decodeName(info).Some?
                 && x == Saved(C.DownloadsPath + decodeName(info).value,
                               Flatten(if p == Paired then chunks else Expand(chunks, copies[1..n + 1])))
  {
    var chunks := Chunks(file, C.MaxChunkSize);
    var n := |chunks|;
    var startF := LinkFrame(target, self, C.MsgTypeFileStart, 0, info);
    var endF := LinkFrame(target, self, C.MsgTypeFileEnd, n + 1, [' ' as byte]);
    var a := Copies(startF, copies[0]);
    var b := ResentChunks(target, self, chunks, copies[1..n + 1], 1);
    var c := Copies(endF, copies[n + 1]);
    assert WireFrames(target, self, info, file, copies) == a + b + c;
    var s1 := s.(chunks := [], fileName := decodeName(info));
    ReceiveStartCopies(p, s, startF, copies[0], decodeName);
    if p == Paired {
      var mid := copies[1..n + 1];
      forall i | 0 <= i < n ensures mid[i] >= 1 {
        assert mid[i] == copies[i + 1];
      }
    }
    ReceiveResent(p, s1, target, self, chunks, copies[1..n + 1], 1, decodeName);
    var kept := if p == Paired then chunks else Expand(chunks, copies[1..n + 1]);
    var s2 := s1.(chunks := [] + kept);
    assert [] + kept == kept;
    ReceiveEndCopies(p, s2, endF, copies[n + 1], decodeName);
    ReceiveConcat(p, s, a, b, decodeName);
    ReceiveConcat(p, s, a + b, c, decodeName);
  }

  /** As written, a file that fits one chunk whose chunk frame goes out
      twice (the first ACK is slow) is written doubled. */
  lemma ResentChunkDoubled<O>(s: Service<O>, target: string, self: string, info: seq<byte>, file: seq<byte>,
                              decodeName: seq<byte> -> Option<string>)
    requires 0 < |file| <= C.MaxChunkSize
    ensures Chunks(file, C.MaxChunkSize) == [file]
    ensures Receive(Unpaired, s, WireFrames(target, self, info, file, [1, 2, 1]), decodeName).1
            == if decodeName(info).Some? then [Saved(C.DownloadsPath + decodeName(info).value, file + file)] else []
    ensures file + file != file
  {
    assert Chunks(file, C.MaxChunkSize) == [file];
    assert [1, 2, 1][1..2] == [2];
    ReceiveWire(Unpaired, s, target, self, info, file, [1, 2, 1], decodeName);
    var e := Expand([file], [2]);
    assert e == [file, file] by {
      assert Expand([file], [2]) == seq(2, _ => file) + Expand([], []);
    }
    assert Flatten(e) == file + file by {
      assert e[1..] == [file];
      assert [file][1..] == [];
      assert Flatten([file]) == file + Flatten([]) && file + [] == file;
    }
    var saved := Receive(Unpaired, s, WireFrames(target, self, info, file, [1, 2, 1]), decodeName).1;
    if decodeName(info).Some? {
      assert |saved| == 1 && saved[0] in saved;
      assert saved == [saved[0]];
    }
  }

  /** As written, a stray MESSAGE_ACK (a text message's ACK, say) that
      ends the first chunk's stage before it sends drops that chunk from a
      two-chunk file. */
  lemma LateAckDropsChunk<O>(s: Service<O>, target: string, self: string, info: seq<byte>, file: seq<byte>,
                             first: seq<byte>, second: seq<byte>, decodeName: seq<byte> -> Option<string>)
    requires Chunks(file, C.MaxChunkSize) == [first, second]
    ensures Receive(Unpaired, s, WireFrames(target, self, info, file, [1, 0, 1, 1]), decodeName).1
            == if decodeName(info).Some? then [Saved(C.DownloadsPath + decodeName(info).value, second)] else []
    ensures second != file
  {
    assert [1, 0, 1, 1][1..3] == [0, 1];
    ReceiveWire(Unpaired, s, target, self, info, file, [1, 0, 1, 1], decodeName);
    ChunksShape(file, C.MaxChunkSize);
    assert |Chunks(file, C.MaxChunkSize)[0]| > 0;
    var e := Expand([first, second], [0, 1]);
    assert e == [second] by {
      assert [first, second][1..] == [second] && [0, 1][1..] == [1];
      assert Expand([second], [1]) == seq(1, _ => second) + Expand([], []);
    }
    assert Flatten(e) == second by {
      assert [second][1..] == [];
      assert Flatten([second]) == second + Flatten([]) && second + [] == second;
    }
    assert Flatten([first, second]) == first + second by {
      assert [first, second][1..] == [second] && [second][1..] == [];
      assert Flatten([second]) == second + Flatten([]) && second + [] == second;
    }
    var saved := Receive(Unpaired, s, WireFrames(target, self, info, file, [1, 0, 1, 1]), decodeName).1;
    if decodeName(info).Some? {
      assert |saved| == 1 && saved[0] in saved;
      assert saved == [saved[0]];
    }
  }

  /** Paired, however often each frame is resent, every file written is
      exactly the sent file under the announced name, and at least one is
      written when that name decodes to a `str`. */
  lemma PairedTransferDeliversFile<O>(s: Service<O>, target: string, self: string, info: seq<byte>, file: seq<byte>,
                                      copies: seq<nat>, decodeName: seq<byte> -> Option<string>)
    requires |copies| == |Chunks(file, C.MaxChunkSize)| + 2
    requires forall i :: 0 <= i < |copies| ==> copies[i] >= 1
    ensures var saved := Receive(Paired, s, WireFrames(target, self, info, file, copies), decodeName).1;
            && (decodeName(info).Some? ==> |saved| >= 1)
            && forall x :: x in saved ==> decodeName(info).Some? && x == Saved(C.DownloadsPath + decodeName(info).value, file)
  {
    ReceiveWire(Paired, s, target, self, info, file, copies, decodeName);
    ChunksShape(file, C.MaxChunkSize);
  }

  /** The text before a path's last '/': the directory a file at that
      path lands in. */
  function Folder(path: string): (r: string)
    ensures r <= path
  {
    if path == [] then []
    else if path[|path| - 1] == '/' then path[..|path| - 1]
    else Folder(path[..|path| - 1])
  }

  /** A name with no '/' does not change the directory it is appended to. */
  lemma {:induction false} FolderIgnoresName(dir: string, name: string)
    requires '/' !in name
    ensures Folder(dir + name) == Folder(dir)
    decreases |name|
  {
    if name != [] {
      var front := name[..|name| - 1];
      assert (dir + name)[..|dir + name| - 1] == dir + front;
      assert (dir + name)[|dir + name| - 1] == name[|name| - 1];
      FolderIgnoresName(dir, front);
    } else {
      assert dir + name == dir;
    }
  }

  /** As written, `DOWNLOADS_PATH + name` has no separator, so a plain file
      name lands in /home, beside the downloads directory. */
  lemma SavedBesideDownloads(name: string)
    requires '/' !in name
    ensures Folder(C.DownloadsPath + name) == "/home"
    ensures Folder(C.DownloadsPath + name) != C.DownloadsPath
  {
    assert C.DownloadsPath + name == "/home/" + ("Downloads" + name);
    assert '/' !in "Downloads" + name;
    FolderIgnoresName("/home/", "Downloads" + name);
  }

  /** The corrected save path: the name joined to the downloads directory
      with a '/'. */
  function JoinedPath(name: string): (r: string)
    ensures C.DownloadsPath + "/" <= r
    ensures |r| == |C.DownloadsPath| + 1 + |name|
  {
    C.DownloadsPath + "/" + name
  }

  /** Joined with a '/', a plain file name lands in the downloads
      directory, and the name is the path's last component. */
  lemma JoinedPathInDownloads(name: string)
    requires '/' !in name
    ensures Folder(JoinedPath(name)) == C.DownloadsPath
    ensures Transfer.Basename(JoinedPath(name)) == name
  {
    FolderIgnoresName(C.DownloadsPath + "/", name);
    BasenameOfJoin(C.DownloadsPath + "/", name);
  }

  /** The basename of a directory ending in '/' followed by a plain name is
      that name. */
  lemma {:induction false} BasenameOfJoin(dir: string, name: string)
    requires dir != [] && dir[|dir| - 1] == '/'
    requires '/' !in name
    ensures Transfer.Basename(dir + name) == name
    decreases |name|
  {
    if name == [] {
      assert dir + name == dir;
    } else {
      var front := name[..|name| - 1];
      assert (dir + name)[..|dir + name| - 1] == dir + front;
      assert (dir + name)[|dir + name| - 1] == name[|name| - 1];
      BasenameOfJoin(dir, front);
      assert front + [name[|name| - 1]] == name;
    }
  }
}

=== FILE: messaging.dfy ===
/** The text-messaging engine (src/networking/messaging.py): size-checked
    sends recorded in a sent table, inbound deduplication by message id,
    a bounded received history, ACK on unicast only, and ACK bookkeeping.
    JSON payloads are already-decoded records; clocks are parameters. */
module Messaging {
  import opened Wrappers
  import C = Constants
  import Helpers

  type Mac = string

  /** The `Message` record. */
  datatype Message = Message(
    msgId: int,
    senderMac: Mac,
    content: string,
    timestamp: int,
    isBroadcast: bool,
    acknowledged: bool)

  /** The JSON object this engine puts in a frame it sends. */
  datatype Payload =
    | TextPayload(kind: string, content: string, timestamp: int, senderMac: Mac, msgId: int)
    | AckPayload(originalMsgId: int, timestamp: int, senderMac: Mac)

  /** A frame handed to the socket manager. */
  datatype OutFrame = OutFrame(destMac: Mac, srcMac: Mac, msgType: int, msgId: int, payload: Payload)

  /** The `content` value of a decoded inbound object: a JSON string, or a
      value of another JSON type given by its JSON text, with whether
      Python can slice it (an array can; a number, boolean, null or object
      cannot). */
  datatype Content = Text(text: string) | NonText(json: string, sliceable: bool)

  /** The keys of a decoded inbound text or broadcast object; each key may
      be missing. */
  datatype InboundText = InboundText(content: Option<Content>, msgId: Option<int>, timestamp: Option<int>)

  /** The content a received message records: "" for a missing key. */
  function ContentText(c: Option<Content>): string {
    match c
    case None => ""
    case Some(Text(t)) => t
    case Some(NonText(j, _)) => j
  }

  /** Whether the log line's `content[:50]` succeeds after the message is
      stored; when it raises, the handler's `except` skips the ACK and the
      callbacks. */
  predicate LogSucceeds(c: Option<Content>) {
    c.None? || c.value.Text? || c.value.sliceable
  }

  /** The `original_msg_id` key of a decoded inbound ACK object. */
  datatype InboundAck = InboundAck(originalMsgId: Option<int>)

  /** `MessageManager`: `sent_messages`, `received_messages` and
      `message_queue` (callbacks are the receivers of `delivered` below). */
  datatype State = State(localMac: Mac, sent: map<int, Message>, received: map<int, Message>, queue: seq<Message>)

  /** Length of `message_queue` kept after each insertion. */
  const MaxHistory: nat := 1000

  /** `__init__`: nothing sent, nothing received, an empty history. */
  function Init(localMac: Mac): (r: State)
    ensures Valid(r)
    ensures r.localMac == localMac && r.sent == map[] && r.received == map[] && r.queue == []
  {
    State(localMac, map[], map[], [])
  }

  /** Number of bytes of `c.encode('utf-8')`. */
  function Utf8CharLength(c: char): (n: nat)
    ensures 1 <= n <= 4
  {
    if c as int < 0x80 then 1
    else if c as int < 0x800 then 2
    else if c as int < 0x1_0000 then 3
    else 4
  }

  /** `len(s.encode('utf-8'))`. */
  function Utf8Length(s: string): (n: nat)
    ensures |s| <= n <= 4 * |s|
  {
    if s == [] then 0 else Utf8CharLength(s[0]) + Utf8Length(s[1..])
  }

  /** The outcome of a send: new state, the returned bool, and the frame
      handed to the socket manager (None when none was built). */
  datatype SendResult = SendResult(state: State, ok: bool, frame: Option<OutFrame>)

  /** The body shared by `send_message` and `send_broadcast_message`.
      `micros` feeds `create_message_id`, `now` is `get_timestamp()`, and
      `sendOk` is what `send_frame` returned. */
  function Send(st: State, dest: Mac, msgType: int, kind: string, isBroadcast: bool,
                content: string, micros: int, now: int, sendOk: bool): (r: SendResult)
    ensures Utf8Length(content) > C.MaxMessageSize ==> r == SendResult(st, false, None)
    ensures r.ok <==> Utf8Length(content) <= C.MaxMessageSize && sendOk
    ensures !r.ok ==> r.state == st
    ensures r.state.received == st.received && r.state.queue == st.queue && r.state.localMac == st.localMac
    ensures r.ok ==> var id := Helpers.CreateMessageId(micros);
                     && r.state.sent.Keys == st.sent.Keys + {id}
                     && r.state.sent[id] == Message(id, st.localMac, content, now, isBroadcast, false)
                     && (forall k :: k in st.sent && k != id ==> r.state.sent[k] == st.sent[k])
    ensures r.frame.Some? <==> Utf8Length(content) <= C.MaxMessageSize
    ensures r.frame.Some? ==> && r.frame.value.destMac == dest && r.frame.value.srcMac == st.localMac
                              && r.frame.value.msgType == msgType
                              && r.frame.value.msgId == Helpers.CreateMessageId(micros)
  {
    if Utf8Length(content) > C.MaxMessageSize then SendResult(st, false, None)
    else
      var id := Helpers.CreateMessageId(micros);
      var frame := OutFrame(dest, st.localMac, msgType, id, TextPayload(kind, content, now, st.localMac, id));
      if sendOk then
        var m := Message(id, st.localMac, content, now, isBroadcast, false);
        SendResult(st.(sent := st.sent[id := m]), true, Some(frame))
      else SendResult(st, false, Some(frame))
  }

  /** `send_message`: unicast, recorded with `is_broadcast` False. */
  function SendMessage(st: State, target: Mac, content: string, micros: int, now: int, sendOk: bool): (r: SendResult)
    ensures r.ok <==> Utf8Length(content) <= C.MaxMessageSize && sendOk
    ensures !r.ok ==> r.state == st
    ensures r.ok ==> && Helpers.CreateMessageId(micros) in r.state.sent
                     && !r.state.sent[Helpers.CreateMessageId(micros)].isBroadcast
                     && !r.state.sent[Helpers.CreateMessageId(micros)].acknowledged
    ensures r.frame.Some? ==> r.frame.value.destMac == target && r.frame.value.msgType == C.MsgTypeMessage
  {
    Send(st, target, C.MsgTypeMessage, "text_message", false, content, micros, now, sendOk)
  }

  /** `send_broadcast_message`: to BROADCAST_MAC, recorded with
      `is_broadcast` True. */
  function SendBroadcastMessage(st: State, content: string, micros: int, now: int, sendOk: bool): (r: SendResult)
    ensures r.ok <==> Utf8Length(content) <= C.MaxMessageSize && sendOk
    ensures !r.ok ==> r.state == st
    ensures r.ok ==> && Helpers.CreateMessageId(micros) in r.state.sent
                     && r.state.sent[Helpers.CreateMessageId(micros)].isBroadcast
                     && !r.state.sent[Helpers.CreateMessageId(micros)].acknowledged
    ensures r.frame.Some? ==> r.frame.value.destMac == C.BroadcastMac && r.frame.value.msgType == C.MsgTypeBroadcast
  {
    Send(st, C.BroadcastMac, C.MsgTypeBroadcast, "broadcast_message", true, content, micros, now, sendOk)
  }

  /** The ids held in the history, in arrival order. */
  function QueueIds(q: seq<Message>): (ids: seq<int>)
    ensures |ids| == |q|
    ensures forall i :: 0 <= i < |q| ==> ids[i] == q[i].msgId
  {
    if q == [] then [] else [q[0].msgId] + QueueIds(q[1..])
  }

  predicate DistinctIds(q: seq<Message>) {
    forall i, j :: 0 <= i < j < |q| ==> q[i].msgId != q[j].msgId
  }

  /** The history invariant: at most MaxHistory entries, no id twice, and
      `received_messages` indexes exactly the queue. */
  ghost predicate Valid(st: State) {
    && |st.queue| <= MaxHistory
    && DistinctIds(st.queue)
    && (forall i :: 0 <= i < |st.queue| ==> st.queue[i].msgId in st.received
                                             && st.received[st.queue[i].msgId] == st.queue[i])
    && (forall id :: id in st.received ==> exists i :: 0 <= i < |st.queue| && st.queue[i].msgId == id)
  }

  /** Store a new message: index it, append it, and evict the oldest entry
      once the queue exceeds MaxHistory. */
  function Insert(st: State, m: Message): (r: State)
    requires Valid(st) && m.msgId !in st.received
    ensures Valid(r)
    ensures r.sent == st.sent && r.localMac == st.localMac
    ensures m.msgId in r.received && r.received[m.msgId] == m
    ensures |st.queue| < MaxHistory ==> r.queue == st.queue + [m]
    ensures |st.queue| == MaxHistory ==> r.queue == st.queue[1..] + [m]
  {
    var received := st.received[m.msgId := m];
    var queue := st.queue + [m];
    if |queue| > MaxHistory then
      var oldest := queue[0];
      EvictKeepsValid(st, m);
      assert oldest == st.queue[0] && oldest.msgId != m.msgId;
      assert queue[1..] == st.queue[1..] + [m];
      st.(received := if oldest.msgId in received then received - {oldest.msgId} else received,
          queue := queue[1..])
    else
      AppendKeepsValid(st, m);
      st.(received := received, queue := queue)
  }

  /** Appending a new message below the bound keeps the invariant. */
  lemma AppendKeepsValid(st: State, m: Message)
    requires Valid(st) && m.msgId !in st.received && |st.queue| < MaxHistory
    ensures Valid(st.(received := st.received[m.msgId := m], queue := st.queue + [m]))
  {
    var r := st.(received := st.received[m.msgId := m], queue := st.queue + [m]);
    forall id | id in r.received
      ensures exists i :: 0 <= i < |r.queue| && r.queue[i].msgId == id
    {
      if id == m.msgId {
        assert r.queue[|r.queue| - 1].msgId == id;
      } else {
        var i :| 0 <= i < |st.queue| && st.queue[i].msgId == id;
        assert r.queue[i].msgId == id;
      }
    }
  }

  /** Appending at the bound and evicting the oldest entry keeps the
      invariant. */
  lemma EvictKeepsValid(st: State, m: Message)
    requires Valid(st) && m.msgId !in st.received && |st.queue| == MaxHistory
    ensures var received := st.received[m.msgId := m];
            var oldest := st.queue[0];
            Valid(st.(received := if oldest.msgId in received then received - {oldest.msgId} else received,
                      queue := st.queue[1..] + [m]))
  {
    var received := st.received[m.msgId := m];
    var oldest := st.queue[0];
    var r := st.(received := if oldest.msgId in received then received - {oldest.msgId} else received,
                 queue := st.queue[1..] + [m]);
    forall id | id in r.received
      ensures exists i :: 0 <= i < |r.queue| && r.queue[i].msgId == id
    {
      if id == m.msgId {
        assert r.queue[|r.queue| - 1].msgId == id;
      } else {
        var i :| 0 <= i < |st.queue| && st.queue[i].msgId == id;
        assert i != 0;
        assert r.queue[i - 1].msgId == id;
      }
    }
  }

  /** What handling one inbound frame produced: the new state, the ACK frame
      sent back (if any), and the message passed to every callback (if
      any). */
  datatype Handled = Handled(state: State, ack: Option<OutFrame>, delivered: Option<Message>)

  /** `_handle_text_message`. `payload` is None when the data is not a JSON
      object (the exception is logged and nothing changes); `micros` feeds
      the ACK's own `create_message_id`. */
  function HandleTextMessage(st: State, srcMac: Mac, frameMsgId: int, payload: Option<InboundText>,
                             now: int, micros: int): (r: Handled)
    requires Valid(st)
    ensures Valid(r.state)
    ensures payload.None? ==> r == Handled(st, None, None)
    ensures payload.Some? && payload.value.msgId.GetOr(frameMsgId) in st.received
            ==> r == Handled(st, None, None)
    ensures payload.Some? && payload.value.msgId.GetOr(frameMsgId) !in st.received ==>
              var id := payload.value.msgId.GetOr(frameMsgId);
              var m := Message(id, srcMac, ContentText(payload.value.content),
                               payload.value.timestamp.GetOr(now), false, false);
              && r.state == Insert(st, m)
              && id in r.state.received && r.state.received[id] == m
              && r.state.queue[|r.state.queue| - 1] == m
              && (|st.queue| < MaxHistory ==> r.state.queue == st.queue + [m])
              && (|st.queue| == MaxHistory ==> r.state.queue == st.queue[1..] + [m])
              && (LogSucceeds(payload.value.content) ==>
                    && r.delivered == Some(m)
                    && r.ack.Some?
                    && r.ack.value.destMac == srcMac && r.ack.value.msgType == C.MsgTypeMessageAck
                    && r.ack.value.payload.AckPayload? && r.ack.value.payload.originalMsgId == id)
              && (!LogSucceeds(payload.value.content) ==> r.delivered.None? && r.ack.None?)
    ensures r.state.sent == st.sent
  {
    match payload
    case None => Handled(st, None, None)
    case Some(p) =>
      var id := p.msgId.GetOr(frameMsgId);
      if id in st.received then Handled(st, None, None)
      else
        var m := Message(id, srcMac, ContentText(p.content), p.timestamp.GetOr(now), false, false);
        var ack := OutFrame(srcMac, st.localMac, C.MsgTypeMessageAck, Helpers.CreateMessageId(micros),
                            AckPayload(id, now, st.localMac));
        if LogSucceeds(p.content) then Handled(Insert(st, m), Some(ack), Some(m))
        else Handled(Insert(st, m), None, None)
  }

  /** `_handle_broadcast_message`: the same deduplication and history, but
      the message is flagged broadcast and never acknowledged. */
  function HandleBroadcastMessage(st: State, srcMac: Mac, frameMsgId: int, payload: Option<InboundText>,
                                  now: int): (r: Handled)
    requires Valid(st)
    ensures Valid(r.state)
    ensures r.ack.None?
    ensures payload.None? ==> r == Handled(st, None, None)
    ensures payload.Some? && payload.value.msgId.GetOr(frameMsgId) in st.received
            ==> r == Handled(st, None, None)
    ensures payload.Some? && payload.value.msgId.GetOr(frameMsgId) !in st.received ==>
              var id := payload.value.msgId.GetOr(frameMsgId);
              var m := Message(id, srcMac, ContentText(payload.value.content),
                               payload.value.timestamp.GetOr(now), true, false);
              && r.state == Insert(st, m)
              && id in r.state.received && r.state.received[id] == m
              && r.state.queue[|r.state.queue| - 1] == m
              && (|st.queue| < MaxHistory ==> r.state.queue == st.queue + [m])
              && (|st.queue| == MaxHistory ==> r.state.queue == st.queue[1..] + [m])
              && (r.delivered == Some(m) <==> LogSucceeds(payload.value.content))
              && (!LogSucceeds(payload.value.content) ==> r.delivered.None?)
    ensures r.state.sent == st.sent
  {
    match payload
    case None => Handled(st, None, None)
    case Some(p) =>
      var id := p.msgId.GetOr(frameMsgId);
      if id in st.received then Handled(st, None, None)
      else
        var m := Message(id, srcMac, ContentText(p.content), p.timestamp.GetOr(now), true, false);
        if LogSucceeds(p.content) then Handled(Insert(st, m), None, Some(m))
        else Handled(Insert(st, m), None, None)
  }

  /** Deduplication: the same inbound text message handled twice in a row
      is stored, acknowledged and delivered once. */
  lemma DuplicateDeliveredOnce(st: State, srcMac: Mac, frameMsgId: int, payload: InboundText,
                               now: int, micros: int, now2: int, micros2: int)
    requires Valid(st)
    ensures var first := HandleTextMessage(st, srcMac, frameMsgId, Some(payload), now, micros);
            var second := HandleTextMessage(first.state, srcMac, frameMsgId, Some(payload), now2, micros2);
            && second == Handled(first.state, None, None)
  {
  }

  /** `_handle_message_ack`: only a truthy `original_msg_id` (present and
      nonzero) that names a sent message marks it acknowledged. */
  function HandleMessageAck(st: State, payload: Option<InboundAck>): (r: State)
    ensures r.received == st.received && r.queue == st.queue && r.localMac == st.localMac
    ensures r.sent.Keys == st.sent.Keys
    ensures forall k :: k in st.sent ==>
              r.sent[k] == (if payload == Some(InboundAck(Some(k))) && k != 0
                            then st.sent[k].(acknowledged := true) else st.sent[k])
  {
    match payload
    case Some(InboundAck(Some(id))) =>
      if id != 0 && id in st.sent then st.(sent := st.sent[id := st.sent[id].(acknowledged := true)])
      else st
    case _ => st
  }

  /** The ACK echoing a sent message's id marks exactly that message
      acknowledged: the other sent messages, the received table and the
      history keep what they held before the send. */
  lemma SendThenAck(st: State, dest: Mac, msgType: int, kind: string, isBroadcast: bool,
                    content: string, micros: int, now: int)
    requires Utf8Length(content) <= C.MaxMessageSize
    requires Helpers.CreateMessageId(micros) != 0
    ensures var id := Helpers.CreateMessageId(micros);
            var sent := Send(st, dest, msgType, kind, isBroadcast, content, micros, now, true);
            var acked := HandleMessageAck(sent.state, Some(InboundAck(Some(id))));
            && sent.ok
            && acked.sent.Keys == st.sent.Keys + {id}
            && acked.sent[id] == Message(id, st.localMac, content, now, isBroadcast, true)
            && (forall k :: k in st.sent && k != id ==> acked.sent[k] == st.sent[k])
            && acked.received == st.received && acked.queue == st.queue
  {
  }

  /** Python's `q[-limit:]`: a negative start counts from the end and is
      clamped to the list. */
  function PySuffix<T>(q: seq<T>, start: int): (r: seq<T>)
    ensures start >= 0 ==> r == q[if start <= |q| then start else |q|..]
    ensures start < 0 ==> r == q[if -start <= |q| then |q| + start else 0..]
  {
    var s := if start < 0 then start + |q| else start;
    var s := if s < 0 then 0 else if s > |q| then |q| else s;
    q[s..]
  }

  /** `get_received_messages(limit)`. */
  function GetReceivedMessages(st: State, limit: int): (r: seq<Message>)
    ensures limit >= 1 ==> r == st.queue[|st.queue| - (if limit < |st.queue| then limit else |st.queue|)..]
    ensures limit == 0 ==> r == st.queue
    ensures limit < 0 ==> r == st.queue[(if -limit < |st.queue| then -limit else |st.queue|)..]
  {
    if st.queue == [] then [] else PySuffix(st.queue, -limit)
  }
}

=== FILE: protocol.dfy ===
/** The Link-Chat payload codec (LinkChat/src/core/protocol.py): a 10-byte
    header `version(1) | type(1) | id(4) | length(2) | checksum(2)`, all
    big-endian, followed by the message data. */
module Protocol {
  import opened Wrappers
  import opened Bytes
  import C = Constants

  const HeaderSize: nat := 10

  /** One `LinkChatProtocol` object. The constructor always stores
      PROTOCOL_VERSION and `len(data)`, so neither is a field here. */
  datatype Packet = Packet(msgType: int, msgId: int, data: seq<byte>, checksum: int) {
    function Version(): int { C.ProtocolVersion }
    function DataLength(): nat { |data| }
  }

  /** `x & 0xFFFF` on a Python integer. */
  function Low16(x: int): int { x % 0x1_0000 }

  /** `(x >> 16) & 0xFFFF` on a Python integer. */
  function High16(x: int): int { (x / 0x1_0000) % 0x1_0000 }

  /** Additive checksum over the header fields and every data byte, kept to
      16 bits. It uses the full data length, before the header truncates
      it to 16 bits. The stored checksum field takes no part in it. */
  function CalculateChecksum(p: Packet): (c: int)
    ensures 0 <= c < 0x1_0000
  {
    (p.Version() + p.msgType
     + High16(p.msgId) + Low16(p.msgId)
     + High16(p.DataLength()) + Low16(p.DataLength())
     + Sum(p.data)) % 0x1_0000
  }

  /** `_verify_checksum`: the stored checksum equals the recomputed one. */
  predicate VerifyChecksum(p: Packet) {
    CalculateChecksum(p) == p.checksum
  }

  /** The checksum `to_bytes` writes: a stored 0 means "compute it". */
  function EmittedChecksum(p: Packet): int {
    if p.checksum == 0 then CalculateChecksum(p) else p.checksum
  }

  /** The fields `struct.pack('!BBIHH', ...)` accepts without raising
      `struct.error` (the length is masked to 16 bits beforehand). */
  predicate Packable(p: Packet) {
    && 0 <= p.msgType < 0x100
    && 0 <= p.msgId < 0x1_0000_0000
    && 0 <= EmittedChecksum(p) < 0x1_0000
  }

  /** `to_bytes`; None stands for the `struct.error` it raises on a field
      that does not fit its width. */
  function ToBytes(p: Packet): (r: Option<seq<byte>>)
    ensures r.Some? <==> Packable(p)
    ensures r.Some? ==> |r.value| == HeaderSize + |p.data|
    ensures r.Some? ==> r.value[0] == C.ProtocolVersion && r.value[1] == p.msgType
    ensures r.Some? ==> FromBe(r.value[2..6]) == p.msgId
    ensures r.Some? ==> FromBe(r.value[6..8]) == |p.data| % 0x1_0000
    ensures r.Some? ==> FromBe(r.value[8..10]) == EmittedChecksum(p)
    ensures r.Some? ==> r.value[HeaderSize..] == p.data
  {
    if !Packable(p) then None
    else
      var header := [C.ProtocolVersion, p.msgType]
                    + Be32(p.msgId)
                    + Be16(|p.data| % 0x1_0000)
                    + Be16(EmittedChecksum(p));
      assert header[2..6] == Be32(p.msgId);
      assert header[6..8] == Be16(|p.data| % 0x1_0000);
      assert header[8..10] == Be16(EmittedChecksum(p));
      var out := header + p.data;
      assert out[2..6] == header[2..6] && out[6..8] == header[6..8] && out[8..10] == header[8..10];
      Some(out)
  }

  /** `from_bytes`. Bytes past the declared length are ignored. */
  function FromBytes(bs: seq<byte>): (r: Option<Packet>)
    ensures |bs| < HeaderSize ==> r.None?
    ensures |bs| >= HeaderSize && bs[0] != C.ProtocolVersion ==> r.None?
    ensures |bs| >= HeaderSize && |bs| < HeaderSize + FromBe(bs[6..8]) ==> r.None?
    ensures r.Some? ==> VerifyChecksum(r.value)
    ensures r.Some? ==> && |bs| >= HeaderSize + |r.value.data|
                        && |r.value.data| == FromBe(bs[6..8])
                        && r.value.data == bs[HeaderSize..HeaderSize + |r.value.data|]
                        && r.value.msgType == bs[1]
                        && r.value.msgId == FromBe(bs[2..6])
                        && r.value.checksum == FromBe(bs[8..10])
  {
    if |bs| < HeaderSize then None
    else if bs[0] != C.ProtocolVersion then None
    else
      var len := FromBe(bs[6..8]);
      if |bs| < HeaderSize + len then None
      else
        var p := Packet(bs[1], FromBe(bs[2..6]), bs[HeaderSize..HeaderSize + len], FromBe(bs[8..10]));
        if VerifyChecksum(p) then Some(p) else None
  }

  /** A decoded packet whose stored checksum is wrong is rejected, even when
      everything else is well formed. */
  lemma BadChecksumRejected(bs: seq<byte>)
    requires |bs| >= HeaderSize && bs[0] == C.ProtocolVersion
    requires |bs| >= HeaderSize + FromBe(bs[6..8])
    requires FromBe(bs[8..10])
             != CalculateChecksum(Packet(bs[1], FromBe(bs[2..6]), bs[HeaderSize..HeaderSize + FromBe(bs[6..8])], 0))
    ensures FromBytes(bs) == None
  {
  }

  /** The checksum depends on everything except the stored checksum. */
  lemma ChecksumIgnoresStored(p: Packet, c: int)
    ensures CalculateChecksum(p.(checksum := c)) == CalculateChecksum(p)
  {
  }

  /** Exactly one stored checksum value passes `_verify_checksum`: the
      one recomputed from the other fields. */
  lemma OnlyComputedChecksumVerifies(p: Packet, c: int)
    ensures VerifyChecksum(p.(checksum := c)) <==> c == CalculateChecksum(p)
  {
    ChecksumIgnoresStored(p, c);
  }

  /** Round trip: a packet built with checksum 0 (or with its correct
      checksum) and fields that fit their widths decodes to itself, carrying
      the checksum `to_bytes` filled in. */
  lemma RoundTrip(p: Packet)
    requires 0 <= p.msgType < 0x100 && 0 <= p.msgId < 0x1_0000_0000 && |p.data| < 0x1_0000
    requires p.checksum == 0 || p.checksum == CalculateChecksum(p)
    ensures ToBytes(p).Some?
    ensures FromBytes(ToBytes(p).value) == Some(p.(checksum := CalculateChecksum(p)))
  {
    var bs := ToBytes(p).value;
    assert bs[HeaderSize..HeaderSize + |p.data|] == p.data;
    ChecksumIgnoresStored(p, CalculateChecksum(p));
  }

  /** A nonzero checksum supplied by the caller is written verbatim, so a
      wrong one makes the encoding undecodable. */
  lemma WrongChecksumNeverDecodes(p: Packet)
    requires 0 <= p.msgType < 0x100 && 0 <= p.msgId < 0x1_0000_0000 && |p.data| < 0x1_0000
    requires 0 < p.checksum < 0x1_0000 && p.checksum != CalculateChecksum(p)
    ensures ToBytes(p).Some? && FromBytes(ToBytes(p).value) == None
  {
    var bs := ToBytes(p).value;
    assert bs[HeaderSize..HeaderSize + |p.data|] == p.data;
    ChecksumIgnoresStored(p, p.checksum);
  }

  /** Bytes after the declared data length never influence decoding. */
  lemma TrailingBytesIgnored(bs: seq<byte>, extra: seq<byte>)
    requires |bs| >= HeaderSize && |bs| >= HeaderSize + FromBe(bs[6..8])
    ensures FromBytes(bs + extra) == FromBytes(bs)
  {
    var len := FromBe(bs[6..8]);
    assert (bs + extra)[..HeaderSize] == bs[..HeaderSize];
    assert (bs + extra)[2..6] == bs[2..6];
    assert (bs + extra)[6..8] == bs[6..8];
    assert (bs + extra)[8..10] == bs[8..10];
    assert (bs + extra)[HeaderSize..HeaderSize + len] == bs[HeaderSize..HeaderSize + len];
  }

  /** Corruption detection: changing any one data byte of a valid encoding
      makes decoding fail, since the sum moves by less than 2^16. */
  lemma SingleByteCorruptionDetected(bs: seq<byte>, i: nat, v: byte)
    requires FromBytes(bs).Some?
    requires HeaderSize <= i < HeaderSize + |FromBytes(bs).value.data|
    requires v != bs[i]
    ensures FromBytes(bs[i := v]) == None
  {
    var p := FromBytes(bs).value;
    var len := |p.data|;
    var bs' := bs[i := v];
    assert bs'[2..6] == bs[2..6] && bs'[6..8] == bs[6..8] && bs'[8..10] == bs[8..10];
    var data' := bs'[HeaderSize..HeaderSize + len];
    assert data' == p.data[i - HeaderSize := v];
    SumUpdate(p.data, i - HeaderSize, v);
    var q := Packet(p.msgType, p.msgId, data', p.checksum);
    var rest := p.Version() + p.msgType + High16(p.msgId) + Low16(p.msgId)
                + High16(len) + Low16(len);
    assert CalculateChecksum(p) == (rest + Sum(p.data)) % 0x1_0000;
    assert CalculateChecksum(q) == (rest + Sum(p.data) + (v - bs[i])) % 0x1_0000;
    ShiftChangesResidue(rest + Sum(p.data), v - bs[i]);
    assert !VerifyChecksum(q);
  }

  /** Adding a nonzero amount smaller than the modulus changes the residue. */
  lemma ShiftChangesResidue(s: int, d: int)
    requires d != 0 && -0x1_0000 < d < 0x1_0000
    ensures (s + d) % 0x1_0000 != s % 0x1_0000
  {
  }

  /** Data of 2^16 bytes or more never survives a round trip: the header
      keeps only the low 16 bits of the length, so decoding either fails
      the checksum (computed over the untruncated length) or returns
      strictly less data than was sent. */
  lemma OversizedDataLost(p: Packet)
    requires |p.data| >= 0x1_0000
    requires ToBytes(p).Some?
    ensures FromBytes(ToBytes(p).value) == None
            || |FromBytes(ToBytes(p).value).value.data| < |p.data|
  {
  }
}

=== FILE: raw_socket.dfy ===
/** The older raw-socket wrapper (LinkChat/src/core/raw_socket.py): the
    receive pre-filter, sending on a possibly closed socket, closing, and
    the name-keyed callback registry. The socket itself is a flag. */
module RawSocket {
  import opened Wrappers
  import opened Bytes
  import C = Constants
  import EthernetFrame

  /** `sock` is either a socket or None. */
  datatype Wrapper = Wrapper(sockOpen: bool)

  /** The quick check `receive_frames` makes before parsing: at least a full
      Ethernet header, and big-endian bytes 12..13 equal to 0x88B5. */
  predicate PassesPreFilter(raw: seq<byte>) {
    |raw| >= 14 && FromBe(raw[12..14]) == C.EtherTypeLinkChat
  }

  /** One iteration of the receive loop: the packet handed on to the frame
      parser, or None when the pre-filter drops it. */
  function ReceiveStep(raw: seq<byte>): (r: Option<seq<byte>>)
    ensures |raw| < 14 ==> r.None?
    ensures |raw| >= 14 && FromBe(raw[12..14]) != C.EtherTypeLinkChat ==> r.None?
    ensures r.Some? ==> r.value == raw
  {
    if |raw| >= 14 then
      if FromBe(raw[12..14]) != C.EtherTypeLinkChat then None else Some(raw)
    else None
  }

  /** The pre-filter accepts exactly what the Ethernet header codec accepts,
      so it never drops a frame the codec would have parsed. */
  lemma PreFilterMatchesCodec(raw: seq<byte>)
    ensures ReceiveStep(raw).Some? <==> EthernetFrame.FromBytes(raw).Some?
  {
  }

  /** `send_frame`: the bytes written to the link, if any, and the result.
      `osError` is whether `sock.send` raised `OSError`; a send that raises
      puts nothing on the link. */
  function SendFrame(w: Wrapper, frameBytes: seq<byte>, osError: bool): (r: (Option<seq<byte>>, bool))
    ensures !w.sockOpen ==> r == (None, false)
    ensures r.1 <==> w.sockOpen && !osError
    ensures r.0.Some? <==> w.sockOpen && !osError
    ensures r.0.Some? ==> r.0.value == frameBytes
  {
    if !w.sockOpen then (None, false)
    else if osError then (None, false)
    else (Some(frameBytes), true)
  }

  /** `close_socket`. */
  function CloseSocket(w: Wrapper): (r: Wrapper)
    ensures !r.sockOpen
  {
    Wrapper(false)
  }

  /** Once the socket is closed, a send puts nothing on the link and
      reports failure, whatever the bytes. */
  lemma SendAfterCloseFails(w: Wrapper, frameBytes: seq<byte>, osError: bool)
    ensures SendFrame(CloseSocket(w), frameBytes, osError) == (None, false)
  {
  }

  /** Closing twice is the same as closing once. */
  lemma CloseIdempotent(w: Wrapper)
    ensures CloseSocket(CloseSocket(w)) == CloseSocket(w)
  {
  }

  /** `register_callback` on the class-level `callbacks` dictionary (one
      registry shared by every wrapper, so it is not part of `Wrapper`). */
  function RegisterCallback<Cb>(callbacks: map<string, Cb>, name: string, cb: Cb): (r: map<string, Cb>)
    ensures r.Keys == callbacks.Keys + {name}
    ensures r[name] == cb
    ensures forall n :: n in callbacks && n != name ==> r[n] == callbacks[n]
  {
    callbacks[name := cb]
  }

  /** `unregister_callback`: `pop(name, None)`, a no-op when absent. */
  function UnregisterCallback<Cb>(callbacks: map<string, Cb>, name: string): (r: map<string, Cb>)
    ensures r.Keys == callbacks.Keys - {name}
    ensures name !in callbacks ==> r == callbacks
    ensures forall n :: n in r ==> r[n] == callbacks[n]
  {
    callbacks - {name}
  }
}

=== FILE: socket_manager.dfy ===
/** The newer socket manager (src/core/raw_socket_manager.py): the observer
    list, the receive/close flags, and the notify step of the receive loop.
    Threads and the lock are not modelled; the flags are. */
module SocketManager {
  import opened Wrappers
  import opened Bytes

  /** `sock` open or None, `_is_receiving`, and whether `_receive_thread`
      holds a thread. */
  datatype Flags = Flags(sockOpen: bool, receiving: bool, hasThread: bool)

  predicate NoDuplicates<O(==)>(s: seq<O>) {
    forall i, j :: 0 <= i < j < |s| ==> s[i] != s[j]
  }

  /** `attach`: append unless already present. */
  function Attach<O(==)>(observers: seq<O>, o: O): (r: seq<O>)
    ensures NoDuplicates(observers) ==> NoDuplicates(r)
    ensures o in r
    ensures forall x :: x in r ==> x in observers || x == o
    ensures |observers| <= |r| <= |observers| + 1
    ensures r[..|observers|] == observers
    ensures o in observers ==> r == observers
  {
    if o in observers then observers else observers + [o]
  }

  /** `list.remove`: drop the first occurrence. */
  function RemoveFirst<O(==)>(s: seq<O>, o: O): (r: seq<O>)
    requires o in s
    ensures |r| == |s| - 1
    ensures forall x :: x in r ==> x in s
    ensures NoDuplicates(s) ==> NoDuplicates(r) && o !in r
    ensures forall x :: x in s && x != o ==> x in r
  {
    if s[0] == o then s[1..]
    else
      var rest := RemoveFirst(s[1..], o);
      assert NoDuplicates(s) ==> s[0] !in s[1..];
      [s[0]] + rest
  }

  /** `detach`: remove the observer; the `ValueError` of an absent one is
      swallowed, so detaching it is a no-op. */
  function Detach<O(==)>(observers: seq<O>, o: O): (r: seq<O>)
    ensures o !in observers ==> r == observers
    ensures NoDuplicates(observers) ==> NoDuplicates(r) && o !in r
    ensures forall x :: x in r ==> x in observers
    ensures forall x :: x in observers && x != o ==> x in r
  {
    if o in observers then RemoveFirst(observers, o) else observers
  }

  /** The callback loop of `notify` over the snapshot `pending`: each
      observer is called in turn, and a call may detach observers (those in
      `detachedBy(observer)`) from the live list. Returns the observers
      called, in order, and the live list afterwards. */
  function NotifyPass<O(==)>(pending: seq<O>, live: seq<O>, detachedBy: O -> seq<O>): (r: (seq<O>, seq<O>))
    ensures r.0 == pending
    ensures NoDuplicates(live) ==> NoDuplicates(r.1)
    ensures forall x :: x in r.1 ==> x in live
    decreases |pending|
  {
    if pending == [] then ([], live)
    else
      var live' := DetachAll(live, detachedBy(pending[0]));
      var rest := NotifyPass(pending[1..], live', detachedBy);
      ([pending[0]] + rest.0, rest.1)
  }

  /** Detaching every observer of `gone`, one after another. */
  function DetachAll<O(==)>(live: seq<O>, gone: seq<O>): (r: seq<O>)
    ensures NoDuplicates(live) ==> NoDuplicates(r)
    ensures forall x :: x in r ==> x in live
    ensures NoDuplicates(live) ==> forall x :: x in gone ==> x !in r
    decreases |gone|
  {
    if gone == [] then live else DetachAll(Detach(live, gone[0]), gone[1..])
  }

  /** `notify`: the snapshot is taken before any callback runs, so every
      observer attached at that moment is called exactly once, in list
      order, whatever the callbacks detach meanwhile. */
  function Notify<O(==)>(observers: seq<O>, detachedBy: O -> seq<O>): (r: (seq<O>, seq<O>))
    ensures r.0 == observers
    ensures NoDuplicates(observers) ==> NoDuplicates(r.1)
  {
    NotifyPass(observers, observers, detachedBy)
  }

  /** `start_receiving`: the new flags and whether a thread was started. */
  function StartReceiving(f: Flags): (r: (Flags, bool))
    ensures r.1 <==> !f.receiving
    ensures r.0.receiving
    ensures f.receiving ==> r.0 == f
    ensures r.1 ==> r.0.hasThread && r.0.sockOpen == f.sockOpen
  {
    if !f.receiving then (f.(receiving := true, hasThread := true), true) else (f, false)
  }

  /** Starting twice starts one receiver. */
  lemma StartTwiceStartsOnce(f: Flags)
    ensures StartReceiving(StartReceiving(f).0) == (StartReceiving(f).0, false)
  {
  }

  /** `stop_receiving`: a no-op unless receiving; otherwise clear the flag,
      close the socket (to unblock `recvfrom`) and forget the thread. */
  function StopReceiving(f: Flags): (r: Flags)
    ensures !f.receiving ==> r == f
    ensures f.receiving ==> !r.receiving && !r.sockOpen && !r.hasThread
  {
    if f.receiving then Flags(false, false, false) else f
  }

  /** `close_socket`: afterwards `sock` is None, the rest is untouched. */
  function CloseSocket(f: Flags): (r: Flags)
    ensures !r.sockOpen && r.receiving == f.receiving && r.hasThread == f.hasThread
  {
    f.(sockOpen := false)
  }

  lemma CloseIdempotent(f: Flags)
    ensures CloseSocket(CloseSocket(f)) == CloseSocket(f)
  {
  }

  /** One packet of `receive_frames`: when receiving and the packet is
      non-empty, observers are notified with whatever `from_bytes` returned
      (no None filter); otherwise nothing is notified. The frame parser of
      that code generation is not part of this model, so it is a parameter. */
  function ReceiveStep<F>(f: Flags, packet: seq<byte>, fromBytes: seq<byte> -> Option<F>): (r: Option<Option<F>>)
    ensures r.Some? <==> f.receiving && |packet| > 0
    ensures f.receiving && |packet| > 0 && fromBytes(packet).None? ==> r == Some(None)
    ensures r.Some? ==> r.value == fromBytes(packet)
  {
    if |packet| > 0 && f.receiving then Some(fromBytes(packet)) else None
  }
}

=== FILE: transfer.dfy ===
/** The `FileTransfer` record (src/core/file_transfer.py; the class of the
    same name in src/networking/file_transfer.py is identical apart from
    its float progress and speed getters): identity, file facts, status,
    counters and chunk bookkeeping. The file system and MD5 are
    parameters: a file is its contents, or None when it does not exist. */
module Transfer {
  import opened Wrappers
  import opened Bytes
  import C = Constants

  datatype Status = Pending | Active | Completed | Failed | Cancelled

  datatype FileTransfer = FileTransfer(
    transferId: string,
    filePath: string,
    targetMac: string,
    isSender: bool,
    filename: string,
    fileSize: int,
    fileHash: string,
    status: Status,
    chunksSent: int,
    chunksReceived: int,
    totalChunks: int,
    bytesTransferred: int,
    startTime: int,
    lastActivity: int,
    chunksData: map<int, seq<byte>>,
    chunksAcked: set<int>)

  /** `os.path.basename` on '/'-separated paths: the text after the last
      '/'. */
  function Basename(path: string): (r: string)
    ensures |r| <= |path| && '/' !in r
  {
    if path == [] || path[|path| - 1] == '/' then []
    else Basename(path[..|path| - 1]) + [path[|path| - 1]]
  }

  /** The basename is the path's last component: a suffix of the path that
      holds no '/', preceded by a '/' unless it is the whole path. */
  lemma {:induction false} BasenameIsLastComponent(path: string)
    ensures var r := Basename(path);
            && |r| <= |path| && r == path[|path| - |r|..]
            && '/' !in r
            && (|r| < |path| ==> path[|path| - |r| - 1] == '/')
  {
    if path != [] && path[|path| - 1] != '/' {
      var front := path[..|path| - 1];
      BasenameIsLastComponent(front);
      var r := Basename(path);
      assert r == Basename(front) + [path[|path| - 1]];
      assert front[|front| - |Basename(front)|..] + [path[|path| - 1]] == path[|path| - |r|..];
    }
  }

  /** `(size + MAX_CHUNK_SIZE - 1) // MAX_CHUNK_SIZE`. */
  function ChunkCount(size: nat): (n: nat)
    ensures size == 0 <==> n == 0
  {
    (size + C.MaxChunkSize - 1) / C.MaxChunkSize
  }

  /** The chunk count is the ceiling of size / MAX_CHUNK_SIZE: just enough
      chunks of MAX_CHUNK_SIZE to hold the file, and none for an empty
      file. */
  lemma ChunkCountIsCeiling(size: nat)
    ensures size == 0 ==> ChunkCount(size) == 0
    ensures size > 0 ==> (ChunkCount(size) - 1) * C.MaxChunkSize < size <= ChunkCount(size) * C.MaxChunkSize
  {
  }

  /** An 8000-byte file travels in six chunks. */
  lemma EightThousandBytesSixChunks()
    ensures ChunkCount(8000) == 6
  {
  }

  /** `FileTransfer.__init__` at time `now`. `file` is what is at
      `file_path` and `md5` renders the hex digest; only a sender whose file
      exists learns its size, chunk count and hash. */
  function NewTransfer(transferId: string, filePath: string, targetMac: string, isSender: bool,
                       file: Option<seq<byte>>, md5: seq<byte> -> string, now: int): (t: FileTransfer)
    ensures t.transferId == transferId && t.filePath == filePath && t.targetMac == targetMac
    ensures t.isSender == isSender && t.filename == Basename(filePath)
    ensures t.status == Pending
    ensures t.chunksSent == 0 && t.chunksReceived == 0 && t.bytesTransferred == 0
    ensures t.chunksData == map[] && t.chunksAcked == {}
    ensures t.startTime == now && t.lastActivity == now
    ensures !isSender || file.None? ==> t.fileSize == 0 && t.totalChunks == 0 && t.fileHash == ""
    ensures isSender && file.Some? ==> && t.fileSize == |file.value|
                                       && t.totalChunks == ChunkCount(|file.value|)
                                       && t.fileHash == md5(file.value)
  {
    var name := Basename(filePath);
    if isSender && file.Some? then
      FileTransfer(transferId, filePath, targetMac, isSender, name, |file.value|, md5(file.value),
                   Pending, 0, 0, ChunkCount(|file.value|), 0, now, now, map[], {})
    else
      FileTransfer(transferId, filePath, targetMac, isSender, name, 0, "", Pending, 0, 0, 0, 0, now, now, map[], {})
  }

  /** `is_complete`: a sender counts distinct acknowledged indices, a
      receiver counts every chunk frame it stored. */
  predicate IsComplete(t: FileTransfer) {
    if t.isSender then |t.chunksAcked| == t.totalChunks else t.chunksReceived == t.totalChunks
  }

  /** The indices `0..n-1`. */
  function Indices(n: nat): (r: set<int>)
    ensures forall i :: i in r <==> 0 <= i < n
  {
    if n == 0 then {} else Indices(n - 1) + {n - 1}
  }

  lemma {:induction false} IndicesSize(n: nat)
    ensures |Indices(n)| == n
  {
    if n > 0 {
      IndicesSize(n - 1);
    }
  }

  /** A set inside another of the same size is that set. */
  lemma {:induction false} SubsetSameSize<T>(a: set<T>, b: set<T>)
    requires a <= b && |a| == |b|
    ensures a == b
  {
    if a != b {
      var x :| x in b && x !in a;
      assert a <= b - {x};
      assert |b - {x}| == |b| - 1;
      SubsetSize(a, b - {x});
    }
  }

  lemma {:induction false} SubsetSize<T>(a: set<T>, b: set<T>)
    requires a <= b
    ensures |a| <= |b|
  {
    assert b == a + (b - a);
  }

  /** A sender whose ACK set holds only indices below its chunk count is
      complete exactly when every index has been acknowledged. */
  lemma SenderCompleteIffAllAcked(t: FileTransfer)
    requires t.isSender && t.totalChunks >= 0
    requires forall n :: n in t.chunksAcked ==> 0 <= n < t.totalChunks
    ensures IsComplete(t) <==> forall i :: 0 <= i < t.totalChunks ==> i in t.chunksAcked
  {
    IndicesSize(t.totalChunks);
    assert t.chunksAcked <= Indices(t.totalChunks);
    if forall i :: 0 <= i < t.totalChunks ==> i in t.chunksAcked {
      assert t.chunksAcked == Indices(t.totalChunks);
    }
    if IsComplete(t) {
      SubsetSameSize(t.chunksAcked, Indices(t.totalChunks));
    }
  }

  /** A receiver-side transfer starts out already complete: it has no
      chunks and expects none until a FILE_START sets its count. */
  lemma FreshReceiverComplete(transferId: string, filePath: string, targetMac: string,
                              file: Option<seq<byte>>, md5: seq<byte> -> string, now: int)
    ensures IsComplete(NewTransfer(transferId, filePath, targetMac, false, file, md5, now))
  {
  }

  /** A fresh sender is complete exactly when its file is missing or
      empty. */
  lemma FreshSenderComplete(transferId: string, filePath: string, targetMac: string,
                            file: Option<seq<byte>>, md5: seq<byte> -> string, now: int)
    ensures IsComplete(NewTransfer(transferId, filePath, targetMac, true, file, md5, now))
            <==> file.None? || |file.value| == 0
  {
  }
}

=== FILE: transfer_manager.dfy ===
/** The file-transfer manager of the newer code generation
    (src/networking/file_transfer.py): starting and cancelling sends,
    chunk ranges and the chunk envelope, the receive handlers, completion
    with index-ordered reassembly, the inactivity sweep and the send window.

    The source names a message type, MSG_TYPE_FILE_ACK, that its constants
    module does not define; the `Variant` parameter selects between the
    code as written and the evidently intended code (see `Variant`). */
module TransferManager {
  import opened Wrappers
  import opened Bytes
  import C = Constants
  import Helpers
  import opened Transfer

  /** `AsWritten`: the undefined ACK type raises `NameError`, so no chunk
      ACK is ever sent or processed, and a receiver completes once its
      frame counter reaches `total_chunks`, duplicates included.
      `Corrected`: chunk ACKs travel as MSG_TYPE_FILE_CHUNK_ACK and a
      receiver completes once every index below `total_chunks` is stored. */
  datatype Variant = AsWritten | Corrected

  /** The JSON object of a FILE_START frame. */
  datatype StartInfo = StartInfo(transferId: string, filename: string, fileSize: int, fileHash: string, totalChunks: int)

  /** The JSON object at the head of a chunk envelope. */
  datatype ChunkInfo = ChunkInfo(transferId: string, chunkNumber: int, chunkSize: int, totalChunks: int,
                                 timestamp: int, senderMac: string)

  /** The JSON object of a chunk ACK. */
  datatype AckInfo = AckInfo(transferId: string, chunkNumber: int)

  /** The foreign pieces: JSON decoding of each frame kind (None when
      `json.loads` raises), JSON encoding of a chunk header, and the MD5
      hex digest. */
  datatype Codec = Codec(
    decodeStart: seq<byte> -> Option<StartInfo>,
    decodeChunk: seq<byte> -> Option<ChunkInfo>,
    decodeAck: seq<byte> -> Option<AckInfo>,
    encodeChunk: ChunkInfo -> seq<byte>,
    md5: seq<byte> -> string)

  datatype Body =
    | StartBody(info: StartInfo, chunkSize: int, timestamp: int, senderMac: string)
    | ChunkBody(envelope: seq<byte>)
    | AckBody(ack: AckInfo, timestamp: int, senderMac: string)

  /** A frame handed to the socket manager. */
  datatype OutFrame = OutFrame(destMac: string, srcMac: string, msgType: int, msgId: int, body: Body)

  /** `active_transfers` and `completed_transfers`, keyed by transfer id. */
  datatype State = State(localMac: string, active: map<string, FileTransfer>, completed: map<string, FileTransfer>)

  /** A notice passed to every registered transfer callback:
      `_notify_transfer_started`, `_notify_transfer_progress` and
      `_notify_transfer_completed`, each carrying the transfer as it stands
      when the callbacks run. */
  datatype Notice = Started(t: FileTransfer) | Progressed(t: FileTransfer) | Ended(t: FileTransfer)

  /** A state change together with the notices it made, in order. */
  datatype Step = Step(state: State, notices: seq<Notice>)

  /** Largest number of sent but unacknowledged chunks. */
  const SendWindow: int := 10

  /** Inactivity after which the sweep fails a transfer, in ms. */
  const FileTimeoutMs: int := C.FileTimeout * 1000

  /** Decimal text of an integer, as an f-string renders it. */
  function NatText(n: nat): (s: string)
    ensures |s| >= 1
  {
    if n < 10 then ["0123456789"[n]] else NatText(n / 10) + ["0123456789"[n % 10]]
  }

  function IntText(i: int): string {
    if i < 0 then "-" + NatText(-i) else NatText(i)
  }

  /** Distinct numbers have distinct decimal texts. */
  lemma {:induction false} NatTextInjective(a: nat, b: nat)
    requires NatText(a) == NatText(b)
    ensures a == b
    decreases a
  {
    var ta, tb := NatText(a), NatText(b);
    if a >= 10 && b >= 10 {
      var pa, pb := NatText(a / 10), NatText(b / 10);
      assert ta[..|ta| - 1] == pa && tb[..|tb| - 1] == pb;
      NatTextInjective(a / 10, b / 10);
      assert ta[|ta| - 1] == "0123456789"[a % 10] && tb[|tb| - 1] == "0123456789"[b % 10];
      DigitInjective(a % 10, b % 10);
    } else if a < 10 && b < 10 {
      assert ta[0] == "0123456789"[a] && tb[0] == "0123456789"[b];
      DigitInjective(a, b);
    }
  }

  lemma DigitInjective(a: nat, b: nat)
    requires a < 10 && b < 10 && "0123456789"[a] == "0123456789"[b]
    ensures a == b
  {
  }

  /** `f"{local_mac}_{target_mac}_{timestamp}"`. */
  function TransferId(localMac: string, targetMac: string, now: int): (id: string)
    ensures localMac + "_" + targetMac + "_" <= id
  {
    localMac + "_" + targetMac + "_" + IntText(now)
  }

  /** Two transfers to the same target started at different instants get
      different ids. */
  lemma TransferIdsDiffer(localMac: string, targetMac: string, t1: int, t2: int)
    requires t1 != t2
    ensures TransferId(localMac, targetMac, t1) != TransferId(localMac, targetMac, t2)
  {
    var prefix := localMac + "_" + targetMac + "_";
    if TransferId(localMac, targetMac, t1) == TransferId(localMac, targetMac, t2) {
      var x, y := IntText(t1), IntText(t2);
      assert prefix + x == prefix + y;
      assert x == (prefix + x)[|prefix|..] && y == (prefix + y)[|prefix|..];
      if t1 < 0 && t2 < 0 {
        assert NatText(-t1) == x[1..] && NatText(-t2) == y[1..];
        NatTextInjective(-t1, -t2);
      } else if t1 >= 0 && t2 >= 0 {
        NatTextInjective(t1, t2);
      } else if t1 < 0 {
        NatTextNoSign(t2);
      } else {
        NatTextNoSign(t1);
      }
    }
  }

  /** Decimal text holds only digits, never a '-'. */
  lemma {:induction false} NatTextNoSign(n: nat)
    ensures NatText(n)[0] != '-'
    decreases n
  {
    if n >= 10 {
      NatTextNoSign(n / 10);
      assert NatText(n)[0] == NatText(n / 10)[0];
    } else {
      assert NatText(n)[0] == "0123456789"[n];
    }
  }

  /** Move an active transfer to the completed table with its final status
      (cancel, timeout and completion all end this way). */
  function Finish(st: State, id: string, status: Status): (r: State)
    requires id in st.active
    ensures r.localMac == st.localMac
    ensures r.active.Keys == st.active.Keys - {id}
    ensures forall k :: k in r.active ==> r.active[k] == st.active[k]
    ensures r.completed.Keys == st.completed.Keys + {id}
    ensures r.completed[id] == st.active[id].(status := status)
    ensures forall k :: k in st.completed && k != id ==> r.completed[k] == st.completed[k]
  {
    State(st.localMac, st.active - {id}, st.completed[id := st.active[id].(status := status)])
  }

  /** The outcome of `send_file`: the state, the returned bool, and the
      FILE_START frame handed to the socket manager, if one was built. */
  datatype SendFileResult = SendFileResult(state: State, ok: bool, frame: Option<OutFrame>, notices: seq<Notice>)

  /** The sending-side transfer `send_file` registers for the contents
      `data` of `path`: a fresh sender record, already active. */
  function SenderTransfer(id: string, path: string, target: string, data: seq<byte>, md5: seq<byte> -> string,
                          now: int): (t: FileTransfer)
    ensures t.isSender && t.status == Active && t.transferId == id && t.targetMac == target
    ensures t.filename == Basename(path) && t.fileSize == |data| && t.fileHash == md5(data)
    ensures t.totalChunks == ChunkCount(|data|)
    ensures t.chunksData == map[] && t.chunksAcked == {} && t.chunksSent == 0 && t.bytesTransferred == 0
    ensures t.startTime == now && t.lastActivity == now
  {
    FileTransfer(id, path, target, true, Basename(path), |data|, md5(data), Active,
                 0, 0, ChunkCount(|data|), 0, now, now, map[], {})
  }

  /** It is the record `FileTransfer.__init__` builds, with its status set
      to active. */
  lemma SenderTransferIsNew(id: string, path: string, target: string, data: seq<byte>,
                            md5: seq<byte> -> string, now: int)
    ensures SenderTransfer(id, path, target, data, md5, now)
            == NewTransfer(id, path, target, true, Some(data), md5, now).(status := Active)
  {
  }

  /** The FILE_START frame announcing sender transfer `t`
      (`_send_file_start`). */
  function StartFrame(localMac: string, t: FileTransfer, now: int, micros: int): (f: OutFrame)
    ensures f.destMac == t.targetMac && f.srcMac == localMac && f.msgType == C.MsgTypeFileStart
    ensures f.body == StartBody(StartInfo(t.transferId, t.filename, t.fileSize, t.fileHash, t.totalChunks),
                                C.MaxChunkSize, now, localMac)
  {
    OutFrame(t.targetMac, localMac, C.MsgTypeFileStart, Helpers.CreateMessageId(micros),
             StartBody(StartInfo(t.transferId, t.filename, t.fileSize, t.fileHash, t.totalChunks),
                       C.MaxChunkSize, now, localMac))
  }

  /** `send_file`. `file` is what is at `path` (None: it does not exist),
      `isFile` and `nameValid` are the `isfile` and `validate_filename`
      checks, and `startOk` is what sending the FILE_START frame returned. */
  function SendFile(st: State, target: string, path: string, file: Option<seq<byte>>, isFile: bool,
                    nameValid: bool, codec: Codec, now: int, micros: int, startOk: bool): (r: SendFileResult)
    ensures file.None? || !isFile || !nameValid || |file.value| == 0 ==> r == SendFileResult(st, false, None, [])
    ensures r.ok <==> file.Some? && isFile && nameValid && |file.value| > 0 && startOk
    ensures r.ok ==>
              var id := TransferId(st.localMac, target, now);
              && r.state.active.Keys == st.active.Keys + {id}
              && r.state.active[id] == SenderTransfer(id, path, target, file.value, codec.md5, now)
              && (forall k :: k in st.active && k != id ==> r.state.active[k] == st.active[k])
              && r.state.completed == st.completed
    ensures !r.ok && r.frame.Some? ==>
              r.state == State(st.localMac, st.active - {TransferId(st.localMac, target, now)}, st.completed)
    ensures r.frame.Some? ==> r.frame.value.destMac == target && r.frame.value.msgType == C.MsgTypeFileStart
    ensures r.frame.Some? ==>
              var id := TransferId(st.localMac, target, now);
              file.Some? && r.frame.value == StartFrame(st.localMac, SenderTransfer(id, path, target, file.value, codec.md5, now), now, micros)
    ensures r.ok ==> r.notices == [Started(r.state.active[TransferId(st.localMac, target, now)])]
    ensures !r.ok ==> r.notices == []
  {
    if file.None? || !isFile || !nameValid || |file.value| == 0 then SendFileResult(st, false, None, [])
    else
      var id := TransferId(st.localMac, target, now);
      var t := SenderTransfer(id, path, target, file.value, codec.md5, now);
      var frame := StartFrame(st.localMac, t, now, micros);
      if startOk then SendFileResult(State(st.localMac, st.active[id := t], st.completed), true, Some(frame), [Started(t)])
      else SendFileResult(State(st.localMac, st.active - {id}, st.completed), false, Some(frame), [])
  }

  /** `cancel_transfer`. */
  function CancelTransfer(st: State, id: string): (r: (State, bool, seq<Notice>))
    ensures r.1 <==> id in st.active
    ensures !r.1 ==> r.0 == st
    ensures r.1 ==> && id !in r.0.active && id in r.0.completed
                    && r.0.completed[id] == st.active[id].(status := Cancelled)
                    && r.0.active.Keys == st.active.Keys - {id}
                    && r.0.completed.Keys == st.completed.Keys + {id}
    ensures r.0.localMac == st.localMac
    ensures forall k :: k in r.0.active ==> r.0.active[k] == st.active[k]
    ensures forall k :: k in st.completed && k != id ==> r.0.completed[k] == st.completed[k]
    ensures r.1 ==> r.2 == [Ended(r.0.completed[id])]
    ensures !r.1 ==> r.2 == []
  {
    if id in st.active then
      var r := Finish(st, id, Cancelled);
      (r, true, [Ended(r.completed[id])])
    else (st, false, [])
  }

  /** A second cancel of the same transfer finds nothing to cancel and
      changes nothing. */
  lemma CancelTwice(st: State, id: string)
    ensures var first := CancelTransfer(st, id);
            CancelTransfer(first.0, id) == (first.0, false, [])
  {
  }

  /** First byte of chunk `n`. */
  function ChunkStart(n: int): int {
    n * C.MaxChunkSize
  }

  /** One past the last byte of chunk `n` of a `size`-byte file. */
  function ChunkEnd(n: int, size: int): int {
    Min(ChunkStart(n) + C.MaxChunkSize, size)
  }

  /** The chunk ranges of a file tile it: each is non-empty and at most
      MAX_CHUNK_SIZE long, each starts where the previous one ended, the
      first starts at 0 and the last ends at the file size. */
  lemma {:induction false} ChunkRangesTile(size: nat)
    ensures forall n :: 0 <= n < ChunkCount(size) ==>
              0 <= ChunkStart(n) < ChunkEnd(n, size) <= size && ChunkEnd(n, size) - ChunkStart(n) <= C.MaxChunkSize
    ensures forall n :: 0 <= n < ChunkCount(size) - 1 ==> ChunkEnd(n, size) == ChunkStart(n + 1)
    ensures size > 0 ==> ChunkStart(0) == 0 && ChunkEnd(ChunkCount(size) - 1, size) == size
  {
    ChunkCountIsCeiling(size);
    forall n | 0 <= n < ChunkCount(size)
      ensures 0 <= ChunkStart(n) < ChunkEnd(n, size) <= size
    {
      StartBelowSize(size, n);
    }
    forall n | 0 <= n < ChunkCount(size) - 1
      ensures ChunkEnd(n, size) == ChunkStart(n + 1)
    {
      StartBelowSize(size, n + 1);
    }
  }

  /** Every chunk index below the count starts inside the file. */
  lemma StartBelowSize(size: nat, n: int)
    requires 0 <= n < ChunkCount(size)
    ensures 0 <= ChunkStart(n) < size
  {
    ChunkCountIsCeiling(size);
    assert n * C.MaxChunkSize <= (ChunkCount(size) - 1) * C.MaxChunkSize;
  }

  /** The bytes chunk `n` carries: at most MAX_CHUNK_SIZE of them, and
      none past the chunk count. */
  function ChunkData(file: seq<byte>, n: nat): (r: seq<byte>)
    ensures |r| <= C.MaxChunkSize
    ensures n >= ChunkCount(|file|) ==> r == []
  {
    ChunkCountIsCeiling(|file|);
    Read(file, ChunkStart(n), ChunkEnd(n, |file|) - ChunkStart(n))
  }

  /** `[info_length:4][info][data]`; None is the `OverflowError` of an
      info block too long for four bytes. */
  function EncodeEnvelope(info: seq<byte>, data: seq<byte>): (r: Option<seq<byte>>)
    ensures r.Some? <==> |info| < 0x1_0000_0000
    ensures r.Some? ==> |r.value| == 4 + |info| + |data| && FromBe(r.value[..4]) == |info|
  {
    if |info| < 0x1_0000_0000 then
      var out := Be32(|info|) + info + data;
      assert out[..4] == Be32(|info|);
      Some(out)
    else None
  }

  /** The receive-side slicing `payload[:4]`, `payload[4:4+n]`,
      `payload[4+n:]`, with Python's clamping of out-of-range bounds. */
  function DecodeEnvelope(payload: seq<byte>): (r: (seq<byte>, seq<byte>))
    ensures r.0 + r.1 == payload[Min(4, |payload|)..]
  {
    var head := Min(4, |payload|);
    var n := FromBe(payload[..head]);
    var cut := Min(4 + n, |payload|);
    assert payload[head..cut] + payload[cut..] == payload[head..];
    (payload[head..cut], payload[cut..])
  }

  /** The receive-side slicing recovers exactly the info and the data. */
  lemma EnvelopeRoundTrip(info: seq<byte>, data: seq<byte>)
    requires |info| < 0x1_0000_0000
    ensures DecodeEnvelope(EncodeEnvelope(info, data).value) == (info, data)
  {
    var out := EncodeEnvelope(info, data).value;
    assert out[4..4 + |info|] == info;
    assert out[4 + |info|..] == data;
  }

  /** The outcome of `_send_file_chunk`. */
  datatype ChunkSend = ChunkSend(transfer: FileTransfer, ok: bool, frame: Option<OutFrame>, notices: seq<Notice>)

  /** `_send_file_chunk`: read chunk `n` from `file` (None: it cannot be
      opened), wrap it in the envelope and send it; on success count the
      chunk and its bytes and note the activity. */
  function SendFileChunk(t: FileTransfer, n: int, file: Option<seq<byte>>, localMac: string, codec: Codec,
                         now: int, micros: int, sendOk: bool): (r: ChunkSend)
    ensures !r.ok ==> r.transfer == t
    ensures r.ok ==> && r.frame.Some?
                     && r.transfer == t.(chunksSent := t.chunksSent + 1,
                                         bytesTransferred := t.bytesTransferred + ChunkEnd(n, t.fileSize) - ChunkStart(n),
                                         lastActivity := now)
    ensures r.ok <==> n >= 0 && file.Some? && r.frame.Some? && sendOk
    ensures r.frame.Some? ==> r.frame.value.destMac == t.targetMac && r.frame.value.msgType == C.MsgTypeFileChunk
                              && r.frame.value.body.ChunkBody?
    ensures r.ok ==> r.notices == [Progressed(r.transfer)]
    ensures !r.ok ==> r.notices == []
  {
    if n < 0 || file.None? then ChunkSend(t, false, None, [])
    else
      var size := ChunkEnd(n, t.fileSize) - ChunkStart(n);
      var data := Read(file.value, ChunkStart(n), size);
      var info := ChunkInfo(t.transferId, n, size, t.totalChunks, now, localMac);
      match EncodeEnvelope(codec.encodeChunk(info), data)
      case None => ChunkSend(t, false, None, [])
      case Some(env) =>
        var frame := OutFrame(t.targetMac, localMac, C.MsgTypeFileChunk, Helpers.CreateMessageId(micros), ChunkBody(env));
        if sendOk then
          var t' := t.(chunksSent := t.chunksSent + 1, bytesTransferred := t.bytesTransferred + size, lastActivity := now);
          ChunkSend(t', true, Some(frame), [Progressed(t')])
        else ChunkSend(t, false, Some(frame), [])
  }

  /** For the sender's own file, chunk `n` carries exactly its range. */
  lemma SentChunkIsRange(t: FileTransfer, n: nat, file: seq<byte>)
    requires t.fileSize == |file| && n < ChunkCount(|file|)
    ensures ChunkData(file, n) == file[ChunkStart(n)..ChunkEnd(n, |file|)]
  {
    ChunkRangesTile(|file|);
  }

  /** The stored chunks `0..total-1` in index order, skipping absent
      indices (the write loop of `_complete_file_transfer`). */
  function Reassemble(chunks: map<int, seq<byte>>, total: int): (r: seq<byte>)
    decreases total
  {
    if total <= 0 then []
    else Reassemble(chunks, total - 1) + (if total - 1 in chunks then chunks[total - 1] else [])
  }

  /** A chunk stored under an index outside `0..total-1` is never
      written. */
  lemma {:induction false} ReassembleIgnoresOutOfRange(chunks: map<int, seq<byte>>, total: int, k: int, d: seq<byte>)
    requires k < 0 || k >= total
    ensures Reassemble(chunks[k := d], total) == Reassemble(chunks, total)
    decreases total
  {
    if total > 0 {
      ReassembleIgnoresOutOfRange(chunks, total - 1, k, d);
    }
  }

  /** Reassembling a receiver's chunks where every index holds the
      sender's range yields the file. */
  lemma ReassembleRestoresFile(chunks: map<int, seq<byte>>, file: seq<byte>)
    requires forall i :: 0 <= i < ChunkCount(|file|) ==> i in chunks && chunks[i] == ChunkData(file, i)
    ensures Reassemble(chunks, ChunkCount(|file|)) == file
  {
    ChunkCountIsCeiling(|file|);
    ReassemblePrefix(chunks, file, ChunkCount(|file|));
  }

  lemma {:induction false} ReassemblePrefix(chunks: map<int, seq<byte>>, file: seq<byte>, k: nat)
    requires k <= ChunkCount(|file|)
    requires forall i :: 0 <= i < k ==> i in chunks && chunks[i] == ChunkData(file, i)
    ensures Reassemble(chunks, k) == file[..Min(ChunkStart(k), |file|)]
  {
    if k > 0 {
      ReassemblePrefix(chunks, file, k - 1);
      ChunkStep(|file|, k - 1);
      var lo := ChunkStart(k - 1);
      var hi := Min(ChunkStart(k), |file|);
      assert Reassemble(chunks, k) == Reassemble(chunks, k - 1) + chunks[k - 1];
      assert chunks[k - 1] == file[lo..hi];
      SliceJoin(file, lo, hi);
    }
  }

  lemma SliceJoin(s: seq<byte>, lo: nat, hi: nat)
    requires lo <= hi <= |s|
    ensures s[..lo] + s[lo..hi] == s[..hi]
  {
  }

  /** Chunk `n` of a `size`-byte file runs from its start, inside the file,
      to the next chunk's start or the end of the file. */
  lemma ChunkStep(size: nat, n: nat)
    requires n < ChunkCount(size)
    ensures 0 <= ChunkStart(n) < size && Min(ChunkStart(n), size) == ChunkStart(n)
    ensures ChunkEnd(n, size) == Min(ChunkStart(n + 1), size)
    ensures ChunkStart(n) <= ChunkEnd(n, size)
  {
    StartBelowSize(size, n);
  }

  /** Receiver completion: `Corrected` waits for every index, `AsWritten`
      for the frame counter (`is_complete`). Senders use `is_complete`. */
  predicate Done(v: Variant, t: FileTransfer) {
    if v == Corrected && !t.isSender then forall i :: 0 <= i < t.totalChunks ==> i in t.chunksData
    else IsComplete(t)
  }

  /** `_complete_file_transfer` on `active[id]`: a sender just completes
      (its branch does no I/O); a receiver reassembles its chunks and
      checks the MD5 when a hash was announced. Either way the transfer
      moves to the completed table. `ioError` is a failure writing or
      renaming the receiver's file, which fails the transfer. */
  function CompleteTransfer(st: State, id: string, codec: Codec, ioError: bool): (r: Step)
    requires id in st.active
    ensures r.state.localMac == st.localMac
    ensures id !in r.state.active && id in r.state.completed
    ensures r.state.active.Keys == st.active.Keys - {id}
    ensures forall k :: k in r.state.active ==> r.state.active[k] == st.active[k]
    ensures r.state.completed.Keys == st.completed.Keys + {id}
    ensures forall k :: k in st.completed && k != id ==> r.state.completed[k] == st.completed[k]
    ensures r.state.completed[id] == st.active[id].(status := r.state.completed[id].status)
    ensures st.active[id].isSender ==> r.state.completed[id].status == Completed
    ensures var t := st.active[id];
            (r.state.completed[id].status == Completed <==>
               t.isSender || (!ioError && (t.fileHash == "" || codec.md5(Reassemble(t.chunksData, t.totalChunks)) == t.fileHash)))
    ensures r.state.completed[id].status in {Completed, Failed}
    ensures r.notices == [Ended(r.state.completed[id])]
  {
    var t := st.active[id];
    var status :=
      if t.isSender then Completed
      else if ioError then Failed
      else if t.fileHash == "" then Completed
      else if codec.md5(Reassemble(t.chunksData, t.totalChunks)) == t.fileHash then Completed
      else Failed;
    var done := Finish(st, id, status);
    Step(done, [Ended(done.completed[id])])
  }

  /** The receiving-side transfer `_handle_file_start` builds: a fresh
      receiver record with the announced name, size, hash and chunk count,
      already active. */
  function ReceiverTransfer(s: StartInfo, srcMac: string, finalPath: string, now: int): (t: FileTransfer)
    ensures !t.isSender && t.status == Active && t.transferId == s.transferId && t.targetMac == srcMac
    ensures t.filename == s.filename && t.fileSize == s.fileSize
    ensures t.totalChunks == s.totalChunks && t.fileHash == s.fileHash
    ensures t.chunksData == map[] && t.chunksAcked == {} && t.chunksReceived == 0 && t.chunksSent == 0
    ensures t.lastActivity == now
  {
    FileTransfer(s.transferId, finalPath, srcMac, false, s.filename, s.fileSize, s.fileHash, Active,
                 0, 0, s.totalChunks, 0, now, now, map[], {})
  }

  /** `_handle_file_start`: register a receiving transfer under the
      announced id (replacing any entry with that id). `finalPath` is where
      the file will be written. */
  function HandleFileStart(st: State, srcMac: string, info: Option<StartInfo>, finalPath: string, now: int): (r: Step)
    ensures info.None? ==> r == Step(st, [])
    ensures info.Some? ==>
              && r.state.active.Keys == st.active.Keys + {info.value.transferId}
              && r.state.active[info.value.transferId] == ReceiverTransfer(info.value, srcMac, finalPath, now)
              && (forall k :: k in st.active && k != info.value.transferId ==> r.state.active[k] == st.active[k])
              && r.state.completed == st.completed
              && r.notices == [Started(r.state.active[info.value.transferId])]
  {
    match info
    case None => Step(st, [])
    case Some(s) =>
      var t := ReceiverTransfer(s, srcMac, finalPath, now);
      Step(State(st.localMac, st.active[s.transferId := t], st.completed), [Started(t)])
  }

  /** The ACK a receiver sends for a stored chunk: none as written (its
      message type is an undefined name), one to the sender otherwise. */
  function ChunkAck(v: Variant, localMac: string, srcMac: string, id: string, n: int, now: int, micros: int): (r: Option<OutFrame>)
    ensures v == AsWritten <==> r.None?
    ensures r.Some? ==> r.value.destMac == srcMac && r.value.msgType == C.MsgTypeFileChunkAck
                        && r.value.body == AckBody(AckInfo(id, n), now, localMac)
  {
    if v == AsWritten then None
    else Some(OutFrame(srcMac, localMac, C.MsgTypeFileChunkAck, Helpers.CreateMessageId(micros),
                       AckBody(AckInfo(id, n), now, localMac)))
  }

  /** What a receive handler produced: the state and the ACK sent. */
  datatype Handled = Handled(state: State, ack: Option<OutFrame>, notices: seq<Notice>)

  /** The body of `_handle_file_chunk` once the envelope is split and its
      header decoded (`info` is None when decoding raised): for a known
      transfer store the data under its index, count it, ACK it and
      complete the transfer when `Done`. */
  function ReceiveChunk(v: Variant, st: State, srcMac: string, info: Option<ChunkInfo>, data: seq<byte>, codec: Codec,
                        ioError: bool, now: int, micros: int): (r: Handled)
    ensures info.None? || info.value.transferId !in st.active ==> r == Handled(st, None, [])
    ensures info.Some? && info.value.transferId in st.active ==>
              var id := info.value.transferId;
              var t := st.active[id];
              var t' := t.(chunksData := t.chunksData[info.value.chunkNumber := data],
                           chunksReceived := t.chunksReceived + 1,
                           bytesTransferred := t.bytesTransferred + info.value.chunkSize,
                           lastActivity := now);
              && r.ack == ChunkAck(v, st.localMac, srcMac, id, info.value.chunkNumber, now, micros)
              && (Done(v, t') ==>
                    var c := CompleteTransfer(State(st.localMac, st.active[id := t'], st.completed), id, codec, ioError);
                    && r.state == c.state
                    && id !in r.state.active && id in r.state.completed
                    && r.notices == c.notices + [Progressed(r.state.completed[id])]
                    && r.state.completed[id] == t'.(status := r.state.completed[id].status)
                    && (r.state.completed[id].status == Completed <==>
                          t.isSender || (!ioError && (t.fileHash == ""
                                                      || codec.md5(Reassemble(t'.chunksData, t.totalChunks)) == t.fileHash))))
              && (!Done(v, t') ==> r.state == State(st.localMac, st.active[id := t'], st.completed)
                                   && r.notices == [Progressed(t')])
    ensures r.state.localMac == st.localMac
    ensures forall k :: k in st.active && (info.None? || k != info.value.transferId) ==>
                          k in r.state.active && r.state.active[k] == st.active[k]
    ensures forall k :: k in st.completed && (info.None? || k != info.value.transferId) ==>
                          k in r.state.completed && r.state.completed[k] == st.completed[k]
  {
    match info
    case None => Handled(st, None, [])
    case Some(h) =>
      if h.transferId !in st.active then Handled(st, None, [])
      else
        var id := h.transferId;
        var t := st.active[id];
        var t' := t.(chunksData := t.chunksData[h.chunkNumber := data],
                     chunksReceived := t.chunksReceived + 1,
                     bytesTransferred := t.bytesTransferred + h.chunkSize,
                     lastActivity := now);
        var st' := State(st.localMac, st.active[id := t'], st.completed);
        var ack := ChunkAck(v, st.localMac, srcMac, id, h.chunkNumber, now, micros);
        if Done(v, t') then
          var c := CompleteTransfer(st', id, codec, ioError);
          Handled(c.state, ack, c.notices + [Progressed(c.state.completed[id])])
        else Handled(st', ack, [Progressed(t')])
  }

  /** `_handle_file_chunk`: split the envelope, decode the header, and for
      a known transfer store the data under its index, count it, ACK it and
      complete the transfer when `Done`. */
  function HandleFileChunk(v: Variant, st: State, srcMac: string, payload: seq<byte>, codec: Codec,
                           ioError: bool, now: int, micros: int): (r: Handled)
    ensures var info := codec.decodeChunk(DecodeEnvelope(payload).0);
            info.None? || info.value.transferId !in st.active ==> r == Handled(st, None, [])
    ensures var info := codec.decodeChunk(DecodeEnvelope(payload).0);
            info.Some? && info.value.transferId in st.active ==>
              var id := info.value.transferId;
              var t := st.active[id];
              var t' := t.(chunksData := t.chunksData[info.value.chunkNumber := DecodeEnvelope(payload).1],
                           chunksReceived := t.chunksReceived + 1,
                           bytesTransferred := t.bytesTransferred + info.value.chunkSize,
                           lastActivity := now);
              && r.ack == ChunkAck(v, st.localMac, srcMac, id, info.value.chunkNumber, now, micros)
              && (Done(v, t') ==>
                    var c := CompleteTransfer(State(st.localMac, st.active[id := t'], st.completed), id, codec, ioError);
                    && r.state == c.state
                    && id !in r.state.active && id in r.state.completed
                    && r.notices == c.notices + [Progressed(r.state.completed[id])]
                    && r.state.completed[id] == t'.(status := r.state.completed[id].status)
                    && (r.state.completed[id].status == Completed <==>
                          t.isSender || (!ioError && (t.fileHash == ""
                                                      || codec.md5(Reassemble(t'.chunksData, t.totalChunks)) == t.fileHash))))
              && (!Done(v, t') ==> r.state == State(st.localMac, st.active[id := t'], st.completed)
                                   && r.notices == [Progressed(t')])
    ensures r.state.localMac == st.localMac
    ensures var info := codec.decodeChunk(DecodeEnvelope(payload).0);
            forall k :: k in st.active && (info.None? || k != info.value.transferId) ==>
                          k in r.state.active && r.state.active[k] == st.active[k]
    ensures var info := codec.decodeChunk(DecodeEnvelope(payload).0);
            forall k :: k in st.completed && (info.None? || k != info.value.transferId) ==>
                          k in r.state.completed && r.state.completed[k] == st.completed[k]
  {
    ReceiveChunk(v, st, srcMac, codec.decodeChunk(DecodeEnvelope(payload).0), DecodeEnvelope(payload).1,
                 codec, ioError, now, micros)
  }

  /** `_handle_file_ack`: for a known transfer, add the index to the ACK
      set, note the activity, and complete the transfer when `Done`. */
  function HandleFileAck(v: Variant, st: State, info: Option<AckInfo>, codec: Codec, ioError: bool, now: int): (r: Step)
    ensures info.None? || info.value.transferId !in st.active ==> r == Step(st, [])
    ensures info.Some? && info.value.transferId in st.active ==>
              var id := info.value.transferId;
              var t' := st.active[id].(chunksAcked := st.active[id].chunksAcked + {info.value.chunkNumber},
                                       lastActivity := now);
              && (Done(v, t') ==>
                    var c := CompleteTransfer(State(st.localMac, st.active[id := t'], st.completed), id, codec, ioError);
                    && r.state == c.state
                    && id !in r.state.active && id in r.state.completed
                    && r.notices == c.notices + [Progressed(r.state.completed[id])]
                    && r.state.completed[id] == t'.(status := r.state.completed[id].status)
                    && (r.state.completed[id].status == Completed <==>
                          t'.isSender || (!ioError && (t'.fileHash == ""
                                                       || codec.md5(Reassemble(t'.chunksData, t'.totalChunks)) == t'.fileHash))))
              && (!Done(v, t') ==> r.state == State(st.localMac, st.active[id := t'], st.completed)
                                   && r.notices == [Progressed(t')])
    ensures r.state.localMac == st.localMac
    ensures forall k :: k in st.active && (info.None? || k != info.value.transferId) ==>
                          k in r.state.active && r.state.active[k] == st.active[k]
    ensures forall k :: k in st.completed && (info.None? || k != info.value.transferId) ==>
                          k in r.state.completed && r.state.completed[k] == st.completed[k]
  {
    match info
    case None => Step(st, [])
    case Some(a) =>
      if a.transferId !in st.active then Step(st, [])
      else
        var t := st.active[a.transferId];
        var t' := t.(chunksAcked := t.chunksAcked + {a.chunkNumber}, lastActivity := now);
        var st' := State(st.localMac, st.active[a.transferId := t'], st.completed);
        if Done(v, t') then
          var c := CompleteTransfer(st', a.transferId, codec, ioError);
          Step(c.state, c.notices + [Progressed(c.state.completed[a.transferId])])
        else Step(st', [Progressed(t')])
  }

  /** A repeated ACK (at the same instant) changes nothing more. */
  lemma AckIdempotent(v: Variant, st: State, info: Option<AckInfo>, codec: Codec, ioError: bool, now: int)
    ensures HandleFileAck(v, HandleFileAck(v, st, info, codec, ioError, now).state, info, codec, ioError, now).state
            == HandleFileAck(v, st, info, codec, ioError, now).state
  {
    if info.Some? && info.value.transferId in st.active {
      var id := info.value.transferId;
      var t := st.active[id];
      var t' := t.(chunksAcked := t.chunksAcked + {info.value.chunkNumber}, lastActivity := now);
      assert t'.chunksAcked + {info.value.chunkNumber} == t'.chunksAcked;
    }
  }

  /** `_handle_frame`: dispatch on the message type. As written, any type
      other than FILE_START and FILE_CHUNK reaches the comparison with the
      undefined MSG_TYPE_FILE_ACK, whose `NameError` is caught and logged. */
  function HandleFrame(v: Variant, st: State, msgType: int, srcMac: string, payload: seq<byte>,
                       finalPath: string, codec: Codec, ioError: bool, now: int, micros: int): (r: Handled)
    ensures msgType == C.MsgTypeFileStart ==>
              var s := HandleFileStart(st, srcMac, codec.decodeStart(payload), finalPath, now);
              r == Handled(s.state, None, s.notices)
    ensures msgType == C.MsgTypeFileChunk ==> r == HandleFileChunk(v, st, srcMac, payload, codec, ioError, now, micros)
    ensures v == Corrected && msgType == C.MsgTypeFileChunkAck ==>
              var s := HandleFileAck(v, st, codec.decodeAck(payload), codec, ioError, now);
              r == Handled(s.state, None, s.notices)
    ensures msgType !in {C.MsgTypeFileStart, C.MsgTypeFileChunk, C.MsgTypeFileChunkAck} ==> r == Handled(st, None, [])
  {
    if msgType == C.MsgTypeFileStart then
      var s := HandleFileStart(st, srcMac, codec.decodeStart(payload), finalPath, now);
      Handled(s.state, None, s.notices)
    else if msgType == C.MsgTypeFileChunk then HandleFileChunk(v, st, srcMac, payload, codec, ioError, now, micros)
    else if v == AsWritten then Handled(st, None, [])
    else if msgType == C.MsgTypeFileChunkAck then
      var s := HandleFileAck(v, st, codec.decodeAck(payload), codec, ioError, now);
      Handled(s.state, None, s.notices)
    else Handled(st, None, [])
  }

  /** As written, no frame ever reaches `_handle_file_ack`: every frame
      that is neither a FILE_START nor a FILE_CHUNK leaves the state
      unchanged, and storing a chunk sends no ACK. */
  lemma AcksNeverProcessed(st: State, msgType: int, srcMac: string, payload: seq<byte>, finalPath: string,
                           codec: Codec, ioError: bool, now: int, micros: int)
    requires msgType != C.MsgTypeFileStart && msgType != C.MsgTypeFileChunk
    ensures HandleFrame(AsWritten, st, msgType, srcMac, payload, finalPath, codec, ioError, now, micros) == Handled(st, None, [])
    ensures HandleFileChunk(AsWritten, st, srcMac, payload, codec, ioError, now, micros).ack.None?
  {
  }

  /** With the ACK type defined, an ACK for a known sending transfer is
      recorded in its ACK set. */
  lemma AckFrameRecorded(st: State, srcMac: string, payload: seq<byte>, finalPath: string,
                         codec: Codec, ioError: bool, now: int, micros: int)
    requires codec.decodeAck(payload).Some? && codec.decodeAck(payload).value.transferId in st.active
    ensures var a := codec.decodeAck(payload).value;
            var r := HandleFrame(Corrected, st, C.MsgTypeFileChunkAck, srcMac, payload, finalPath, codec, ioError, now, micros).state;
            (a.transferId in r.active && a.chunkNumber in r.active[a.transferId].chunksAcked)
            || (a.transferId !in r.active && a.transferId in r.completed)
  {
  }

  /** The duplicate-counting defect: a two-chunk receiver that gets chunk 0
      twice completes as written although chunk 1 never arrived, and its
      reassembled file is chunk 0 alone. */
  lemma DuplicateChunkCompletesEarly(t: FileTransfer, chunk0: seq<byte>)
    requires !t.isSender && t.totalChunks == 2 && t.chunksReceived == 0 && t.chunksData == map[]
    ensures var once := t.(chunksData := t.chunksData[0 := chunk0], chunksReceived := 1);
            var twice := once.(chunksData := once.chunksData[0 := chunk0], chunksReceived := 2);
            && !Done(AsWritten, once)
            && Done(AsWritten, twice)
            && 1 !in twice.chunksData
            && Reassemble(twice.chunksData, twice.totalChunks) == chunk0
  {
    var once := t.(chunksData := t.chunksData[0 := chunk0], chunksReceived := 1);
    var twice := once.(chunksData := once.chunksData[0 := chunk0], chunksReceived := 2);
    assert Reassemble(twice.chunksData, 0) == [];
    assert Reassemble(twice.chunksData, 1) == [] + chunk0;
  }

  /** Corrected completion: a receiver that is `Done` reassembles every
      announced chunk, so when they are the sender's chunks of `file` the
      reassembled bytes are `file`. */
  lemma CorrectedCompletionRestoresFile(t: FileTransfer, file: seq<byte>)
    requires !t.isSender && Done(Corrected, t) && t.totalChunks == ChunkCount(|file|)
    requires forall i :: i in t.chunksData && 0 <= i < t.totalChunks ==> t.chunksData[i] == ChunkData(file, i)
    ensures Reassemble(t.chunksData, t.totalChunks) == file
  {
    ReassembleRestoresFile(t.chunksData, file);
  }

  /** The chunk frame a sender emits, handled by a receiver that knows the
      transfer and still misses the next chunk (so it stays active), stores
      the chunk's range of the file under its index. */
  lemma ChunkDelivered(t: FileTransfer, n: nat, file: seq<byte>, localMac: string, codec: Codec,
                       now: int, micros: int, rx: State, ioError: bool, now2: int, micros2: int)
    requires t.fileSize == |file| && n < ChunkCount(|file|)
    requires var info := ChunkInfo(t.transferId, n, ChunkEnd(n, |file|) - ChunkStart(n), t.totalChunks, now, localMac);
             && |codec.encodeChunk(info)| < 0x1_0000_0000
             && codec.decodeChunk(codec.encodeChunk(info)) == Some(info)
    requires t.transferId in rx.active && !rx.active[t.transferId].isSender
    requires rx.active[t.transferId].totalChunks > 1 + n
    requires n + 1 !in rx.active[t.transferId].chunksData
    ensures var s := SendFileChunk(t, n, Some(file), localMac, codec, now, micros, true);
            && s.frame.Some?
            && var r := HandleFileChunk(Corrected, rx, localMac, s.frame.value.body.envelope, codec, ioError, now2, micros2);
               t.transferId in r.state.active
               && n in r.state.active[t.transferId].chunksData
               && r.state.active[t.transferId].chunksData[n] == ChunkData(file, n)
  {
    var size := ChunkEnd(n, |file|) - ChunkStart(n);
    var info := ChunkInfo(t.transferId, n, size, t.totalChunks, now, localMac);
    var data := Read(file, ChunkStart(n), size);
    assert data == ChunkData(file, n);
    var env := EncodeEnvelope(codec.encodeChunk(info), data).value;
    var s := SendFileChunk(t, n, Some(file), localMac, codec, now, micros, true);
    assert s.frame.value.body.envelope == env;
    EnvelopeRoundTrip(codec.encodeChunk(info), data);
    assert DecodeEnvelope(env) == (codec.encodeChunk(info), data);
    var rt := rx.active[t.transferId];
    var rt' := rt.(chunksData := rt.chunksData[n := data], chunksReceived := rt.chunksReceived + 1,
                   bytesTransferred := rt.bytesTransferred + info.chunkSize, lastActivity := now2);
    assert n + 1 < rt'.totalChunks && n + 1 !in rt'.chunksData;
    assert !Done(Corrected, rt');
  }

  /** The lowest chunk index in `from..total-1` missing from `acked`. */
  function FirstUnacked(acked: set<int>, total: int, from: nat): (r: Option<nat>)
    ensures r.Some? ==> from <= r.value < total && r.value !in acked
                        && forall k :: from <= k < r.value ==> k in acked
    ensures r.None? ==> forall k :: from <= k < total ==> k in acked
    decreases total - from
  {
    if from >= total then None
    else if from !in acked then Some(from)
    else FirstUnacked(acked, total, from + 1)
  }

  /** `_process_sender_transfer`: at most one chunk per call, the lowest
      unacknowledged one, and only while fewer than SendWindow chunks are
      outstanding. The result names the chunk whose send was attempted. */
  function ProcessSenderTransfer(t: FileTransfer, file: Option<seq<byte>>, localMac: string, codec: Codec,
                                 now: int, micros: int, sendOk: bool): (r: (ChunkSend, Option<nat>))
    ensures r.1.None? ==> r.0 == ChunkSend(t, false, None, [])
    ensures r.1.Some? ==> && r.1.value < t.totalChunks && r.1.value !in t.chunksAcked
                          && (forall k :: 0 <= k < r.1.value ==> k in t.chunksAcked)
                          && t.chunksSent - |t.chunksAcked| < SendWindow
                          && r.0 == SendFileChunk(t, r.1.value, file, localMac, codec, now, micros, sendOk)
    ensures (forall k :: 0 <= k < t.totalChunks ==> k in t.chunksAcked) ==> r.1.None?
    ensures t.chunksSent - |t.chunksAcked| >= SendWindow ==> r.1.None?
  {
    match FirstUnacked(t.chunksAcked, t.totalChunks, 0)
    case None => (ChunkSend(t, false, None, []), None)
    case Some(n) =>
      if t.chunksSent - |t.chunksAcked| < SendWindow then
        (SendFileChunk(t, n, file, localMac, codec, now, micros, sendOk), Some(n))
      else (ChunkSend(t, false, None, []), None)
  }

  predicate Stale(t: FileTransfer, now: int) {
    now - t.lastActivity > FileTimeoutMs
  }

  /** One transfer of the management loop: fail it if idle for longer than
      FILE_TIMEOUT, otherwise let an active sender send. `files` maps a
      path to its contents (None: it cannot be opened). */
  function SweepStep(st: State, id: string, files: string -> Option<seq<byte>>, codec: Codec,
                     now: int, micros: int, sendOk: bool): (r: (State, Option<OutFrame>, seq<Notice>))
    requires id in st.active
    ensures Stale(st.active[id], now) ==>
              r == (Finish(st, id, Failed), None, [Ended(st.active[id].(status := Failed))])
    ensures !Stale(st.active[id], now) ==>
              id in r.0.active && !Stale(r.0.active[id], now) && r.0.completed == st.completed
              && r.0.active.Keys == st.active.Keys
              && (r.2 == [] || r.2 == [Progressed(r.0.active[id])])
    ensures forall k :: k in st.active && k != id ==> k in r.0.active && r.0.active[k] == st.active[k]
    ensures r.0.localMac == st.localMac
    ensures forall k :: k in r.0.active ==> k in st.active
    ensures forall k :: k in st.completed && k != id ==> k in r.0.completed && r.0.completed[k] == st.completed[k]
  {
    var t := st.active[id];
    if Stale(t, now) then (Finish(st, id, Failed), None, [Ended(t.(status := Failed))])
    else if t.isSender && t.status == Active then
      var p := ProcessSenderTransfer(t, files(t.filePath), st.localMac, codec, now, micros, sendOk);
      (State(st.localMac, st.active[id := p.0.transfer], st.completed), p.0.frame, p.0.notices)
    else (st, None, [])
  }

  /** Cancelling a transfer and timing it out move it the same way; only
      the recorded status differs. */
  lemma CancelAgreesWithTimeout(st: State, id: string, files: string -> Option<seq<byte>>, codec: Codec,
                                now: int, micros: int, sendOk: bool)
    requires id in st.active && Stale(st.active[id], now)
    ensures var cancelled := CancelTransfer(st, id).0;
            var timedOut := SweepStep(st, id, files, codec, now, micros, sendOk).0;
            && cancelled.active == timedOut.active
            && cancelled.completed.Keys == timedOut.completed.Keys
            && (forall k :: k in cancelled.completed && k != id ==> cancelled.completed[k] == timedOut.completed[k])
            && cancelled.completed[id].status == Cancelled && timedOut.completed[id].status == Failed
            && cancelled.completed[id].(status := Failed) == timedOut.completed[id]
            && CancelTransfer(st, id).2 == [Ended(cancelled.completed[id])]
            && SweepStep(st, id, files, codec, now, micros, sendOk).2 == [Ended(timedOut.completed[id])]
  {
  }

  predicate Distinct(ids: seq<string>) {
    forall i, j :: 0 <= i < j < |ids| ==> ids[i] != ids[j]
  }

  /** One pass of `_transfer_management_loop` over the snapshot `ids` of
      the active table, in its iteration order. */
  function Sweep(st: State, ids: seq<string>, files: string -> Option<seq<byte>>, codec: Codec,
                 now: int, micros: int, sendOk: bool): (r: (State, seq<OutFrame>, seq<Notice>))
    requires Distinct(ids) && forall i :: 0 <= i < |ids| ==> ids[i] in st.active
    ensures r.0.localMac == st.localMac
    ensures forall k :: k in r.0.active ==> k in st.active
    ensures |r.2| <= |ids|
    decreases |ids|
  {
    if ids == [] then (st, [], [])
    else
      var step := SweepStep(st, ids[0], files, codec, now, micros, sendOk);
      assert forall i :: 1 <= i < |ids| ==> ids[i] != ids[0];
      var rest := Sweep(step.0, ids[1..], files, codec, now, micros, sendOk);
      (rest.0, (if step.1.Some? then [step.1.value] else []) + rest.1, step.2 + rest.2)
  }

  /** After a sweep over the whole active table, no transfer left active
      has been idle for longer than FILE_TIMEOUT, and every transfer that
      was removed sits in the completed table. */
  lemma {:induction false} SweepLeavesNoStale(st: State, ids: seq<string>, files: string -> Option<seq<byte>>,
                                              codec: Codec, now: int, micros: int, sendOk: bool)
    requires Distinct(ids) && forall i :: 0 <= i < |ids| ==> ids[i] in st.active
    requires forall k :: k in st.active ==> k in ids || !Stale(st.active[k], now)
    ensures var r := Sweep(st, ids, files, codec, now, micros, sendOk).0;
            && (forall k :: k in r.active ==> !Stale(r.active[k], now))
            && (forall k :: k in st.active && k !in r.active ==> k in r.completed)
    decreases |ids|
  {
    if ids != [] {
      var step := SweepStep(st, ids[0], files, codec, now, micros, sendOk);
      assert forall i :: 1 <= i < |ids| ==> ids[i] != ids[0];
      assert forall k :: k in step.0.active ==> k in ids[1..] || !Stale(step.0.active[k], now) by {
        forall k | k in step.0.active
          ensures k in ids[1..] || !Stale(step.0.active[k], now)
        {
          if k != ids[0] && k !in ids[1..] {
            assert k !in ids;
          }
        }
      }
      SweepLeavesNoStale(step.0, ids[1..], files, codec, now, micros, sendOk);
      var r := Sweep(step.0, ids[1..], files, codec, now, micros, sendOk).0;
      forall k | k in st.active && k !in r.active
        ensures k in r.completed
      {
        if k in step.0.active {
        } else {
          assert k == ids[0];
          assert k in step.0.completed;
          SweepKeepsCompleted(step.0, ids[1..], files, codec, now, micros, sendOk, k);
        }
      }
    }
  }

  /** A sweep never drops a completed entry. */
  lemma {:induction false} SweepKeepsCompleted(st: State, ids: seq<string>, files: string -> Option<seq<byte>>,
                                               codec: Codec, now: int, micros: int, sendOk: bool, k: string)
    requires Distinct(ids) && forall i :: 0 <= i < |ids| ==> ids[i] in st.active
    requires k in st.completed
    ensures k in Sweep(st, ids, files, codec, now, micros, sendOk).0.completed
    decreases |ids|
  {
    if ids != [] {
      var step := SweepStep(st, ids[0], files, codec, now, micros, sendOk);
      assert forall i :: 1 <= i < |ids| ==> ids[i] != ids[0];
      assert k in step.0.completed;
      SweepKeepsCompleted(step.0, ids[1..], files, codec, now, micros, sendOk, k);
    }
  }

  /** A sweep leaves a completed entry it does not visit untouched. */
  lemma {:induction false} SweepKeepsUnvisited(st: State, ids: seq<string>, files: string -> Option<seq<byte>>,
                                               codec: Codec, now: int, micros: int, sendOk: bool, k: string)
    requires Distinct(ids) && forall i :: 0 <= i < |ids| ==> ids[i] in st.active
    requires k in st.completed && k !in ids
    ensures var r := Sweep(st, ids, files, codec, now, micros, sendOk).0;
            k in r.completed && r.completed[k] == st.completed[k]
    decreases |ids|
  {
    if ids != [] {
      var step := SweepStep(st, ids[0], files, codec, now, micros, sendOk);
      assert forall i :: 1 <= i < |ids| ==> ids[i] != ids[0];
      assert k != ids[0];
      assert k !in ids[1..];
      SweepKeepsUnvisited(step.0, ids[1..], files, codec, now, micros, sendOk, k);
    }
  }

  /** Every transfer a sweep removes from the active table is reported to
      the callbacks by a completion notice carrying its final record. */
  lemma {:induction false} SweepReportsEveryEnd(st: State, ids: seq<string>, files: string -> Option<seq<byte>>,
                                                codec: Codec, now: int, micros: int, sendOk: bool)
    requires Distinct(ids) && forall i :: 0 <= i < |ids| ==> ids[i] in st.active
    ensures var r := Sweep(st, ids, files, codec, now, micros, sendOk);
            forall k :: k in st.active && k !in r.0.active ==> k in r.0.completed && Ended(r.0.completed[k]) in r.2
    decreases |ids|
  {
    if ids != [] {
      var step := SweepStep(st, ids[0], files, codec, now, micros, sendOk);
      assert forall i :: 1 <= i < |ids| ==> ids[i] != ids[0];
      SweepReportsEveryEnd(step.0, ids[1..], files, codec, now, micros, sendOk);
      var rest := Sweep(step.0, ids[1..], files, codec, now, micros, sendOk);
      var r := Sweep(st, ids, files, codec, now, micros, sendOk);
      assert r.0 == rest.0 && r.2 == step.2 + rest.2;
      forall k | k in st.active && k !in r.0.active
        ensures k in r.0.completed && Ended(r.0.completed[k]) in r.2
      {
        if k in step.0.active {
          assert Ended(rest.0.completed[k]) in rest.2;
        } else {
          assert k == ids[0];
          assert k !in ids[1..];
          SweepKeepsUnvisited(step.0, ids[1..], files, codec, now, micros, sendOk, k);
          assert step.2 == [Ended(step.0.completed[k])];
        }
      }
    }
  }
}

=== FILE: wrappers.dfy ===
/** Failure-compatible optional values, used wherever the Python source
    returns `None` or swallows an exception. */
module Wrappers {

  datatype Option<+T> = None | Some(value: T) {

    /** True if is None */
    predicate IsFailure() {
      None?
    }

    function PropagateFailure<U>(): Option<U>
      requires None?
    {
      None
    }

    function Extract(): T
      requires Some?
    {
      value
    }

    /** The value in Some, or `default` (Python's `dict.get(key, default)`). */
    function GetOr(default: T): T {
      match this
      case Some(v) => v
      case None => default
    }
  }
}
